=== FILE: README.md ===
# BD-NSQL coursework: airport catalogue, import, rentals and heroes in Dafny

This project models the logic of a university coursework repository on NoSQL stores:

- **TP6 airport catalogue backend.** Airport documents live in MongoDB. Two Redis indexes derive from them: a geo index `airports_geo` (member = key `iata_code || ident`, value = longitude/latitude) and a popularity ranking `airport_popularity` (a sorted set with one whole-key expiry).
  - The routes list, look up, rank, create, update and delete airports (`routes/airports.js`).
  - They find airports near a point, with a box-search fallback, and compute the distance between two codes (`routes/location.js`).
  - They search by code and by text (`routes/search.js`).
- **TP6 import.** Two importers turn a raw JSON file into airport documents and fill the stores in batches: the server's start-up import (`server.js`) and the stand-alone script (`scripts/importData.js`). They normalise differently, and `ImportDivergence` shows three items on which they disagree.
- **TP6 frontend logic.** The airport form's validation and mode handling (`AirportManager.js`), the home page's code-or-text search box (`SearchBox.js`) and the management page's search, selection and refresh (`Manage.js`).
- **TP2 episode rental.** A Redis state machine: `disponible`, then `reservado` for 240 s, then `alquilado` for 86400 s. Expiry deletes the key. There is also a listing grouped by season.
- **TP5 heroes.** The Mongoose hero schema (required fields, trim/lowercase setters, publisher enum, non-empty images) and the CRUD routes with their image filtering and status codes.

The stores are immutable values: the document collection is a `seq` in natural (insertion) order, the geo index a `map`, the ranking a `map` of scores plus an optional expiry instant. Every route is a pure function from the stores and its inputs to a response and the stores after.

The model does not run any foreign call. Each one is a parameter, as are the clock `now` and every best-effort Redis write:
- `IndexCall`: `NoClient`, `Fails` or `Works`;
- `parseFloat`: `string -> Option<real>`, where `None` is `NaN`;
- `JSON.parse`: `string -> Option<Json>`;
- the distance formula;
- the Mongo regex test;
- the Redis replies of `GEORADIUS`, `ZRANGE` and `KEYS`;
- the per-batch outcome of `insertMany` and `GEOADD`;
- the hero store's `Db` (whether it is up, and whether an id casts to an ObjectId).

`Number.parseInt`, `isNaN`/`Number()` coercion, `trim`, ASCII case mapping, `padStart` and the `||` chains are written out. This lets the identifier quirks (`"12abc"`, `"1e3"`) and the import fall-throughs be proved.

Behaviour of the code that a reader might not expect, each with the lemma that states it:
- **Numeric identifiers.** The routes test `!isNaN(identifier)` and then call `parseInt`, so `"1e3"` selects id 1 and `"12abc"` selects by code (`AirportModel.ResolveExponent`, `AirportModel.ResolveDigitsThenLetters`).
- **Ranking expiry after import.** Both importers run `EXPIRE` on the ranking right after `DEL` of the same key, so it is a no-op (`Indexes.ExpireAfterDeleteIsNoOp`). The expiry is set only by a lookup.
- **Uniqueness.** `ident` is only indexed, not unique, and `autoIndex` is off. Uniqueness of `ident` and `iata_code` holds only through the create-time checks (`AirportModel.IdentNotUniqueBySchema`, `AirportRoutes.CreateKeepsCodesUnique`).
- **Code search counting.** The code search increments through `app.locals.redisClient`, which the server never sets. A found airport therefore becomes a 500 (`SearchRoutes.CodeSearchNeverAnswers`).

Modules, one per source file or shared concern:
- Shared: `Wrappers`, `Seqs`, `Sorting`, `JsText`, `JsValue`, `TextLines`, `Http`.
- Catalogue: `AirportModel`, `Indexes`, `AirportRoutes`, `LocationRoutes`, `SearchRoutes`.
- Import: `ImportCommon`, `ServerImport`, `ScriptImport`, `ImportDivergence`.
- Frontend: `AirportForm`, `AirportSearch`, `SearchBox`, `ManagePage`.
- Rentals and heroes: `EpisodeRental`, `HeroModel`, `HeroRoutes`.

## Model

| member | source | states |
|---|---|---|
| AirportModel.FindFirst | TP6/backend/routes/airports.js:50 | `findOne` in natural order: the result is a matching position with no match before it, and it is absent exactly when no document matches |
| AirportModel.MaxId | TP6/backend/routes/airports.js:201 | `findOne().sort({id:-1})`: the result bounds every id and is the id of some document |
| AirportModel.Resolve | TP6/backend/routes/airports.js:36-48 | an identifier selects by id exactly when `isNaN` lets it through, with `parseInt` of it as the id; otherwise by its character-wise upper case, of the same length |
| AirportModel.ResolveDigits | TP6/backend/routes/airports.js:40-41 | an identifier of decimal digits selects the document whose `id` is its decimal value |
| AirportModel.ResolveNonNumeric | TP6/backend/routes/airports.js:42-47 | a non-numeric identifier selects by code, and a document matches exactly when its `iata_code` or `ident` equals the upper-cased identifier |
| AirportModel.DigitsThenLettersNotNumeric | TP6/backend/routes/airports.js:40 | `"12abc"` is `NaN` to `isNaN` |
| AirportModel.UpperDigitsThenLetters | TP6/backend/routes/airports.js:44 | upper-casing `"12abc"` gives `"12ABC"` |
| AirportModel.ResolveDigitsThenLetters | TP6/backend/routes/airports.js:40-47 | `"12abc"` takes the code path and looks up `"12ABC"` |
| AirportModel.ExponentNumeric | TP6/backend/routes/airports.js:40 | `"1e3"` passes the `!isNaN` test |
| AirportModel.ParseIntStopsAtExponent | TP6/backend/routes/airports.js:41 | `parseInt("1e3")` is 1 |
| AirportModel.ResolveExponent | TP6/backend/routes/airports.js:40-41 | `"1e3"` selects the document with id 1, not 1000 |
| AirportModel.NumericWithoutDigitsUncastable | TP6/backend/routes/airports.js:40-41 | `" "` and `".5"` pass `!isNaN` but `parseInt` gives `NaN`, a selector the store cannot cast |
| AirportModel.InfinityUncastable | TP6/backend/routes/airports.js:40-41 | `"Infinity"` also passes `!isNaN` and becomes the uncastable `{ id: NaN }` |
| AirportModel.IdentNotUniqueBySchema | TP6/backend/models/Airport.js:10-14 | `ident` is indexed but not unique: two schema-valid documents with different ids may share it |
| Indexes.GeoAdd | TP6/backend/routes/airports.js:225-237 | a working `GEOADD` sets the key's position and keeps every other entry; a missing or failing client changes nothing |
| Indexes.GeoRemove | TP6/backend/routes/airports.js:364-368 | a working `ZREM` on the geo key removes exactly that member; otherwise nothing changes |
| Indexes.Live | TP6/backend/routes/airports.js:66 | once the ranking's expiry has passed the whole key is gone; before it the ranking is unchanged |
| Indexes.Increment | TP6/backend/routes/airports.js:63 | `ZINCRBY 1` raises that member's score by one (from 0 when absent), leaves every other score and the expiry, and adds only that member |
| Indexes.Expire | TP6/backend/routes/airports.js:66 | `EXPIRE` on an existing key sets its expiry to `now + secs`; on a missing key it does nothing |
| Indexes.RemoveMember | TP6/backend/routes/airports.js:370-373 | `ZREM` on the ranking removes only that member and keeps the other scores and the expiry; removing the last member deletes the key and its expiry |
| Indexes.Delete | TP6/backend/server.js:286 | after `DEL` every member scores 0 and a later `EXPIRE` finds nothing to time |
| Indexes.ExpireAfterDeleteIsNoOp | TP6/backend/server.js:285-289 | the import's `EXPIRE` right after `DEL` leaves the ranking without any expiry |
| AirportRoutes.CeilDiv | TP6/backend/routes/airports.js:23 | `Math.ceil(total / limit)`: the least multiple count covering `total` for a positive limit |
| AirportRoutes.PageNumber | TP6/backend/routes/airports.js:8 | `parseInt(page) \|\| 1` is never 0 |
| AirportRoutes.PageSize | TP6/backend/routes/airports.js:9 | `min(parseInt(limit) \|\| 20, 1000)`: non-zero, at most 1000, 20 when unparsable |
| AirportRoutes.Window | TP6/backend/routes/airports.js:12-14 | `skip(k).limit(n)` is the contiguous slice starting at `k` of at most `n` documents, empty past the end, full when enough remain |
| AirportRoutes.ListPage | TP6/backend/routes/airports.js:6-31 | a negative skip is exactly the error case, and every other page answers: the page's window and the pagination `(page, ceil(total/limit), total)` |
| AirportRoutes.ListPageWindow | TP6/backend/routes/airports.js:10-24 | with a positive limit `n`, page `k` answers the `k`-th window of the page sequence, documents `(k-1)*n` onward, non-empty exactly when `k <= ceil(total/n)` |
| AirportRoutes.WindowWithinPages | TP6/backend/routes/airports.js:13-22 | the `k`-th window of size `n` holds documents exactly when `k` is at most `ceil(total/n)` |
| AirportRoutes.PagesCoverCatalogue | TP6/backend/routes/airports.js:10-24 | with a positive limit, the windows of pages `1..ceil(total/limit)` concatenate to the whole catalogue in natural order |
| AirportRoutes.Lookup | TP6/backend/routes/airports.js:34-79 | a numeric identifier without digits (`" "`, `".5"`), which casts to `NaN`, is exactly the 500; otherwise 404 exactly when nothing matches, and a castable identifier that matches answers the first match; errors change nothing; its key's score rises by 1, others unchanged; the expiry moves to `now + 86400` only when `EXPIRE` works; documents and geo are never touched |
| AirportRoutes.Bump | TP6/backend/routes/airports.js:57-72 | `ZINCRBY` then `EXPIRE` in one `try`: a failing increment skips the expiry; a working one adds 1 to the key only |
| AirportRoutes.LookupTwiceAddsTwo | TP6/backend/routes/airports.js:50-66 | two lookups within the expiry return the same airport and raise its key's score by exactly 2, others unchanged |
| AirportRoutes.RankingLimit | TP6/backend/routes/airports.js:85 | `parseInt(limit) \|\| 10` is never 0 and is 10 when unparsable |
| AirportRoutes.RangeCount | TP6/backend/routes/airports.js:92-99 | `ZRANGE 0 limit-1` returns `min(limit, size)` members for a positive limit, and drops members from the end for a negative one |
| AirportRoutes.Pairs | TP6/backend/routes/airports.js:108-116 | the reply read as (member, score) pairs at even indices, `\|reply\|/2` of them, a trailing member dropped |
| AirportRoutes.FindPair | TP6/backend/routes/airports.js:132 | `find` by code: the first pair for the key, absent exactly when none has it |
| AirportRoutes.RankingFromReply | TP6/backend/routes/airports.js:107-138 | fewer than two reply elements give `[]`; the result is sorted by score descending; it holds exactly the requested documents, each scored by its own key, as many as are requested |
| AirportRoutes.RankingFacts | TP6/backend/routes/airports.js:118-138 | any permutation of the hydrated documents sorted by score is descending, sound and complete, and empty without pairs |
| AirportRoutes.NoPairsNoRanking | TP6/backend/routes/airports.js:118-120 | with no pairs nothing is requested, so the ranking is empty |
| AirportRoutes.RankingDescending | TP6/backend/routes/airports.js:138 | the comparator `b.score - a.score` leaves scores non-increasing |
| Sorting.SortByStable | TP6/backend/routes/location.js:96 | `Array.prototype.sort` is stable: the elements of any one key keep their input order |
| AirportRoutes.RankingSound | TP6/backend/routes/airports.js:123-136 | every ranked entry is a stored, requested document carrying its own key's score |
| AirportRoutes.RankingComplete | TP6/backend/routes/airports.js:124-136 | every requested document appears in the ranking with its key's score |
| AirportRoutes.FoundByIdentScoresZero | TP6/backend/routes/airports.js:124-135 | a document requested through its `ident` but keyed by an unscored IATA code is ranked with score 0 |
| AirportRoutes.Ranking | TP6/backend/routes/airports.js:82-146 | no client gives `[]`; a throwing `ZRANGE` is a 500; a reply gives the ranking built from it (sorted, sound and complete, as `RankingFromReply` states), at most as many entries as documents |
| AirportRoutes.RankingOfRangeReply | TP6/backend/routes/airports.js:85-120 | a reply of `ZRANGE 0 (limit-1)` on `size` members pairs `RangeCount(size, limit)` codes: at most `limit` for a positive limit, the top ten when the limit does not parse, and an empty ranking when the range selects nothing |
| AirportRoutes.NextId | TP6/backend/routes/airports.js:200-202 | the next id exceeds every id in use, is 1 on an empty store, and is otherwise the largest id plus one |
| AirportRoutes.Create | TP6/backend/routes/airports.js:149-245 | rejections in route order (missing field; latitude, then longitude, `NaN` or out of range; duplicate upper-cased `ident`; duplicate upper-cased IATA code) write nothing; once they pass, the create succeeds exactly when the elevation is absent, falsy or parses and the trimmed name and the type are non-empty, and is a 500 otherwise; a success appends one schema-valid document with a new largest id, upper-cased codes, trimmed name as keywords, the parsed in-range coordinates, the `parseInt` elevation, and its geo entry under `iata_code \|\| ident` |
| AirportRoutes.CreateValidatorsDecide | TP6/backend/routes/airports.js:203-223 | once the route's checks pass and the elevation parses, the create is accepted exactly when the trimmed name and the type are non-empty (the schema's `required`) |
| JsValue.ParseIntValue | TP6/backend/routes/airports.js:211 | `Number.parseInt(String(v))`: a string through `parseInt`'s reader, an array through its first element, a number by its integer part or, in exponent form, its signed leading digit; `null`, booleans, objects, an empty array and a missing field are `NaN` |
| JsValue.IntOfNumber | TP6/backend/routes/airports.js:285 | a number below `1e21` and not below `1e-6` in magnitude reads as its integer part; any other non-zero number prints in exponent form and reads as its signed leading digit |
| JsValue.ArrayIntReadsFirstText | TP6/backend/routes/airports.js:211 | `parseInt` of an array with a string first element reads that string, whatever comma-led text follows it |
| JsValue.ArrayIntReadsFirstElement | TP6/backend/routes/airports.js:211 | an array reads as its first element when that is not `null` |
| JsValue.ArrayIntExamples | TP6/backend/routes/airports.js:211 | `parseInt([1200])` is 1200 |
| JsValue.ArrayTextIntExample | TP6/backend/routes/airports.js:211 | `parseInt(["12abc", 5])` is 12 |
| JsValue.ExponentIntExamples | TP6/backend/routes/airports.js:285 | `parseInt(1e21)` and `parseInt(1e-7)` are 1, `parseInt(-2.5e-7)` is -2, `parseInt(1200.7)` is 1200 |
| JsText.ParseIntStopsAtComma | TP6/backend/routes/airports.js:211 | `parseInt(s + ",...")` is `parseInt(s)`: the reader never passes a comma |
| JsValue.ParseFloat | TP6/backend/routes/airports.js:269 | `parseFloat(String(v))`: a number reads as itself, a string through the text reader, `null`, booleans, objects and a missing field as `NaN` |
| JsValue.ArrayReadsFirstElement | TP6/backend/routes/airports.js:269 | an array reads as its first element when that is not `null`, because no number text holds the joining comma |
| JsValue.ArrayWithoutFirstText | TP6/backend/routes/airports.js:269 | an empty array, or one whose first element is `null`, reads as the empty text |
| AirportRoutes.CreateKeepsIdsUnique | TP6/backend/routes/airports.js:200-205 | ids stay pairwise distinct after a create |
| AirportRoutes.CreateKeepsCodesUnique | TP6/backend/routes/airports.js:186-198 | the duplicate checks keep `ident`s and non-empty IATA codes pairwise distinct |
| AirportRoutes.CreateThenLookup | TP6/backend/routes/airports.js:44-50 | for every body the create accepts, looking up its upper-cased, non-numeric `ident` afterwards returns the created airport, unless an older document has that text as IATA code |
| AirportRoutes.CreateShadowedByIataCode | TP6/backend/routes/airports.js:46 | for an accepted body, when an older document's IATA code equals the new `ident`, the lookup by that `ident` returns the older document |
| AirportRoutes.AppendKeepsGeoInSync | TP6/backend/routes/airports.js:222-231 | appending a document with its geo entry under a new key keeps every document indexed and every member owned |
| AirportRoutes.CreateKeepsGeoInSync | TP6/backend/routes/airports.js:224-237 | an accepted create with a new key whose `GEOADD` works keeps the geo index in step with the documents |
| AirportRoutes.CreateWithoutGeoLeavesGap | TP6/backend/routes/airports.js:235-237 | an accepted create whose `GEOADD` fails leaves a stored document without a geo entry |
| AirportRoutes.Update | TP6/backend/routes/airports.js:248-331 | a bad supplied latitude, then longitude, is a 400 before any lookup; an empty required field or an uncastable identifier is a 500; no match is a 404; errors change nothing; the update succeeds exactly when all these checks pass and a document is selected; a success rewrites the first match: each carried field is written (coordinates parsed, `ident` and a truthy `iata_code` upper-cased, elevation `parseInt(..) \|\| 0`, `null` kept as `null`) and every field the body does not carry keeps its value; the geo entry is rewritten under the new key only when a coordinate was supplied |
| AirportRoutes.UpdateLeavesStaleGeoKey | TP6/backend/routes/airports.js:302-316 | an accepted update that moves an airport and changes its key leaves the old key in the geo index with no document behind it |
| AirportRoutes.UpdateKeepsGeoCover | TP6/backend/routes/airports.js:302-303 | an accepted update that neither moves the airport nor changes its key keeps every document indexed |
| AirportRoutes.Delete | TP6/backend/routes/airports.js:334-385 | an uncastable identifier is exactly the 500; otherwise 404 exactly when nothing matches; errors change nothing; a castable identifier that matches removes and answers the first match; its key is removed from the geo index and then, if that did not throw, from the ranking, whose other members keep their scores and whose expiry stays, unless it was the last member |
| AirportRoutes.UniqueIdsMatchOnce | TP6/backend/models/Airport.js:5-9 | with unique ids a numeric selector matches at most one document |
| AirportRoutes.DeleteTwiceNotFound | TP6/backend/routes/airports.js:352-356 | when the identifier selects exactly one document, the first delete removes it and a second is a 404 |
| AirportRoutes.DeleteKeepsNoOrphans | TP6/backend/routes/airports.js:358-368 | a delete of a selected document whose geo removal works leaves every geo member owned by a document |
| AirportRoutes.DeleteKeepsGeoCover | TP6/backend/routes/airports.js:352-368 | with distinct keys, the remaining documents keep their geo entries after the delete of a selected document |
| LocationRoutes.EntryCodes | TP6/backend/routes/location.js:54-60 | the codes of the entries with at least three elements, and only those |
| LocationRoutes.LastDistance | TP6/backend/routes/location.js:61-64 | `distanceMap` holds, for a code, the distance of its last entry, and nothing when no entry has the code |
| LocationRoutes.LastEntryWins | TP6/backend/routes/location.js:61 | `Map.set` overwrites: a later entry for a code replaces the earlier distance |
| LocationRoutes.OtherEntriesIgnored | TP6/backend/routes/location.js:55 | malformed entries and entries for other codes leave a code's distance unchanged |
| LocationRoutes.FromGeoReply | TP6/backend/routes/location.js:76-96 | sorted by distance ascending; exactly the requested documents whose own key got a distance, each with that distance; one answer per such document |
| LocationRoutes.GeoReplyFacts | TP6/backend/routes/location.js:83-96 | any permutation of the joined documents is sound and complete |
| LocationRoutes.GeoReplySound | TP6/backend/routes/location.js:83-93 | every answered document is stored, requested, and carries its key's distance |
| LocationRoutes.GeoReplyComplete | TP6/backend/routes/location.js:76-93 | every requested document whose key got a distance is answered |
| LocationRoutes.FoundByOtherCodeDropped | TP6/backend/routes/location.js:85-93 | a document found through its `ident` whose IATA key has no entry is dropped |
| LocationRoutes.BoxCandidates | TP6/backend/routes/location.js:116-132 | at most 200 documents, each in the box `±radius/111` of latitude and `±lngDelta` of longitude |
| LocationRoutes.Fallback | TP6/backend/routes/location.js:111-156 | one result per box candidate within the radius, so at most 200, sorted ascending, each a box document within the radius with its computed distance; every candidate within the radius is kept |
| LocationRoutes.FallbackFacts | TP6/backend/routes/location.js:137-148 | a permutation of the radius filter holds exactly the candidates within the radius |
| LocationRoutes.FallbackCompleteWhenBoxIsSmall | TP6/backend/routes/location.js:123-145 | when the box holds at most 200 documents, none within the radius is missed |
| LocationRoutes.Nearby | TP6/backend/routes/location.js:6-108 | a missing `lat`/`lon` is exactly the 400; a `NaN` coordinate or radius is exactly the 500 of the box search the store cannot cast; a reply with a well-formed entry is answered from it; no client, a throw, an empty reply or only malformed entries fall back to the box search |
| LocationRoutes.NoFallbackAfterEmptyHydration | TP6/backend/routes/location.js:76-99 | entries that no document answers to give `[]`, and the fallback is not tried |
| LocationRoutes.DistanceBetween | TP6/backend/routes/location.js:159-197 | answered exactly when two documents answer to the upper-cased codes, else 404; it reports the first two in natural order and their distance |
| LocationRoutes.SameCodeTwice | TP6/backend/routes/location.js:164-170 | the same code twice is answered only when two different documents answer to it |
| SearchRoutes.FindByCode | TP6/backend/routes/search.js:11-13 | the first document whose `iata_code`, `ident` or `gps_code` equals the code, absent exactly when none does |
| SearchRoutes.CodeSearch | TP6/backend/routes/search.js:6-27 | 404 exactly when nothing matches; a match is a 500 without a working client and is answered with a working one; the answer is the first match, and it adds 1 to the member named by its id with no expiry change |
| SearchRoutes.CodeSearchNeverAnswers | TP6/backend/routes/search.js:20-21 | with the client the server leaves unset, the code search never answers with an airport and changes nothing |
| SearchRoutes.CodeSearchMissesLookupKey | TP6/backend/routes/search.js:21 | a code that matches, with a working client, is answered, and when the airport's key is not its id string the code search does not raise the score of the lookup's `iata_code \|\| ident` key |
| SearchRoutes.LetterCodeIsNoIdMember | TP6/backend/routes/search.js:21 | a code made of letters is never an id member, so the two counters never meet |
| SearchRoutes.TextSearch | TP6/backend/routes/search.js:30-50 | a rejected pattern is exactly the 500; otherwise the first `\|parseInt(limit) \|\| 10\|` matching documents in natural order |
| SearchRoutes.TextSearchCompleteBelowLimit | TP6/backend/routes/search.js:43 | when the matches fit within the limit, every match is answered |
| TextLines.NormalizeNewlines | TP6/backend/server.js:61-62 | after replacing `\r\n` and then lone `\r` by `\n` no `\r` is left, and the text is no longer than before |
| TextLines.NormalizeWithoutCarriageReturn | TP6/backend/server.js:61-62 | text with no `\r` comes out unchanged |
| TextLines.NormalizeIdempotent | TP6/backend/server.js:61-62 | normalising twice is normalising once |
| TextLines.Split | TP6/backend/server.js:75 | `split("\n")`: at least one piece, none holding the separator, and joining them with it gives the text back |
| TextLines.SplitJoin | TP6/backend/server.js:75 | splitting a join of separator-free pieces gives the pieces back |
| TextLines.CountChar | TP6/backend/server.js:90 | `(line.match(/\{/g) \|\| []).length`: at most the length, and 0 exactly when the character does not occur |
| TextLines.CountCharAppend | TP6/backend/server.js:94 | counts add up over concatenation, so a joined text's brace balance is the sum of its lines' |
| TextLines.NonBlankLines | TP6/backend/server.js:75 | the `\n`-separated lines that are not blank, in order |
| ImportCommon.TextOrAgreesWithNull | TP6/backend/scripts/importData.js:85-96 | the `\|\| fallback` and `\|\| null` chains pick the same field; the fallback appears exactly where the other chain gives `null` |
| ImportCommon.ThreeLetterCode | TP6/backend/server.js:219 | a code is kept exactly when it is truthy and its `.length` is 3 |
| ImportCommon.UnknownIdent | TP6/backend/server.js:186 | `"UNKN"` followed by the zero-padded number, which `parseInt` reads back as `index + 1` |
| ImportCommon.Converted | TP6/backend/server.js:131-232 | the first `n` items convert to at most `n` documents |
| ImportCommon.ConvertedIds | TP6/backend/server.js:206 | the ids lie in `1..n` and strictly increase, and each document is what its item converts to |
| ImportCommon.ConvertedComplete | TP6/backend/server.js:226 | every item that converts is among the documents |
| ImportCommon.ConvertEach | TP6/backend/server.js:127-235 | the loop yields the converted documents, and `valid + invalid` is the number of items |
| ImportCommon.Chunks | TP6/backend/server.js:300-301 | slices of the batch size that concatenate to the input, all full but the last |
| ImportCommon.AddAll | TP6/backend/server.js:308-319 | one `GEOADD` of a batch: each member's key maps to the position of its last member with that key, other keys kept |
| ImportCommon.Load | TP6/backend/server.js:300-343 | the batch loop leaves the ranking untouched |
| ImportCommon.LoadDocs | TP6/backend/server.js:303-305 | loading appends exactly the batches whose `insertMany` succeeded |
| ImportCommon.LoadGeoKeys | TP6/backend/server.js:307-319 | a key is geo-indexed after loading exactly when it was before, or a stored batch with a working `GEOADD` has an eligible member with it |
| ServerImport.Coordinate | TP6/backend/server.js:146-164 | the first field whose value is present and parses in range is used; an out-of-range value falls through; absent exactly when no field qualifies; the result is in range |
| ServerImport.Name | TP6/backend/server.js:173-181 | the trimmed first non-blank string name field, else `"Unknown Airport"`; never blank |
| ServerImport.Elevation | TP6/backend/server.js:193-203 | `parseInt` of the first present field that reads as an integer, else 0 |
| ServerImport.ArrayElevation | TP6/backend/server.js:195-200 | `{"alt": [1200]}` gets elevation 1200 |
| ServerImport.ConvertItem | TP6/backend/server.js:131-227 | dropped exactly when not an object or lacking a valid latitude or longitude; otherwise id `index+1`, in-range coordinates, a non-blank name as keywords, the ident chain and a three-character IATA code |
| ServerImport.UnknownIdentsDiffer | TP6/backend/server.js:186 | items at different positions get different placeholder identifiers |
| ServerImport.ServerConverterNumbers | TP6/backend/server.js:206 | the converter numbers each document by its item's position |
| ServerImport.ConvertToAirportFormat | TP6/backend/server.js:124-236 | the converted documents, every item counted once as valid or invalid, ids in `1..n` and strictly increasing |
| ServerImport.JoinFrom | TP6/backend/server.js:88-96 | the joined text is the start text plus the consumed lines, and consumption stays within the lines |
| ServerImport.JoinWindow | TP6/backend/server.js:92-96 | the brace count is positive before every consumed line and not positive where the joining stops early |
| ServerImport.JoinLines | TP6/backend/server.js:88-96 | the inner `while` loop computes the joining |
| ServerImport.RepairLines | TP6/backend/server.js:74-108 | the outer loop, with its `i = j - 1` skip, yields the repaired objects |
| ServerImport.RepairOne | TP6/backend/server.js:79-105 | one pass yields at most one object and moves strictly forward |
| ServerImport.RepairOfParsableLines | TP6/backend/server.js:82-85 | when every line parses alone, repair yields one object per line, in order |
| ServerImport.ProcessTransportData | TP6/backend/server.js:47-121 | a parsed array is used as is; a parsed value other than an array or `null` is an error; unparsable text, and text that parses to `null` (whose `length` throws in the same `try`), is repaired line by line |
| ServerImport.NullTextRepaired | TP6/backend/server.js:67-72 | the text `null` is repaired into the one value `null`, which passes the array check |
| ServerImport.Cleaned | TP6/backend/server.js:58-63 | the cleaned text is no longer than the raw text and has no surrounding whitespace |
| ServerImport.CleanedOfCleanText | TP6/backend/server.js:58-63 | a text without a leading BOM, `\r` or surrounding whitespace is left as it is |
| ServerImport.CleanedHasNoCarriageReturn | TP6/backend/server.js:59-63 | the cleaned text holds no `\r` |
| ServerImport.Clear | TP6/backend/server.js:284-293 | `DEL` geo, then `DEL` ranking, then `EXPIRE`, with a failing command skipping the rest; documents untouched |
| ServerImport.AutoImport | TP6/backend/server.js:239-354 | nothing changes when documents exist or no airport converts; on an empty catalogue the documents are the stored batches of 50; the ranking is either kept as it was or emptied |
| ServerImport.AutoImportStoresEverything | TP6/backend/server.js:295-343 | when every batch inserts, the catalogue is exactly the converted airports in order |
| ServerImport.ZeroCoordinateNotIndexed | TP6/backend/server.js:309-315 | an airport with latitude or longitude 0 is stored but gets no geo entry, unless an eligible airport shares its key |
| ScriptImport.FirstOf | TP6/backend/scripts/importData.js:71-72 | `a \|\| b \|\| ... \|\| fallback`: the first truthy field, else the fallback |
| ScriptImport.Coordinate | TP6/backend/scripts/importData.js:71-72 | only the first truthy field is parsed, and 0 when none is truthy |
| ScriptImport.DefaultName | TP6/backend/scripts/importData.js:79 | `"Airport " + (index+1)` is non-blank and already trimmed |
| ScriptImport.Name | TP6/backend/scripts/importData.js:79-80 | the first truthy name field trimmed, usable only when it is a non-blank string, else the default name |
| ScriptImport.Elevation | TP6/backend/scripts/importData.js:90 | `parseInt` of the first truthy field, 0 for `NaN` or no field |
| ScriptImport.ArrayElevation | TP6/backend/scripts/importData.js:90 | `{"alt": [1200]}` gets elevation 1200 |
| ScriptImport.ConvertItem | TP6/backend/scripts/importData.js:64-110 | kept exactly when an object with usable (non-zero, in-range) coordinates and a usable name; then id `index+1`, the parsed coordinates, the trimmed name as keywords, the ident chain, a three-character IATA code and the gps chain |
| ScriptImport.ScriptConverterNumbers | TP6/backend/scripts/importData.js:84 | the converter numbers each document by its item's position |
| ScriptImport.ConvertedAreUsable | TP6/backend/scripts/importData.js:75-80 | every converted airport has non-zero in-range coordinates and a non-blank name |
| ScriptImport.ConvertToAirportFormat | TP6/backend/scripts/importData.js:57-114 | the converted documents, every item processed once, all with usable coordinates |
| ScriptImport.ParsedLines | TP6/backend/scripts/importData.js:33-41 | at most one value per line |
| ScriptImport.ParsedLinesComplete | TP6/backend/scripts/importData.js:34-36 | every line that parses contributes its value |
| ScriptImport.ParsedLinesSound | TP6/backend/scripts/importData.js:33-41 | every value comes from a line that parses to it |
| ScriptImport.ParseEachLine | TP6/backend/scripts/importData.js:33-41 | the `for ... of` loop with `try`/`catch` computes the parsed lines |
| ScriptImport.StripBomAfterTrim | TP6/backend/scripts/importData.js:21 | removing a BOM after `trim` changes nothing, because `trim` already removed it |
| ScriptImport.ProcessDataFile | TP6/backend/scripts/importData.js:9-54 | parsed text is used as is, of any kind; otherwise the parsed lines as an array; an error exactly when no line parses |
| ScriptImport.ScriptAirports | TP6/backend/scripts/importData.js:159-167 | airports exactly when the file exists and yields an array; all of them usable |
| ScriptImport.Reload | TP6/backend/scripts/importData.js:186-221 | documents are the stored batches of 100, the ranking is empty, and the run succeeds exactly when something is stored |
| ScriptImport.ImportData | TP6/backend/scripts/importData.js:116-221 | a failure before any write leaves the stores as they were; otherwise the stores are reloaded |
| ScriptImport.ImportDataStoresEverything | TP6/backend/scripts/importData.js:193-221 | when every batch inserts, the run succeeds and the catalogue is exactly the converted airports |
| ScriptImport.ImportDataLeavesNoOrphans | TP6/backend/scripts/importData.js:186-213 | after a reload every geo member belongs to a stored document |
| ScriptImport.ReloadLeavesNoOrphans | TP6/backend/scripts/importData.js:187-213 | the geo key starts empty and only stored batches add to it, so no member is orphaned |
| ScriptImport.ReloadIndexesBatch | TP6/backend/scripts/importData.js:204-213 | every airport of a stored batch whose `geoAdd` worked is geo-indexed under `iata_code \|\| ident` |
| ScriptImport.ImportDataGeoKeys | TP6/backend/scripts/importData.js:204-213 | when every batch stores and indexes, the geo keys are exactly the converted airports' keys |
| ScriptImport.ReloadGeoKeys | TP6/backend/scripts/importData.js:205-212 | when every batch stores and indexes, a key is geo-indexed exactly when some airport has it |
| ImportDivergence.EquatorOnServer | TP6/backend/server.js:146-154 | the server keeps an item at latitude 0 |
| ImportDivergence.EquatorScriptLatitude | TP6/backend/scripts/importData.js:71 | a `0` latitude is falsy, so the script's chain falls through to 0 |
| ImportDivergence.EquatorInScript | TP6/backend/scripts/importData.js:75 | the script drops an item at latitude 0 |
| ImportDivergence.EquatorItem | TP6/backend/scripts/importData.js:71-75 | the same equator item is kept by the server and dropped by the script |
| ImportDivergence.OutOfRangeLatitude | TP6/backend/server.js:146-154 | the server reads the second latitude field once the first is out of range |
| ImportDivergence.OutOfRangeOnServer | TP6/backend/server.js:143-164 | the server keeps the item at the second field's latitude |
| ImportDivergence.OutOfRangeInScript | TP6/backend/scripts/importData.js:71-76 | the script reads only the first truthy latitude field and drops the item |
| ImportDivergence.OutOfRangeFirstField | TP6/backend/scripts/importData.js:76 | an out-of-range first latitude field: the server keeps the item at latitude 45, the script drops it |
| ImportDivergence.NumericNameOnServer | TP6/backend/server.js:176-181 | the server skips a numeric name and uses `"Unknown Airport"` |
| ImportDivergence.NumericNameInScript | TP6/backend/scripts/importData.js:79-80 | a numeric name makes the script's `trim` throw, and the item is skipped |
| ImportDivergence.NumericName | TP6/backend/scripts/importData.js:80 | a numeric name: the server names the item `"Unknown Airport"`, the script skips it |
| EpisodeRental.Key | TP2/app.js:48 | `episodio:{temporada}:{capitulo}`, with each part recoverable by position |
| EpisodeRental.KeyInjective | TP2/app.js:67 | with seasons free of `:`, different episodes get different keys |
| EpisodeRental.Get | TP2/app.js:50-51 | `GET key` reads the stored episode exactly while its key is present and not expired |
| EpisodeRental.GetAfterSetEx | TP2/app.js:50-59 | a `GET` after `SETEX` reads the stored episode until the TTL runs out and nothing after; every other key reads as before |
| EpisodeRental.SetEx | TP2/app.js:59 | `SETEX` replaces the value with an expiry `ttl` from now and leaves every other key |
| EpisodeRental.Rent | TP2/app.js:46-62 | a missing or expired key is 400 "not found"; any state but `disponible` is 400 "not available"; both change nothing; success stores `reservado` for 240 s |
| EpisodeRental.Confirm | TP2/app.js:65-81 | a missing or expired key is 400 "not found"; any state but `reservado` is 400; both change nothing; success stores `alquilado` for 86400 s |
| EpisodeRental.Handle | TP2/app.js:45-81 | a request changes only its own key; a refused one changes nothing; an accepted rent leaves `reservado` for 240 s and an accepted confirmation `alquilado` for 86400 s |
| EpisodeRental.NothingBecomesAvailable | TP2/app.js:58 | no request writes `disponible`: such an entry after a request was there unchanged before it |
| EpisodeRental.OnlyOwnKeyChanges | TP2/app.js:46-81 | a request changes at most the entry under its own key |
| EpisodeRental.ReservationExpires | TP2/app.js:59 | 240 s after a reservation, rent and confirm of that episode report it not found |
| EpisodeRental.RentThenConfirm | TP2/app.js:77-78 | confirming within the reservation window rents the episode for 86400 s from the confirmation |
| EpisodeRental.NoDoubleReservation | TP2/app.js:54-56 | a reserved episode cannot be rented again while the reservation holds |
| EpisodeRental.Fetched | TP2/app.js:20-27 | at most one episode per listed key, each one what some listed key holds while live; every listed live key's episode is fetched; one per key exactly when every listed key is live |
| EpisodeRental.OfSeason | TP2/app.js:28-34 | exactly the fetched episodes of one season |
| EpisodeRental.Group | TP2/app.js:21-35 | every present season has at least one episode |
| EpisodeRental.GroupIsBySeason | TP2/app.js:28-35 | a season is present exactly when some episode has it, and maps to its episodes in fetch order |
| EpisodeRental.List | TP2/app.js:19-43 | each season's group is a permutation of its fetched episodes sorted by episode number, and exactly the occurring seasons are present |
| EpisodeRental.ListMembers | TP2/app.js:38-40 | an episode is in a season's group exactly when it was fetched with that season |
| AirportForm.ValidateForm | TP6/frontend/src/components/AirportManager.js:257-276 | each of the seven messages is reported exactly when its check fails, in checking order |
| AirportForm.ValidIff | TP6/frontend/src/components/AirportManager.js:281-285 | the form is sent exactly when ident and name are non-blank, both coordinates are given and in range, and the IATA code is empty or 3 long |
| AirportForm.EmptyLatitudeTwoErrors | TP6/frontend/src/components/AirportManager.js:262-268 | an empty latitude draws both the required and the range message |
| AirportForm.DefaultFormInvalid | TP6/frontend/src/components/AirportManager.js:204-219 | the reset form fails on its blank code and name |
| AirportForm.EquatorAirportLoadsAsMissing | TP6/frontend/src/components/AirportManager.js:225 | an airport at latitude 0 loads with an empty latitude, reported as missing |
| AirportForm.LoadedAirportValid | TP6/frontend/src/components/AirportManager.js:221-276 | a loaded airport with non-blank codes, non-zero in-range coordinates and a 0- or 3-long IATA code passes |
| AirportForm.FormOf | TP6/frontend/src/components/AirportManager.js:221-236 | `loadAirportData`: the codes and name are copied, the type defaults to `airport`, a zero coordinate loads as empty and the IATA code as `""` when absent |
| AirportForm.ModeChange | TP6/frontend/src/components/AirportManager.js:238-247 | choosing the active mode closes it, another mode opens; the message is cleared; create resets the form; update with a selection loads it, and without one keeps the form |
| AirportForm.ModeChangeTwiceCloses | TP6/frontend/src/components/AirportManager.js:239 | choosing a mode twice in a row closes the panel |
| AirportForm.SelectionChange | TP6/frontend/src/components/AirportManager.js:357-362 | while the update panel is open, a selected airport replaces the form with its loaded fields; otherwise the panel is unchanged; mode and message never change |
| AirportForm.SelectionChangeAfterModeChange | TP6/frontend/src/components/AirportManager.js:238-247 | the effect that fires after a mode change leaves the panel as the mode change left it |
| AirportForm.PickWhileUpdating | TP6/frontend/src/components/AirportManager.js:303-362 | picking another airport with the update panel open loads it, and an update then sends it exactly when its loaded fields pass validation |
| AirportForm.SubmitCreate | TP6/frontend/src/components/AirportManager.js:278-301 | sent exactly when the form is valid; invalid shows the messages; success shows the name, resets and notifies; failure shows the error and keeps the form |
| AirportForm.SubmitUpdate | TP6/frontend/src/components/AirportManager.js:303-329 | nothing without a selection; otherwise as create, except that success keeps the form |
| AirportForm.CreateThenResubmitBlocked | TP6/frontend/src/components/AirportManager.js:292-293 | right after a successful create the reset form cannot be sent again |
| AirportSearch.Search | TP6/frontend/src/components/SearchBox.js:85-115 | nothing is searched exactly when the query is blank; a code hit shows that one airport; a code miss, or a non-code query, shows the text results for the trimmed query |
| AirportSearch.SearchShowsOnlyLookedUp | TP6/frontend/src/components/SearchBox.js:94-106 | every shown airport came from one of the two lookups |
| AirportSearch.CodeHitSkipsText | TP6/frontend/src/components/SearchBox.js:96-98 | a code hit shows one airport and makes no text search |
| AirportSearch.TextQuerySkipsCode | TP6/frontend/src/components/SearchBox.js:103-106 | a query that is not a code never reaches the code lookup |
| AirportSearch.BothFailShowNothing | TP6/frontend/src/components/SearchBox.js:99-111 | when both lookups fail the results are `[]` |
| SearchBox.IsAirportCode | TP6/frontend/src/components/SearchBox.js:75-79 | the trimmed query is three letters or four letters and digits, in either case |
| SearchBox.ThreeWithDigitIsText | TP6/frontend/src/components/SearchBox.js:78 | three characters with a digit are searched as text |
| SearchBox.Submit | TP6/frontend/src/components/SearchBox.js:85-115 | `handleSubmit` with `isAirportCode` and no limit: nothing for a blank query, the code hit, or the text results |
| ManagePage.AirportCodeIsCode | TP6/frontend/src/pages/Manage.js:135 | every code of the home page is a code here |
| ManagePage.ClassifiersDiffer | TP6/frontend/src/pages/Manage.js:135 | `"A1B"` is a code here and text on the home page |
| ManagePage.IsCode | TP6/frontend/src/pages/Manage.js:135 | a code is never blank and its trimmed text has three or four characters |
| ManagePage.HandleSearch | TP6/frontend/src/pages/Manage.js:126-155 | a blank query changes nothing; otherwise the results become the search's (code lookup, then text with limit 20); query, selection and counter are kept |
| ManagePage.HandleSearchIdempotent | TP6/frontend/src/pages/Manage.js:126-155 | searching again with the same query shows the same results |
| ManagePage.CodeMissFallsBackWithLimit | TP6/frontend/src/pages/Manage.js:137-146 | a failed code lookup falls back to the text search with limit 20 |
| ManagePage.Select | TP6/frontend/src/pages/Manage.js:157-159 | selecting the selected airport (by id) deselects it; any other becomes selected; nothing else changes |
| ManagePage.SelectTwiceClears | TP6/frontend/src/pages/Manage.js:158 | selecting an unselected airport twice leaves nothing selected |
| ManagePage.Mount | TP6/frontend/src/pages/Manage.js:173-186 | the first load shows the first page's airports, or nothing when it fails, with a blank query and nothing selected |
| ManagePage.AirportChange | TP6/frontend/src/pages/Manage.js:161-186 | the refresh counter steps by one and the selection is cleared; the rerun first-page load replaces the results, unless a non-blank query's repeated search finishes after it or the load fails; with a blank query and a failed load the results stay |
| ManagePage.BlankChangeShowsFirstPage | TP6/frontend/src/pages/Manage.js:164-185 | with a blank query, a change shows the first page whatever the page showed before |
| HeroModel.NonBlankImages | TP5/server/routes/heroes.js:63 | the images kept are exactly those not blank once trimmed |
| HeroModel.NonBlankImagesAppend | TP5/server/routes/heroes.js:63 | the filter keeps order: filtering a concatenation filters each part |
| HeroModel.NonBlankImagesIdempotent | TP5/server/routes/heroes.js:87 | filtering twice is filtering once |
| HeroModel.CreateErrors | TP5/server/models/hero.js:3-42 | a message exactly for a missing or blank name, missing year, missing or empty publisher, a non-empty publisher whose lower case is not `marvel`/`dc` (an empty one draws only the `required` message), missing biography, empty images |
| HeroModel.NewHero | TP5/server/routes/heroes.js:66-67 | saved exactly when there is no message; the saved hero is valid, under the given id, with trimmed names, the lower-cased publisher, and the given year, biography, equipment and images |
| HeroModel.PublishersAreLower | TP5/server/models/hero.js:21-22 | the allowed publishers are their own lower case |
| HeroModel.NewHeroOfFields | TP5/server/models/hero.js:5-37 | saving a valid hero's own fields gives the same hero back |
| HeroModel.UpdateErrors | TP5/server/routes/heroes.js:90-93 | with validators on, only carried fields are checked; a required one fails only when set empty, and an empty publisher draws only the `required` message, a non-empty one outside `marvel`/`dc` the `enum` one |
| HeroModel.Patched | TP5/server/routes/heroes.js:90-93 | applied exactly when no message; each carried field (name and real name trimmed, publisher lower-cased, year, biography, equipment, images) is set and each other one kept; the id kept; validity preserved |
| HeroModel.PatchedWithOwnFields | TP5/server/routes/heroes.js:90-93 | updating a valid hero with its own fields changes nothing |
| HeroRoutes.Find | TP5/server/routes/heroes.js:40 | `findById`: the first hero with the id, absent exactly when none has it |
| HeroRoutes.OfPublisher | TP5/server/routes/heroes.js:25 | exactly the heroes of the publisher |
| HeroRoutes.ListAll | TP5/server/routes/heroes.js:7-17 | 200 with every hero in collection order, or 500 when the store fails; the collection is unchanged |
| HeroRoutes.CreateThenListed | TP5/server/routes/heroes.js:7-17 | after a create the listing is the old heroes in order followed by the new one |
| HeroRoutes.ByPublisher | TP5/server/routes/heroes.js:20-32 | 200 with exactly the heroes of the lower-cased publisher, or 500 |
| HeroRoutes.ByPublisherIgnoresCase | TP5/server/routes/heroes.js:25 | the publisher in the path matches whatever its case |
| HeroRoutes.Get | TP5/server/routes/heroes.js:35-53 | 500 on a store failure or a bad id; 404 when missing; 200 exactly when the hero exists, with that hero |
| HeroRoutes.Create | TP5/server/routes/heroes.js:56-75 | 201 exactly when images are given, the store is up and the filtered body passes the schema, appending the hero `NewHero` saves from the filtered body under the new id; otherwise 400 and no change |
| HeroRoutes.CreateAllBlankImagesRefused | TP5/server/models/hero.js:31-37 | a create whose images are all blank is a 400 |
| HeroRoutes.Update | TP5/server/routes/heroes.js:78-106 | 400 exactly on missing images, a store failure, a bad id or a failing validator; 404 when missing; 200 replaces the first hero with the id by `Patched` of it with the filtered body; only 200 changes the store |
| HeroRoutes.Delete | TP5/server/routes/heroes.js:109-127 | 500 exactly on a store failure or a bad id; 404 exactly when missing; 200 removes that hero; only 200 changes the store |
| HeroRoutes.CreateKeepsStoreValid | TP5/server/routes/heroes.js:66-70 | a create under a fresh id keeps every hero valid and ids distinct |
| HeroRoutes.CreateThenGet | TP5/server/routes/heroes.js:40-48 | the created hero is what a get by its id returns |
| HeroRoutes.UpdateKeepsStoreValid | TP5/server/routes/heroes.js:90-93 | an update keeps every hero valid and ids distinct |
| HeroRoutes.DeleteRemovesId | TP5/server/routes/heroes.js:114-122 | a delete keeps the collection valid, and a deleted id is gone |

## Left out

- I/O, the network and concurrency: Express, the Mongo and Redis connections and retries, `console` logging, timeouts, and the interleaving of concurrent requests. Each route is one atomic step over the stores.
- `parseFloat`, `JSON.parse`, `String(v)` for non-strings, the Mongo regex test and the distance formula are parameters. The Haversine formula, `Math.cos` for the box's longitude delta, and rounding to two decimals are not modelled: floating point is outside the model, and `lngDelta` is an input.
- Case mapping is ASCII only. Non-ASCII characters such as `ß`, which changes length when upper-cased, are kept as they are. String `.length` is the length of the `seq<char>`, not a UTF-16 count.
- The Redis replies of `GEORADIUS`, `ZRANGE ... REV WITHSCORES` and `KEYS` are inputs. The model does not derive them from the indexes, so their radius, count and order are not proved.
- Nearby search: the unit and `COUNT 100` of `GEORADIUS` are part of the reply input. A `NaN` coordinate is taken to make `GEORADIUS` throw, since Redis refuses a coordinate that is not a number, so the box search answers.
- Listing: the route's field projection (`select`) is not modelled; whole documents are returned. Mongoose's timestamps are omitted from both schemas.
- Request bodies: only string values are modelled for the text fields. Mongoose's casting of other JSON values is left out, and so are fields outside the schema and a `null` sent for a required text field on update.
- Hero failures: the `error` field with the store's message is not modelled. Replies carry the fixed `message` text.
- `HeroRoutes.Update`: when several failures apply, the model does not fix which fires first (missing images, a bad id, a failing validator). All give the same 400.
- `insertMany` with `ordered: false` may store part of a batch; the model stores a whole batch or none of it. `dropIndexes` and `createIndex` are left out, because indexes do not change the documents.
- The script's Redis commands other than the per-batch `geoAdd` (`del`, `expire`) are taken to work, as are its connections. Its `deleteMany` always empties the collection.
- Data-file discovery through `fs.existsSync` over the candidate paths is an input: the file's text, or none.
- `parseInt` of digit strings with more than sixteen digits: the model returns the exact integer, not the rounded double.
- JsValue.ParseIntValue: a number is read by its exact value. The runtime prints a double by its shortest round-trip digits, whose leading digit can differ for a number in exponent form (the double nearest `1e23` prints as `1e+23`), and the model does not follow that.
- The hero store is a sequence searched by id, not an ObjectId map. A store that is down, and an id that does not cast, are `Db` inputs.
- Episode listing: the stored JSON is taken as already parsed, with numeric `temporada` and `episodio`. Object-key order of the reply map is not modelled.
- `AirportManager.js`: `handleInputChange`, `handleDelete`, the loading flags and the rendering are not modelled; they hold no logic beyond setting one field. The selection effect is `AirportForm.SelectionChange`.
- `Manage.js`: the loading flag is not modelled, and a search is one atomic step. The race between a refresh's repeated search and the reload is an input naming which one lands last.
- All React rendering and styling, and the context files (seeding, other pages, the API wrapper) are outside the model.

=== FILE: airport_form.dfy ===
/**
 * The airport manager panel of the front end: its form, the validation run before a create
 * or an update is sent, the mode buttons, and what a submission does to the panel. The
 * request itself is foreign; its answer is an input.
 */
module AirportForm {
  import opened Wrappers
  import JsText
  import opened JsValue
  import opened AirportModel

  /**
   * The form's fields. Typed text is a string; the coordinates and the elevation hold a
   * number when they were loaded from a selected airport.
   */
  datatype Form = Form(
    ident: string,
    name: string,
    latitude: Json,
    longitude: Json,
    elevation: Json,
    continent: string,
    isoCountry: string,
    isoRegion: string,
    municipality: string,
    iataCode: string,
    gpsCode: string,
    kind: string)

  /** The initial form, and what `resetForm` restores. */
  const DefaultForm: Form := Form("", "", Str(""), Str(""), Str(""), "Unknown", "", "", "", "", "", "airport")

  /** `v || fallback` for an optional text field. */
  function TextOr(v: Option<string>, fallback: string): (t: string)
    ensures v.Some? && v.value != "" ==> t == v.value
    ensures v.None? || v.value == "" ==> t == fallback
  {
    if v.Some? && v.value != "" then v.value else fallback
  }

  /** `x || ""` for a number: `0` gives the empty field. */
  function NumberOrEmpty(x: real): (v: Json)
    ensures x != 0.0 ==> v == Num(x)
    ensures x == 0.0 ==> v == Str("")
  {
    if x != 0.0 then Num(x) else Str("")
  }

  /** `loadAirportData`: the form showing a selected airport. */
  function FormOf(a: Airport): (f: Form)
    ensures f.ident == a.ident && f.name == a.name && f.kind == (if a.kind != "" then a.kind else "airport")
    ensures f.latitude == NumberOrEmpty(a.latitude) && f.longitude == NumberOrEmpty(a.longitude)
    ensures f.iataCode == TextOr(a.iataCode, "")
  {
    Form(
      ident := a.ident,
      name := a.name,
      latitude := NumberOrEmpty(a.latitude),
      longitude := NumberOrEmpty(a.longitude),
      elevation := if a.elevation.Some? then NumberOrEmpty(a.elevation.value as real) else Str(""),
      continent := TextOr(a.continent, "Unknown"),
      isoCountry := TextOr(a.isoCountry, ""),
      isoRegion := TextOr(a.isoRegion, ""),
      municipality := TextOr(a.municipality, ""),
      iataCode := TextOr(a.iataCode, ""),
      gpsCode := TextOr(a.gpsCode, ""),
      kind := if a.kind != "" then a.kind else "airport")
  }

  // ----- validation -----

  /** The messages `validateForm` can collect, in the order it checks them. */
  datatype FormError =
    | IdentRequired
    | NameRequired
    | LatitudeRequired
    | LongitudeRequired
    | LatitudeRange
    | LongitudeRange
    | IataLength

  function Rank(e: FormError): nat {
    match e
    case IdentRequired => 0
    case NameRequired => 1
    case LatitudeRequired => 2
    case LongitudeRequired => 3
    case LatitudeRange => 4
    case LongitudeRange => 5
    case IataLength => 6
  }

  /** A number within `[-bound, bound]`; `None` is `NaN`. */
  predicate Within(x: Option<real>, bound: real) {
    x.Some? && -bound <= x.value <= bound
  }

  /** Strictly increasing checking order. */
  predicate InOrder(errors: seq<FormError>) {
    forall i, j :: 0 <= i < j < |errors| ==> Rank(errors[i]) < Rank(errors[j])
  }

  /** The outcome of each check, in checking order. */
  datatype Flags = Flags(identBlank: bool, nameBlank: bool, latitudeEmpty: bool, longitudeEmpty: bool,
                         latitudeOff: bool, longitudeOff: bool, iataWrong: bool)

  predicate Raised(x: Flags, e: FormError) {
    match e
    case IdentRequired => x.identBlank
    case NameRequired => x.nameBlank
    case LatitudeRequired => x.latitudeEmpty
    case LongitudeRequired => x.longitudeEmpty
    case LatitudeRange => x.latitudeOff
    case LongitudeRange => x.longitudeOff
    case IataLength => x.iataWrong
  }

  /** The raised checks among `checks`, each pushed in turn. */
  function Failing(x: Flags, checks: seq<FormError>): (errors: seq<FormError>)
    requires InOrder(checks)
    ensures InOrder(errors)
    ensures forall e :: e in errors <==> e in checks && Raised(x, e)
  {
    if checks == [] then []
    else
      var rest := Failing(x, checks[1..]);
      assert forall i :: 0 <= i < |rest| ==> Rank(checks[0]) < Rank(rest[i]) by {
        forall i | 0 <= i < |rest| ensures Rank(checks[0]) < Rank(rest[i]) {
          assert rest[i] in checks[1..];
          var k :| 0 <= k < |checks[1..]| && checks[1..][k] == rest[i];
          assert checks[k + 1] == rest[i];
        }
      }
      (if Raised(x, checks[0]) then [checks[0]] else []) + rest
  }

  /** Every message, in checking order. */
  const Checks: seq<FormError> :=
    [IdentRequired, NameRequired, LatitudeRequired, LongitudeRequired, LatitudeRange, LongitudeRange, IataLength]

  lemma ChecksFacts()
    ensures InOrder(Checks)
    ensures IdentRequired in Checks && NameRequired in Checks && LatitudeRequired in Checks
    ensures LongitudeRequired in Checks && LatitudeRange in Checks && LongitudeRange in Checks && IataLength in Checks
  {
    assert IdentRequired == Checks[0] && NameRequired == Checks[1] && LatitudeRequired == Checks[2];
    assert LongitudeRequired == Checks[3] && LatitudeRange == Checks[4] && LongitudeRange == Checks[5];
    assert IataLength == Checks[6];
  }

  /** `validateForm`: each message is reported exactly when its check fails, in checking order. */
  function ValidateForm(f: Form, pf: string -> Option<real>): (errors: seq<FormError>)
    ensures IdentRequired in errors <==> JsText.IsBlank(f.ident)
    ensures NameRequired in errors <==> JsText.IsBlank(f.name)
    ensures LatitudeRequired in errors <==> !Truthy(Some(f.latitude))
    ensures LongitudeRequired in errors <==> !Truthy(Some(f.longitude))
    ensures LatitudeRange in errors <==> !Within(ParseFloat(Some(f.latitude), pf), 90.0)
    ensures LongitudeRange in errors <==> !Within(ParseFloat(Some(f.longitude), pf), 180.0)
    ensures IataLength in errors <==> f.iataCode != "" && |f.iataCode| != 3
    ensures InOrder(errors)
  {
    ChecksFacts();
    Failing(Flags(
      identBlank := JsText.IsBlank(f.ident),
      nameBlank := JsText.IsBlank(f.name),
      latitudeEmpty := !Truthy(Some(f.latitude)),
      longitudeEmpty := !Truthy(Some(f.longitude)),
      latitudeOff := !Within(ParseFloat(Some(f.latitude), pf), 90.0),
      longitudeOff := !Within(ParseFloat(Some(f.longitude), pf), 180.0),
      iataWrong := f.iataCode != "" && |f.iataCode| != 3), Checks)
  }

  /** A form passes exactly when every field is acceptable. */
  lemma ValidIff(f: Form, pf: string -> Option<real>)
    ensures ValidateForm(f, pf) == [] <==>
      && !JsText.IsBlank(f.ident) && !JsText.IsBlank(f.name)
      && Truthy(Some(f.latitude)) && Truthy(Some(f.longitude))
      && Within(ParseFloat(Some(f.latitude), pf), 90.0) && Within(ParseFloat(Some(f.longitude), pf), 180.0)
      && (f.iataCode == "" || |f.iataCode| == 3)
  {
    var errors := ValidateForm(f, pf);
    if errors != [] {
      assert errors[0] in errors;
      match errors[0]
      case IdentRequired =>
      case NameRequired =>
      case LatitudeRequired =>
      case LongitudeRequired =>
      case LatitudeRange =>
      case LongitudeRange =>
      case IataLength =>
    }
  }

  /** An empty latitude draws two messages: it is required, and `NaN` is out of range. */
  lemma EmptyLatitudeTwoErrors(f: Form, pf: string -> Option<real>)
    requires f.latitude == Str("") && pf("").None?
    ensures LatitudeRequired in ValidateForm(f, pf) && LatitudeRange in ValidateForm(f, pf)
  {
  }

  /** The reset form is never valid: its code and name are blank. */
  lemma DefaultFormInvalid(pf: string -> Option<real>)
    ensures IdentRequired in ValidateForm(DefaultForm, pf) && NameRequired in ValidateForm(DefaultForm, pf)
  {
    assert JsText.IsBlank("");
  }

  /**
   * An airport on the equator cannot be saved from the form unchanged: its latitude `0`
   * loads as an empty field, which is reported as missing.
   */
  lemma EquatorAirportLoadsAsMissing(a: Airport, pf: string -> Option<real>)
    requires a.latitude == 0.0
    ensures LatitudeRequired in ValidateForm(FormOf(a), pf)
  {
  }

  /** A loaded airport with usable fields passes validation. */
  lemma LoadedAirportValid(a: Airport, pf: string -> Option<real>)
    requires !JsText.IsBlank(a.ident) && !JsText.IsBlank(a.name)
    requires a.latitude != 0.0 && -90.0 <= a.latitude <= 90.0
    requires a.longitude != 0.0 && -180.0 <= a.longitude <= 180.0
    requires a.iataCode.None? || |a.iataCode.value| in {0, 3}
    ensures ValidateForm(FormOf(a), pf) == []
  {
    ValidIff(FormOf(a), pf);
  }

  // ----- the panel -----

  datatype Mode = Create | Update

  /** The panel's message line. */
  datatype Message = Invalid(errors: seq<FormError>) | Created(name: string) | Updated(name: string) | Failed(text: string)

  datatype Manager = Manager(activeMode: Option<Mode>, form: Form, message: Option<Message>)

  /**
   * `handleModeChange`: the chosen mode is opened, or closed when it was the active one;
   * the message is cleared; choosing create resets the form, choosing update with an
   * airport selected loads it.
   */
  function ModeChange(m: Manager, mode: Mode, selected: Option<Airport>): (r: Manager)
    ensures r.activeMode.None? <==> m.activeMode == Some(mode)
    ensures r.activeMode.Some? ==> r.activeMode.value == mode
    ensures r.message.None?
    ensures mode == Create ==> r.form == DefaultForm
    ensures mode == Update && selected.Some? ==> r.form == FormOf(selected.value)
    ensures mode == Update && selected.None? ==> r.form == m.form
  {
    var form :=
      if mode == Create then DefaultForm
      else if selected.Some? then FormOf(selected.value)
      else m.form;
    Manager(if m.activeMode == Some(mode) then None else Some(mode), form, None)
  }

  /** Choosing a mode twice in a row closes the panel, whatever was open before. */
  lemma ModeChangeTwiceCloses(m: Manager, mode: Mode, selected: Option<Airport>)
    requires m.activeMode != Some(mode)
    ensures ModeChange(ModeChange(m, mode, selected), mode, selected).activeMode.None?
  {
  }

  /**
   * The effect on `[selectedAirport, activeMode]`: while the update panel is open, a selected
   * airport is loaded into the form, replacing whatever was typed; otherwise nothing changes.
   */
  function SelectionChange(m: Manager, selected: Option<Airport>): (r: Manager)
    ensures r.activeMode == m.activeMode && r.message == m.message
    ensures m.activeMode == Some(Update) && selected.Some? ==> r.form == FormOf(selected.value)
    ensures m.activeMode != Some(Update) || selected.None? ==> r == m
  {
    if m.activeMode == Some(Update) && selected.Some? then m.(form := FormOf(selected.value)) else m
  }

  /**
   * The effect also fires when `handleModeChange` changes the mode, and then it changes
   * nothing: the mode change has already loaded or kept the form it would load.
   */
  lemma SelectionChangeAfterModeChange(m: Manager, mode: Mode, selected: Option<Airport>)
    ensures SelectionChange(ModeChange(m, mode, selected), selected) == ModeChange(m, mode, selected)
  {
  }

  /**
   * Picking another airport while the update panel is open: the form now holds the new
   * airport, so an update sends its fields, and does so exactly when they pass validation.
   */
  lemma PickWhileUpdating(m: Manager, a: Airport, pf: string -> Option<real>, reply: Reply)
    requires m.activeMode == Some(Update)
    ensures SelectionChange(m, Some(a)).form == FormOf(a)
    ensures SubmitUpdate(SelectionChange(m, Some(a)), Some(a), pf, reply).sent <==> ValidateForm(FormOf(a), pf) == []
  {
  }

  /** The answer of the create or update request. */
  datatype Reply = Saved(name: string) | Rejected(text: string)

  /** A submission's effect on the panel, and whether the parent is told about a change. */
  datatype Submission = Submission(after: Manager, sent: bool, notified: bool)

  /**
   * `handleCreate`: an invalid form shows its messages and sends nothing; otherwise the
   * request is sent, and its success shows the created name, resets the form and notifies
   * the parent, while a failure shows the error and keeps the form.
   */
  function SubmitCreate(m: Manager, pf: string -> Option<real>, reply: Reply): (r: Submission)
    ensures r.sent <==> ValidateForm(m.form, pf) == []
    ensures !r.sent ==> r.after == m.(message := Some(Invalid(ValidateForm(m.form, pf)))) && !r.notified
    ensures r.sent && reply.Saved? ==> r.after == m.(form := DefaultForm, message := Some(Created(reply.name))) && r.notified
    ensures r.sent && reply.Rejected? ==> r.after == m.(message := Some(Failed(reply.text))) && !r.notified
  {
    var errors := ValidateForm(m.form, pf);
    if |errors| > 0 then Submission(m.(message := Some(Invalid(errors))), false, false)
    else match reply
      case Saved(name) => Submission(m.(form := DefaultForm, message := Some(Created(name))), true, true)
      case Rejected(text) => Submission(m.(message := Some(Failed(text))), true, false)
  }

  /**
   * `handleUpdate`: nothing at all happens without a selected airport; otherwise as a
   * create, except that a success keeps the form.
   */
  function SubmitUpdate(m: Manager, selected: Option<Airport>, pf: string -> Option<real>, reply: Reply): (r: Submission)
    ensures selected.None? ==> r == Submission(m, false, false)
    ensures selected.Some? ==> (r.sent <==> ValidateForm(m.form, pf) == [])
    ensures selected.Some? && !r.sent ==> r.after == m.(message := Some(Invalid(ValidateForm(m.form, pf)))) && !r.notified
    ensures r.sent && reply.Saved? ==> r.after == m.(message := Some(Updated(reply.name))) && r.notified
    ensures r.sent && reply.Rejected? ==> r.after == m.(message := Some(Failed(reply.text))) && !r.notified
  {
    if selected.None? then Submission(m, false, false)
    else
      var errors := ValidateForm(m.form, pf);
      if |errors| > 0 then Submission(m.(message := Some(Invalid(errors))), false, false)
      else match reply
        case Saved(name) => Submission(m.(message := Some(Updated(name))), true, true)
        case Rejected(text) => Submission(m.(message := Some(Failed(text))), true, false)
  }

  /** Right after a successful create the form is back to its defaults, so it cannot be sent again as is. */
  lemma CreateThenResubmitBlocked(m: Manager, pf: string -> Option<real>, name: string, reply: Reply)
    requires SubmitCreate(m, pf, Saved(name)).sent
    ensures !SubmitCreate(SubmitCreate(m, pf, Saved(name)).after, pf, reply).sent
  {
    DefaultFormInvalid(pf);
  }
}

=== FILE: airport_model.dfy ===
/**
 * The airport document (`models/Airport.js`), the index key shared by the geo and popularity
 * indexes, and how a route identifier selects documents.
 */
module AirportModel {
  import opened Wrappers
  import JsText

  /** One airport document. `None` stands for a field that is absent or `null`. */
  datatype Airport = Airport(
    id: int,
    ident: string,
    kind: string,
    name: string,
    latitude: real,
    longitude: real,
    elevation: Option<int>,
    continent: Option<string>,
    isoCountry: Option<string>,
    isoRegion: Option<string>,
    municipality: Option<string>,
    scheduledService: Option<string>,
    gpsCode: Option<string>,
    iataCode: Option<string>,
    localCode: Option<string>,
    homeLink: Option<string>,
    wikipediaLink: Option<string>,
    keywords: Option<string>)

  /**
   * The schema's `required` fields: `id`, `ident`, `type`, `name`, `latitude_deg`,
   * `longitude_deg`. The numbers are always present here; a required text field also
   * rejects the empty string.
   */
  predicate SchemaValid(a: Airport) {
    a.ident != "" && a.kind != "" && a.name != ""
  }

  /** The `id` values are pairwise distinct. */
  ghost predicate UniqueIds(docs: seq<Airport>) {
    forall i, j :: 0 <= i < j < |docs| ==> docs[i].id != docs[j].id
  }

  /** A present, non-empty IATA code (a truthy `iata_code`). */
  predicate HasIata(a: Airport) {
    a.iataCode.Some? && a.iataCode.value != ""
  }

  /** No two documents share an `ident`, nor a non-empty `iata_code`. */
  ghost predicate UniqueCodes(docs: seq<Airport>) {
    forall i, j :: 0 <= i < j < |docs| ==>
      docs[i].ident != docs[j].ident && (HasIata(docs[i]) && HasIata(docs[j]) ==> docs[i].iataCode != docs[j].iataCode)
  }

  /** `airport.iata_code || airport.ident`: the member name in both Redis indexes. */
  function IndexKey(a: Airport): string {
    if HasIata(a) then a.iataCode.value else a.ident
  }

  /** A truthy text value (a body field or a query parameter): present and non-empty. */
  predicate Given(v: Option<string>) {
    v.Some? && v.value != ""
  }

  /** The selector a route identifier becomes: `{ id: n }` (`None` is `NaN`) or a code match. */
  datatype Query = ById(id: Option<int>) | ByCode(code: string)

  /**
   * A route identifier that `Number()` reads as a number selects by `parseInt` of it;
   * anything else is upper-cased and matched against `iata_code` or `ident`.
   */
  function Resolve(identifier: string): (q: Query)
    ensures q.ById? <==> JsText.IsNumeric(identifier)
    ensures q.ById? ==> q.id == JsText.ParseInt(identifier)
    ensures q.ByCode? ==>
      |q.code| == |identifier| && forall i :: 0 <= i < |identifier| ==> q.code[i] == JsText.UpperChar(identifier[i])
  {
    if JsText.IsNumeric(identifier) then ById(JsText.ParseInt(identifier)) else ByCode(JsText.ToUpper(identifier))
  }

  /**
   * `{ id: NaN }`: an identifier that `isNaN` lets through but `parseInt` cannot read. The
   * store cannot cast `NaN` to the `Number` field, so the query fails instead of matching.
   */
  predicate Uncastable(q: Query) {
    q == ById(None)
  }

  predicate Matches(a: Airport, q: Query) {
    match q
    case ById(n) => n.Some? && a.id == n.value
    case ByCode(c) => a.iataCode == Some(c) || a.ident == c
  }

  /** The `$or` of `iata_code $in codes` and `ident $in codes`. */
  predicate Requested(a: Airport, codes: seq<string>) {
    (a.iataCode.Some? && a.iataCode.value in codes) || a.ident in codes
  }

  /** The `$or` above as a filter over the documents. */
  function RequestedBy(codes: seq<string>): Airport -> bool {
    a => Requested(a, codes)
  }

  /** `findOne(query)` in natural order: the position of the first matching document. */
  function FindFirst(docs: seq<Airport>, q: Query): (r: Option<nat>)
    ensures r.Some? ==> r.value < |docs| && Matches(docs[r.value], q)
    ensures r.Some? ==> forall i :: 0 <= i < r.value ==> !Matches(docs[i], q)
    ensures r.None? <==> forall i :: 0 <= i < |docs| ==> !Matches(docs[i], q)
  {
    if |docs| == 0 then None
    else if Matches(docs[0], q) then Some(0)
    else match FindFirst(docs[1..], q)
      case None => None
      case Some(k) => Some(k + 1)
  }

  /** The largest `id`, which `findOne().sort({ id: -1 })` returns. */
  function MaxId(docs: seq<Airport>): (m: int)
    requires |docs| > 0
    ensures forall i :: 0 <= i < |docs| ==> docs[i].id <= m
    ensures exists i :: 0 <= i < |docs| && docs[i].id == m
  {
    if |docs| == 1 then docs[0].id
    else
      var rest := MaxId(docs[1..]);
      assert forall i :: 1 <= i < |docs| ==> docs[i] == docs[1..][i - 1];
      if docs[0].id >= rest then docs[0].id else rest
  }

  /** An identifier of decimal digits selects the document whose `id` is its value. */
  lemma ResolveDigits(identifier: string)
    requires |identifier| > 0 && JsText.AllDigits(identifier)
    ensures Resolve(identifier) == ById(Some(JsText.DigitsValue(identifier, 10)))
  {
    JsText.DigitsAreNumeric(identifier);
    JsText.ParseIntOfDigits(identifier);
  }

  /** An identifier that is not numeric selects by its upper-cased text. */
  lemma ResolveNonNumeric(identifier: string)
    requires !JsText.IsNumeric(identifier)
    ensures Resolve(identifier).ByCode?
    ensures forall a: Airport :: Matches(a, Resolve(identifier)) <==>
      a.iataCode == Some(JsText.ToUpper(identifier)) || a.ident == JsText.ToUpper(identifier)
  {
  }

  lemma TrimOfPlain(s: string)
    requires |s| > 0 && !JsText.IsSpace(s[0]) && !JsText.IsSpace(s[|s| - 1])
    ensures JsText.Trim(s) == s && JsText.TrimStart(s) == s
  {
    JsText.TrimStartOfNoLeadingSpace(s);
    JsText.TrimEndOfNoTrailingSpace(s);
  }

  lemma DigitsThenLettersNotNumeric()
    ensures !JsText.IsNumeric("12abc")
  {
    var s := "12abc";
    TrimOfPlain(s);
    assert JsText.FindChar(s, c => c == 'e' || c == 'E') == None;
    assert JsText.FindChar(s, c => c == '.') == None;
    assert !JsText.IsDigit(s[2]);
  }

  lemma UpperDigitsThenLetters()
    ensures JsText.ToUpper("12abc") == "12ABC"
  {
    var u := JsText.ToUpper("12abc");
    assert u[0] == '1' && u[1] == '2' && u[2] == 'A' && u[3] == 'B' && u[4] == 'C';
  }

  /** `"12abc"` is not a number, so it is looked up as the code `"12ABC"`. */
  lemma ResolveDigitsThenLetters()
    ensures Resolve("12abc") == ByCode("12ABC")
  {
    DigitsThenLettersNotNumeric();
    UpperDigitsThenLetters();
  }

  lemma ExponentNumeric()
    ensures JsText.IsNumeric("1e3")
  {
    var s := "1e3";
    TrimOfPlain(s);
    assert JsText.FindChar(s, c => c == 'e' || c == 'E') == Some(1);
    assert s[..1] == "1" && s[2..] == "3";
    assert JsText.FindChar("1", c => c == '.') == None;
  }

  lemma ParseIntStopsAtExponent()
    ensures JsText.ParseInt("1e3") == Some(1)
  {
    var s := "1e3";
    TrimOfPlain(s);
    assert JsText.LeadingRun(s[1..], JsText.IsDigit) == "";
    assert JsText.LeadingRun(s, JsText.IsDigit) == "1";
    assert JsText.DigitsValue("1", 10) == 1;
  }

  /** `"1e3"` is the number 1000 to `isNaN`, but `parseInt` stops at `e`: it selects id 1. */
  lemma ResolveExponent()
    ensures Resolve("1e3") == ById(Some(1))
  {
    ExponentNumeric();
    ParseIntStopsAtExponent();
  }

  /**
   * The schema indexes `ident` and `iata_code` without `unique`: two schema-valid documents
   * with distinct ids may share an `ident`.
   */
  lemma IdentNotUniqueBySchema()
    ensures exists a: Airport, b: Airport :: SchemaValid(a) && SchemaValid(b) && a.id != b.id && a.ident == b.ident
  {
    var a := Airport(1, "SABE", "airport", "Aeroparque", 0.0, 0.0, None, None, None, None, None, None, None, None, None, None, None, None);
    var b := a.(id := 2);
    assert SchemaValid(a) && SchemaValid(b) && a.id != b.id && a.ident == b.ident;
  }

  /**
   * `" "` and `".5"` pass `!isNaN` (they read as 0 and 0.5) but `parseInt` finds no digit in
   * them, so they become the uncastable `{ id: NaN }`.
   */
  lemma NumericWithoutDigitsUncastable()
    ensures Uncastable(Resolve(" "))
    ensures Uncastable(Resolve(".5"))
  {
    assert JsText.Trim(" ") == "";
    assert JsText.Trim(".5") == ".5";
  }

  /** `"Infinity"` passes `!isNaN` as well, and `parseInt` reads no digit from it either. */
  lemma InfinityUncastable()
    ensures Uncastable(Resolve("Infinity"))
  {
    JsText.TrimStartOfNoLeadingSpace("Infinity");
    JsText.TrimEndOfNoTrailingSpace("Infinity");
    assert JsText.Trim("Infinity") == "Infinity";
  }
}

=== FILE: airport_routes.dfy ===
/**
 * The `/airports` routes: paging, lookup by identifier (with the popularity increment),
 * the popularity ranking, create, update and delete. The documents are the source of truth;
 * every write to the geo and popularity indexes after a document write is best effort.
 */
module AirportRoutes {
  import opened Wrappers
  import JsText
  import opened JsValue
  import opened AirportModel
  import opened Indexes
  import opened Http
  import Seqs
  import Sorting

  /** The document collection in natural order, and the two Redis indexes. */
  datatype Stores = Stores(docs: seq<Airport>, geo: GeoIndex, pop: Popularity)

  /** What a route answers and the stores after it. */
  datatype Outcome<T> = Outcome(response: Response<T>, after: Stores)

  // ----- paging (GET /) -----

  datatype Pagination = Pagination(current: int, pages: int, total: nat)

  /** `Math.ceil(total / limit)` for a non-zero integer `limit`. */
  function CeilDiv(total: nat, limit: int): (q: int)
    requires limit != 0
    ensures limit > 0 ==> (q - 1) * limit < total <= q * limit || (total == 0 && q == 0)
    ensures limit < 0 ==> q <= 0
  {
    if limit > 0 then (total + limit - 1) / limit else -(total / -limit)
  }

  /** `parseInt(page) || 1`. */
  function PageNumber(page: Option<string>): (p: int)
    ensures p != 0
  {
    JsText.ParseIntOr(page, 1)
  }

  /** `Math.min(parseInt(limit) || 20, 1000)`. */
  function PageSize(limit: Option<string>): (n: int)
    ensures n != 0 && n <= 1000
    ensures JsText.ParseIntParam(limit).None? ==> n == 20
  {
    var l := JsText.ParseIntOr(limit, 20);
    if l < 1000 then l else 1000
  }

  function Abs(n: int): nat {
    if n < 0 then -n else n
  }

  /** `(page - 1) * limit`, the number of documents the page skips. */
  function Skip(page: Option<string>, limit: Option<string>): int {
    (PageNumber(page) - 1) * PageSize(limit)
  }

  /** `find().skip(skip).limit(n)` for a non-negative skip. */
  function Window(docs: seq<Airport>, skip: nat, n: nat): (items: seq<Airport>)
    ensures |items| <= n
    ensures skip < |docs| ==> skip + |items| <= |docs| && items == docs[skip..skip + |items|]
    ensures skip >= |docs| ==> items == []
    ensures skip + n <= |docs| ==> |items| == n
  {
    if skip < |docs| then Seqs.Take(docs[skip..], n) else []
  }

  /**
   * GET `/`: skips `(page - 1) * limit` documents and returns at most `|limit|` of them (the
   * cursor reads a negative limit as its magnitude); a negative skip is refused by the store.
   */
  function ListPage(docs: seq<Airport>, page: Option<string>, limit: Option<string>)
    : (r: Response<(seq<Airport>, Pagination)>)
    ensures Skip(page, limit) < 0 <==> r == Err(ServerError)
    ensures Skip(page, limit) >= 0 ==> r.Ok?
    ensures r.Ok? ==>
      && r.value.0 == Window(docs, Skip(page, limit), Abs(PageSize(limit)))
      && r.value.1 == Pagination(PageNumber(page), CeilDiv(|docs|, PageSize(limit)), |docs|)
  {
    var skip := Skip(page, limit);
    if skip < 0 then Err(ServerError)
    else Ok((Window(docs, skip, Abs(PageSize(limit))), Pagination(PageNumber(page), CeilDiv(|docs|, PageSize(limit)), |docs|)))
  }

  /**
   * Under a positive limit `n`, page `k` answers the `k`-th window of `Pages`: the documents
   * from `(k - 1) * n` on, at most `n` of them, which are some exactly when `k` is within the
   * pagination's page count.
   */
  lemma ListPageWindow(docs: seq<Airport>, page: Option<string>, limit: Option<string>, k: nat, n: nat)
    requires k == PageNumber(page) && n == PageSize(limit)
    requires k >= 1 && n > 0
    ensures ListPage(docs, page, limit) == Ok((Window(docs, PageStart(k, n), n), Pagination(k, CeilDiv(|docs|, n), |docs|)))
    ensures Pages(docs, n, k) == Pages(docs, n, k - 1) + ListPage(docs, page, limit).value.0
    ensures ListPage(docs, page, limit).value.0 != [] <==> k <= CeilDiv(|docs|, n)
  {
    assert Skip(page, limit) == PageStart(k, n);
    WindowWithinPages(docs, n, k);
  }

  /** The number of documents before page `k` of size `n`. */
  function PageStart(k: nat, n: nat): nat
    requires k >= 1
  {
    (k - 1) * n
  }

  /** The `k`-th window of size `n` holds documents exactly when `k` is at most `ceil(total / n)`. */
  lemma WindowWithinPages(docs: seq<Airport>, n: nat, k: nat)
    requires n > 0 && k >= 1
    ensures Window(docs, PageStart(k, n), n) != [] <==> k <= CeilDiv(|docs|, n)
  {
    var q := CeilDiv(|docs|, n);
    if k <= q {
      MulMonotone(k - 1, q - 1, n);
    } else {
      MulMonotone(q, k - 1, n);
    }
  }

  lemma MulMonotone(a: int, b: int, n: nat)
    requires a <= b
    ensures a * n <= b * n
  {
  }

  /** The pages `1..k` of size `n`, one after the other. */
  function Pages(docs: seq<Airport>, n: nat, k: nat): seq<Airport> {
    if k == 0 then [] else Pages(docs, n, k - 1) + Window(docs, (k - 1) * n, n)
  }

  function Min(a: int, b: int): int {
    if a < b then a else b
  }

  /** The first `k` pages of size `n` are the first `k * n` documents, or all of them. */
  lemma {:induction false} PagesPrefix(docs: seq<Airport>, n: nat, k: nat)
    requires n > 0
    ensures Pages(docs, n, k) == docs[..Min(k * n, |docs|)]
  {
    if k > 0 {
      var skip := (k - 1) * n;
      assert skip + n == k * n;
      PagesPrefix(docs, n, k - 1);
      WindowExtendsPrefix(docs, skip, n);
    }
  }

  /** The documents before a window followed by the window are the documents up to its end. */
  lemma WindowExtendsPrefix(docs: seq<Airport>, skip: nat, n: nat)
    ensures docs[..Min(skip, |docs|)] + Window(docs, skip, n) == docs[..Min(skip + n, |docs|)]
  {
    if skip < |docs| {
      var w := Window(docs, skip, n);
      assert |w| == Min(n, |docs| - skip);
      assert docs[..skip] + docs[skip..skip + |w|] == docs[..skip + |w|];
    }
  }

  /**
   * With a positive limit, the pages `1..pages` of the pagination, each the window `ListPage`
   * answers for it, are the whole catalogue in natural order: no document is skipped or shown
   * twice.
   */
  lemma PagesCoverCatalogue(docs: seq<Airport>, n: nat)
    requires n > 0
    ensures CeilDiv(|docs|, n) >= 0
    ensures Pages(docs, n, CeilDiv(|docs|, n)) == docs
  {
    var q := CeilDiv(|docs|, n);
    assert q >= 0;
    PagesPrefix(docs, n, q);
    assert docs[..|docs|] == docs;
  }

  // ----- lookup (GET /:identifier) -----

  /** The identifier casts and selects a document, which lookup, update and delete then find. */
  predicate Selects(docs: seq<Airport>, identifier: string) {
    !Uncastable(Resolve(identifier)) && FindFirst(docs, Resolve(identifier)).Some?
  }

  /**
   * GET `/:identifier`: the first document the identifier selects; on success its key's
   * score goes up by one (`ZINCRBY`), and, if that worked, the whole ranking's expiry is
   * pushed to a day from now (`EXPIRE`). A miss is a 404 and touches nothing; a numeric
   * identifier with no digits makes the store's cast of `NaN` throw, a 500.
   */
  function Lookup(s: Stores, identifier: string, incr: IndexCall, expire: IndexCall, now: int)
    : (r: Outcome<Airport>)
    ensures Uncastable(Resolve(identifier)) <==> r.response == Err(ServerError)
    ensures !Uncastable(Resolve(identifier)) && FindFirst(s.docs, Resolve(identifier)).None? <==> r.response == Err(NotFound)
    ensures Selects(s.docs, identifier) ==> r.response == Ok(s.docs[FindFirst(s.docs, Resolve(identifier)).value])
    ensures r.response.Err? ==> r.after == s
    ensures r.response.Ok? ==> r.response.value in s.docs && Matches(r.response.value, Resolve(identifier))
    ensures r.after.docs == s.docs && r.after.geo == s.geo
    ensures incr != Works ==> r.after == s
    ensures r.response.Ok? && incr == Works ==>
      var key := IndexKey(r.response.value);
      && Score(r.after.pop, key) == Score(Live(s.pop, now), key) + 1
      && (forall k :: k != key ==> Score(r.after.pop, k) == Score(Live(s.pop, now), k))
      && (expire == Works ==> r.after.pop.expiresAt == Some(now + PopularityTtl))
      && (expire != Works ==> r.after.pop.expiresAt == Live(s.pop, now).expiresAt)
  {
    if Uncastable(Resolve(identifier)) then Outcome(Err(ServerError), s)
    else match FindFirst(s.docs, Resolve(identifier))
      case None => Outcome(Err(NotFound), s)
      case Some(i) =>
        var a := s.docs[i];
        Outcome(Ok(a), s.(pop := Bump(s.pop, IndexKey(a), incr, expire, now)))
  }

  /** `ZINCRBY` then `EXPIRE` in one `try`: a throwing increment skips the expiry. */
  function Bump(p: Popularity, key: string, incr: IndexCall, expire: IndexCall, now: int): (r: Popularity)
    ensures incr != Works ==> r == p
    ensures incr == Works ==>
      && Score(r, key) == Score(Live(p, now), key) + 1
      && (forall k :: k != key ==> Score(r, k) == Score(Live(p, now), k))
      && (expire == Works ==> r.expiresAt == Some(now + PopularityTtl))
      && (expire != Works ==> r.expiresAt == Live(p, now).expiresAt)
  {
    if incr != Works then p
    else
      var bumped := Increment(p, key, now);
      if expire == Works then Expire(bumped, PopularityTtl, now) else bumped
  }

  /**
   * Looking the same airport up twice within the expiry raises its score by two and leaves
   * every other score as it was: repeated lookups strictly climb the ranking.
   */
  lemma LookupTwiceAddsTwo(s: Stores, identifier: string, now: int, later: int)
    requires WellFormed(s.pop) && (s.pop.expiresAt.None? || later < s.pop.expiresAt.value)
    requires now <= later < now + PopularityTtl
    requires Selects(s.docs, identifier)
    ensures
      var first := Lookup(s, identifier, Works, Works, now);
      var second := Lookup(first.after, identifier, Works, Works, later);
      var key := IndexKey(first.response.value);
      && second.response == first.response
      && Score(second.after.pop, key) == Score(s.pop, key) + 2
      && forall k :: k != key ==> Score(second.after.pop, k) == Score(s.pop, k)
  {
    var first := Lookup(s, identifier, Works, Works, now);
    assert Live(s.pop, now) == s.pop;
    assert first.after.pop.expiresAt == Some(now + PopularityTtl);
    assert Live(first.after.pop, later) == first.after.pop;
  }

  // ----- ranking (GET /popular/ranking) -----

  /** `parseInt(limit) || 10`, sent to `ZRANGE ... 0 limit-1 REV WITHSCORES`. */
  function RankingLimit(limit: Option<string>): (n: int)
    ensures n != 0
    ensures JsText.ParseIntParam(limit).None? ==> n == 10
  {
    JsText.ParseIntOr(limit, 10)
  }

  /**
   * How many members `ZRANGE key 0 (limit - 1)` returns from a set of `size`: a negative stop
   * counts from the end, so `limit = -2` drops the last two members instead of returning none.
   */
  function RangeCount(size: nat, limit: int): (n: nat)
    ensures limit >= 1 ==> n == if limit < size then limit else size
    ensures limit <= 0 ==> n == if size + limit > 0 then size + limit else 0
  {
    var stop := limit - 1;
    var stop' := if stop < 0 then size + stop else stop;
    if stop' < 0 then 0 else if stop' + 1 < size then stop' + 1 else size
  }

  /** One hydrated ranking entry: the document with `popularity_score` attached. */
  datatype Ranked = Ranked(airport: Airport, score: real)

  /**
   * The flat `WITHSCORES` reply read two at a time: member at an even index, its score
   * (read by `score`, the runtime's `parseFloat`) right after; a trailing member is dropped.
   */
  function Pairs(reply: seq<string>, score: string -> real): (r: seq<(string, real)>)
    ensures |r| == |reply| / 2
    ensures forall k :: 0 <= k < |r| ==> r[k] == (reply[2 * k], score(reply[2 * k + 1]))
  {
    if |reply| < 2 then []
    else
      var rest := Pairs(reply[2..], score);
      assert forall k :: 0 <= k < |rest| ==> reply[2..][2 * k] == reply[2 * (k + 1)];
      assert forall k :: 0 <= k < |rest| ==> reply[2..][2 * k + 1] == reply[2 * (k + 1) + 1];
      [(reply[0], score(reply[1]))] + rest
  }

  function Codes(pairs: seq<(string, real)>): (codes: seq<string>)
    ensures |codes| == |pairs|
    ensures forall k :: 0 <= k < |pairs| ==> codes[k] == pairs[k].0
  {
    seq(|pairs|, k requires 0 <= k < |pairs| => pairs[k].0)
  }

  /** `find`: the position of the first pair for `key`. */
  function FindPair(pairs: seq<(string, real)>, key: string): (r: Option<nat>)
    ensures r.Some? ==> r.value < |pairs| && pairs[r.value].0 == key
    ensures r.Some? ==> forall j :: 0 <= j < r.value ==> pairs[j].0 != key
    ensures r.None? <==> forall j :: 0 <= j < |pairs| ==> pairs[j].0 != key
  {
    if |pairs| == 0 then None
    else if pairs[0].0 == key then Some(0)
    else match FindPair(pairs[1..], key)
      case None => None
      case Some(k) => Some(k + 1)
  }

  /** The score of the first pair for `key`, or 0 when the reply has none. */
  function ScoreFor(pairs: seq<(string, real)>, key: string): real {
    match FindPair(pairs, key)
    case None => 0.0
    case Some(k) => pairs[k].1
  }

  function Hydrate(docs: seq<Airport>, pairs: seq<(string, real)>): (r: seq<Ranked>)
    ensures |r| == |docs|
    ensures forall i :: 0 <= i < |docs| ==> r[i] == Ranked(docs[i], ScoreFor(pairs, IndexKey(docs[i])))
  {
    seq(|docs|, i requires 0 <= i < |docs| => Ranked(docs[i], ScoreFor(pairs, IndexKey(docs[i]))))
  }

  function NegScore(x: Ranked): real { -x.score }

  /**
   * The ranking built from a `ZRANGE ... REV WITHSCORES` reply: every requested document,
   * each with the score of its own key (0 when its key got none, even if it was found
   * through its other code), ordered by score, highest first.
   */
  function RankingFromReply(docs: seq<Airport>, reply: seq<string>, score: string -> real)
    : (r: seq<Ranked>)
    ensures |reply| < 2 ==> r == []
    ensures forall i, j :: 0 <= i < j < |r| ==> r[i].score >= r[j].score
    ensures forall i :: 0 <= i < |r| ==>
      && r[i].airport in docs
      && Requested(r[i].airport, Codes(Pairs(reply, score)))
      && r[i].score == ScoreFor(Pairs(reply, score), IndexKey(r[i].airport))
    ensures forall i :: 0 <= i < |docs| && Requested(docs[i], Codes(Pairs(reply, score))) ==>
      Ranked(docs[i], ScoreFor(Pairs(reply, score), IndexKey(docs[i]))) in r
    ensures |r| == Seqs.Count(docs, RequestedBy(Codes(Pairs(reply, score))))
  {
    var pairs := Pairs(reply, score);
    var found := Seqs.Filter(docs, RequestedBy(Codes(pairs)));
    var sorted := Sorting.SortBy(Hydrate(found, pairs), NegScore);
    RankingFacts(docs, pairs, found, sorted);
    sorted
  }

  lemma RankingFacts(docs: seq<Airport>, pairs: seq<(string, real)>, found: seq<Airport>, sorted: seq<Ranked>)
    requires found == Seqs.Filter(docs, RequestedBy(Codes(pairs)))
    requires multiset(sorted) == multiset(Hydrate(found, pairs)) && Sorting.SortedBy(sorted, NegScore)
    ensures |pairs| == 0 ==> sorted == []
    ensures forall i, j :: 0 <= i < j < |sorted| ==> sorted[i].score >= sorted[j].score
    ensures forall i :: 0 <= i < |sorted| ==>
      sorted[i].airport in docs && Requested(sorted[i].airport, Codes(pairs))
      && sorted[i].score == ScoreFor(pairs, IndexKey(sorted[i].airport))
    ensures forall i :: 0 <= i < |docs| && Requested(docs[i], Codes(pairs)) ==>
      Ranked(docs[i], ScoreFor(pairs, IndexKey(docs[i]))) in sorted
  {
    RankingDescending(sorted);
    RankingSound(docs, pairs, found, sorted);
    RankingComplete(docs, pairs, found, sorted);
    if |pairs| == 0 {
      NoPairsNoRanking(docs, pairs, found, sorted);
    }
  }

  /** With no pairs in the reply nothing is requested, so nothing is ranked. */
  lemma NoPairsNoRanking(docs: seq<Airport>, pairs: seq<(string, real)>, found: seq<Airport>, sorted: seq<Ranked>)
    requires found == Seqs.Filter(docs, RequestedBy(Codes(pairs)))
    requires multiset(sorted) == multiset(Hydrate(found, pairs))
    requires |pairs| == 0
    ensures sorted == []
  {
    assert forall k :: 0 <= k < |found| ==> !RequestedBy(Codes(pairs))(found[k]);
    assert |found| == 0;
    assert |multiset(sorted)| == 0;
  }

  lemma RankingDescending(sorted: seq<Ranked>)
    requires Sorting.SortedBy(sorted, NegScore)
    ensures forall i, j :: 0 <= i < j < |sorted| ==> sorted[i].score >= sorted[j].score
  {
    forall i, j | 0 <= i < j < |sorted|
      ensures sorted[i].score >= sorted[j].score
    {
      assert NegScore(sorted[i]) <= NegScore(sorted[j]);
    }
  }

  lemma RankingSound(docs: seq<Airport>, pairs: seq<(string, real)>, found: seq<Airport>, sorted: seq<Ranked>)
    requires found == Seqs.Filter(docs, RequestedBy(Codes(pairs)))
    requires multiset(sorted) == multiset(Hydrate(found, pairs))
    ensures forall i :: 0 <= i < |sorted| ==>
      sorted[i].airport in docs && Requested(sorted[i].airport, Codes(pairs))
      && sorted[i].score == ScoreFor(pairs, IndexKey(sorted[i].airport))
  {
    var joined := Hydrate(found, pairs);
    forall i | 0 <= i < |sorted|
      ensures sorted[i].airport in docs && Requested(sorted[i].airport, Codes(pairs))
      ensures sorted[i].score == ScoreFor(pairs, IndexKey(sorted[i].airport))
    {
      assert sorted[i] in multiset(sorted);
      assert sorted[i] in joined;
      var k :| 0 <= k < |joined| && joined[k] == sorted[i];
      assert RequestedBy(Codes(pairs))(found[k]);
    }
  }

  lemma RankingComplete(docs: seq<Airport>, pairs: seq<(string, real)>, found: seq<Airport>, sorted: seq<Ranked>)
    requires found == Seqs.Filter(docs, RequestedBy(Codes(pairs)))
    requires multiset(sorted) == multiset(Hydrate(found, pairs))
    ensures forall i :: 0 <= i < |docs| && Requested(docs[i], Codes(pairs)) ==>
      Ranked(docs[i], ScoreFor(pairs, IndexKey(docs[i]))) in sorted
  {
    var joined := Hydrate(found, pairs);
    forall i | 0 <= i < |docs| && Requested(docs[i], Codes(pairs))
      ensures Ranked(docs[i], ScoreFor(pairs, IndexKey(docs[i]))) in sorted
    {
      assert RequestedBy(Codes(pairs))(docs[i]);
      var k :| 0 <= k < |found| && found[k] == docs[i];
      assert joined[k] in multiset(joined);
    }
  }

  /** A document found through its `ident` whose key is its IATA code gets no score. */
  lemma FoundByIdentScoresZero(docs: seq<Airport>, reply: seq<string>, score: string -> real, i: nat)
    requires i < |docs| && HasIata(docs[i])
    requires docs[i].ident in Codes(Pairs(reply, score))
    requires docs[i].iataCode.value !in Codes(Pairs(reply, score))
    ensures Ranked(docs[i], 0.0) in RankingFromReply(docs, reply, score)
  {
    var pairs := Pairs(reply, score);
    assert |reply| >= 2;
    assert FindPair(pairs, IndexKey(docs[i])).None? by {
      forall j | 0 <= j < |pairs| ensures pairs[j].0 != IndexKey(docs[i]) {
        assert Codes(pairs)[j] == pairs[j].0;
      }
    }
  }

  /** GET `/popular/ranking`: `[]` without a ranking client; a failing `ZRANGE` is a 500. */
  function Ranking(s: Stores, reply: RedisReply<seq<string>>, score: string -> real)
    : (r: Response<seq<Ranked>>)
    ensures reply.Unavailable? ==> r == Ok([])
    ensures reply.Threw? ==> r == Err(ServerError)
    ensures reply.Replied? ==> r.Ok? && |r.value| <= |s.docs|
    ensures reply.Replied? ==> r == Ok(RankingFromReply(s.docs, reply.value, score))
  {
    match reply
    case Unavailable => Ok([])
    case Threw => Err(ServerError)
    case Replied(flat) => Ok(RankingFromReply(s.docs, flat, score))
  }

  /**
   * The `ZRANGE 0 (limit - 1) REV WITHSCORES` reply on a ranking of `size` members pairs
   * `RangeCount` codes with their scores: at most `limit` of them for a positive limit, the
   * top ten without one, and an empty answer when the range selects no member.
   */
  lemma RankingOfRangeReply(s: Stores, size: nat, limit: Option<string>, flat: seq<string>, score: string -> real)
    requires |flat| == 2 * RangeCount(size, RankingLimit(limit))
    ensures |Codes(Pairs(flat, score))| == RangeCount(size, RankingLimit(limit))
    ensures RankingLimit(limit) >= 1 ==> |Codes(Pairs(flat, score))| <= RankingLimit(limit)
    ensures JsText.ParseIntParam(limit).None? ==> |Codes(Pairs(flat, score))| == if size < 10 then size else 10
    ensures RangeCount(size, RankingLimit(limit)) == 0 ==> Ranking(s, Replied(flat), score) == Ok([])
  {
  }

  // ----- create (POST /) -----

  datatype CreateBody = CreateBody(
    ident: Option<string>,
    name: Option<string>,
    latitude: Option<Json>,
    longitude: Option<Json>,
    elevation: Option<Json>,
    continent: Option<string>,
    isoCountry: Option<string>,
    isoRegion: Option<string>,
    municipality: Option<string>,
    iataCode: Option<string>,
    gpsCode: Option<string>,
    kind: Option<string>)

  function TextOr(v: Option<string>, fallback: string): string {
    if Given(v) then v.value else fallback
  }

  predicate LatitudeOk(v: Option<real>) {
    v.Some? && -90.0 <= v.value <= 90.0
  }

  predicate LongitudeOk(v: Option<real>) {
    v.Some? && -180.0 <= v.value <= 180.0
  }

  predicate HasIdent(docs: seq<Airport>, code: string) {
    exists i :: 0 <= i < |docs| && docs[i].ident == code
  }

  predicate HasIataCode(docs: seq<Airport>, code: string) {
    exists i :: 0 <= i < |docs| && docs[i].iataCode == Some(code)
  }

  /** `lastAirport ? lastAirport.id + 1 : 1`: above every id in use. */
  function NextId(docs: seq<Airport>): (n: int)
    ensures forall i :: 0 <= i < |docs| ==> docs[i].id < n
    ensures |docs| == 0 ==> n == 1
    ensures |docs| > 0 ==> exists i :: 0 <= i < |docs| && docs[i].id == n - 1
  {
    if |docs| == 0 then 1 else MaxId(docs) + 1
  }

  function NewAirport(b: CreateBody, id: int, lat: real, lng: real, elevation: int): Airport
    requires Given(b.ident) && Given(b.name)
  {
    var name := JsText.Trim(b.name.value);
    Airport(
      id := id,
      ident := JsText.ToUpper(b.ident.value),
      kind := b.kind.GetOr("airport"),
      name := name,
      latitude := lat,
      longitude := lng,
      elevation := Some(elevation),
      continent := Some(TextOr(b.continent, "Unknown")),
      isoCountry := Some(TextOr(b.isoCountry, "Unknown")),
      isoRegion := Some(TextOr(b.isoRegion, "Unknown")),
      municipality := Some(TextOr(b.municipality, "Unknown")),
      scheduledService := Some("yes"),
      gpsCode := if Given(b.gpsCode) then b.gpsCode else None,
      iataCode := if Given(b.iataCode) then Some(JsText.ToUpper(b.iataCode.value)) else None,
      localCode := None,
      homeLink := None,
      wikipediaLink := None,
      keywords := Some(name))
  }

  /** `elevation_ft ? parseInt(elevation_ft) : 0`, where `None` is `NaN`. */
  function CreateElevation(b: CreateBody): (e: Option<int>)
    ensures !Truthy(b.elevation) ==> e == Some(0)
    ensures Truthy(b.elevation) ==> e == ParseIntValue(b.elevation)
  {
    if Truthy(b.elevation) then ParseIntValue(b.elevation) else Some(0)
  }

  /**
   * The route's own checks pass: the four fields are present, both coordinates parse in
   * range, and neither the upper-cased `ident` nor a given upper-cased IATA code is in use.
   */
  predicate CreateChecksPass(s: Stores, b: CreateBody, parseFloat: string -> Option<real>) {
    && Given(b.ident) && Given(b.name) && b.latitude.Some? && b.longitude.Some?
    && LatitudeOk(ParseFloat(b.latitude, parseFloat))
    && LongitudeOk(ParseFloat(b.longitude, parseFloat))
    && !HasIdent(s.docs, JsText.ToUpper(b.ident.value))
    && !(Given(b.iataCode) && HasIataCode(s.docs, JsText.ToUpper(b.iataCode.value)))
  }

  /** The document the route builds once its checks pass and the elevation parses. */
  function Candidate(s: Stores, b: CreateBody, parseFloat: string -> Option<real>): Airport
    requires CreateChecksPass(s, b, parseFloat) && CreateElevation(b).Some?
  {
    NewAirport(b, NextId(s.docs), ParseFloat(b.latitude, parseFloat).value,
               ParseFloat(b.longitude, parseFloat).value, CreateElevation(b).value)
  }

  /** The checks pass, the elevation is a number, and the store's validators accept the document. */
  predicate CreateAccepted(s: Stores, b: CreateBody, parseFloat: string -> Option<real>) {
    CreateChecksPass(s, b, parseFloat) && CreateElevation(b).Some? && SchemaValid(Candidate(s, b, parseFloat))
  }

  /**
   * Once the route's checks pass and the elevation parses, the save's `required` validators
   * decide: the document is accepted exactly when the trimmed name and the type are non-empty.
   */
  lemma CreateValidatorsDecide(s: Stores, b: CreateBody, parseFloat: string -> Option<real>)
    requires CreateChecksPass(s, b, parseFloat) && CreateElevation(b).Some?
    ensures CreateAccepted(s, b, parseFloat) <==> JsText.Trim(b.name.value) != "" && b.kind != Some("")
  {
  }

  /**
   * POST `/`. Rejections, in the order the route checks them: a missing field, a latitude
   * or longitude that is `NaN` or out of range, an `ident` or IATA code already in use
   * (after upper-casing). Then the next id is taken, the document saved (the store refuses a
   * `NaN` elevation or a name that is blank once trimmed), and the geo entry added.
   */
  function Create(s: Stores, b: CreateBody, parseFloat: string -> Option<real>, geo: IndexCall)
    : (r: Outcome<Airport>)
    ensures r.response.Err? ==> r.after == s
    ensures !Given(b.ident) || !Given(b.name) || b.latitude.None? || b.longitude.None? ==>
      r.response == Err(MissingFields)
    ensures Given(b.ident) && Given(b.name) && b.latitude.Some? && b.longitude.Some? ==>
      && (!LatitudeOk(ParseFloat(b.latitude, parseFloat)) ==> r.response == Err(LatitudeOutOfRange))
      && (LatitudeOk(ParseFloat(b.latitude, parseFloat)) && !LongitudeOk(ParseFloat(b.longitude, parseFloat)) ==>
            r.response == Err(LongitudeOutOfRange))
      && (LatitudeOk(ParseFloat(b.latitude, parseFloat)) && LongitudeOk(ParseFloat(b.longitude, parseFloat)) ==>
            && (HasIdent(s.docs, JsText.ToUpper(b.ident.value)) ==> r.response == Err(DuplicateIdent))
            && ((!HasIdent(s.docs, JsText.ToUpper(b.ident.value)) && Given(b.iataCode) &&
                 HasIataCode(s.docs, JsText.ToUpper(b.iataCode.value))) ==> r.response == Err(DuplicateIata)))
    ensures CreateAccepted(s, b, parseFloat) <==> r.response.Ok?
    ensures CreateChecksPass(s, b, parseFloat) && !CreateAccepted(s, b, parseFloat) ==> r.response == Err(ServerError)
    ensures r.response.Ok? ==> r.response.value == Candidate(s, b, parseFloat)
    ensures r.response.Ok? ==>
      var a := r.response.value;
      && Given(b.ident) && Given(b.name)
      && r.after.docs == s.docs + [a]
      && SchemaValid(a)
      && (forall i :: 0 <= i < |s.docs| ==> s.docs[i].id < a.id)
      && (|s.docs| == 0 ==> a.id == 1)
      && a.ident == JsText.ToUpper(b.ident.value)
      && !HasIdent(s.docs, a.ident)
      && (HasIata(a) ==> Given(b.iataCode) && a.iataCode.value == JsText.ToUpper(b.iataCode.value)
                         && !HasIataCode(s.docs, a.iataCode.value))
      && (!Given(b.iataCode) ==> a.iataCode.None?)
      && a.name == JsText.Trim(b.name.value) && a.keywords == Some(a.name)
      && a.elevation == CreateElevation(b)
      && ParseFloat(b.latitude, parseFloat) == Some(a.latitude) && -90.0 <= a.latitude <= 90.0
      && ParseFloat(b.longitude, parseFloat) == Some(a.longitude) && -180.0 <= a.longitude <= 180.0
      && r.after.geo == GeoAdd(s.geo, IndexKey(a), Coord(a.longitude, a.latitude), geo)
      && r.after.pop == s.pop
  {
    if !Given(b.ident) || !Given(b.name) || b.latitude.None? || b.longitude.None? then
      Outcome(Err(MissingFields), s)
    else
      var lat := ParseFloat(b.latitude, parseFloat);
      var lng := ParseFloat(b.longitude, parseFloat);
      if !LatitudeOk(lat) then Outcome(Err(LatitudeOutOfRange), s)
      else if !LongitudeOk(lng) then Outcome(Err(LongitudeOutOfRange), s)
      else if HasIdent(s.docs, JsText.ToUpper(b.ident.value)) then Outcome(Err(DuplicateIdent), s)
      else if Given(b.iataCode) && HasIataCode(s.docs, JsText.ToUpper(b.iataCode.value)) then
        Outcome(Err(DuplicateIata), s)
      else
        var elevation := CreateElevation(b);
        if elevation.None? then Outcome(Err(ServerError), s)
        else
          var a := NewAirport(b, NextId(s.docs), lat.value, lng.value, elevation.value);
          if !SchemaValid(a) then Outcome(Err(ServerError), s)
          else
            assert HasIata(a) ==> Given(b.iataCode);
            Outcome(Ok(a), Stores(s.docs + [a], GeoAdd(s.geo, IndexKey(a), Coord(lng.value, lat.value), geo), s.pop))
  }

  /** A created document's id is new, so the ids stay pairwise distinct. */
  lemma CreateKeepsIdsUnique(s: Stores, b: CreateBody, parseFloat: string -> Option<real>, geo: IndexCall)
    requires UniqueIds(s.docs)
    ensures UniqueIds(Create(s, b, parseFloat, geo).after.docs)
  {
  }

  /** The duplicate checks keep `ident`s, and non-empty IATA codes, pairwise distinct. */
  lemma CreateKeepsCodesUnique(s: Stores, b: CreateBody, parseFloat: string -> Option<real>, geo: IndexCall)
    requires UniqueCodes(s.docs)
    ensures UniqueCodes(Create(s, b, parseFloat, geo).after.docs)
  {
    var r := Create(s, b, parseFloat, geo);
    if r.response.Ok? {
      var a := r.response.value;
      var d := r.after.docs;
      forall i, j | 0 <= i < j < |d|
        ensures d[i].ident != d[j].ident && (HasIata(d[i]) && HasIata(d[j]) ==> d[i].iataCode != d[j].iataCode)
      {
        if j == |s.docs| {
          assert d[j] == a && d[i] == s.docs[i];
        }
      }
    }
  }

  /**
   * Write-then-read: the created airport is what a lookup by its `ident` returns, provided
   * the `ident` is not numeric (that would select by id) and no existing document carries it
   * as its IATA code (the lookup matches either field and takes the first).
   */
  lemma CreateThenLookup(s: Stores, b: CreateBody, parseFloat: string -> Option<real>, geo: IndexCall,
                         incr: IndexCall, expire: IndexCall, now: int)
    requires CreateAccepted(s, b, parseFloat)
    requires !JsText.IsNumeric(JsText.ToUpper(b.ident.value))
    requires !HasIataCode(s.docs, JsText.ToUpper(b.ident.value))
    ensures
      var c := Create(s, b, parseFloat, geo);
      Lookup(c.after, JsText.ToUpper(b.ident.value), incr, expire, now).response == Ok(Candidate(s, b, parseFloat))
  {
    var c := Create(s, b, parseFloat, geo);
    var a := c.response.value;
    JsText.ToUpperIdempotent(b.ident.value);
    assert Resolve(a.ident) == ByCode(a.ident);
    assert Matches(c.after.docs[|s.docs|], ByCode(a.ident));
    forall i | 0 <= i < |s.docs|
      ensures !Matches(c.after.docs[i], ByCode(a.ident))
    {
      assert c.after.docs[i] == s.docs[i];
    }
  }

  /**
   * The other side: when an existing document's IATA code equals the new `ident`, a lookup
   * by that `ident` returns the older document, not the one just created.
   */
  lemma CreateShadowedByIataCode(s: Stores, b: CreateBody, parseFloat: string -> Option<real>, geo: IndexCall,
                                 incr: IndexCall, expire: IndexCall, now: int)
    requires CreateAccepted(s, b, parseFloat)
    requires !JsText.IsNumeric(JsText.ToUpper(b.ident.value))
    requires HasIataCode(s.docs, JsText.ToUpper(b.ident.value))
    ensures
      var c := Create(s, b, parseFloat, geo);
      var l := Lookup(c.after, JsText.ToUpper(b.ident.value), incr, expire, now);
      l.response.Ok? && l.response.value != Candidate(s, b, parseFloat) && l.response.value in s.docs
  {
    var c := Create(s, b, parseFloat, geo);
    var a := c.response.value;
    JsText.ToUpperIdempotent(b.ident.value);
    assert Resolve(a.ident) == ByCode(a.ident);
    var i :| 0 <= i < |s.docs| && s.docs[i].iataCode == Some(a.ident);
    assert Matches(c.after.docs[i], ByCode(a.ident));
    var f := FindFirst(c.after.docs, ByCode(a.ident));
    assert f.value <= i;
    assert c.after.docs[f.value] == s.docs[f.value];
  }

  // ----- the geo index against the documents -----

  /** Every document's key is in the geo index, at the document's coordinates. */
  ghost predicate GeoCovers(s: Stores) {
    forall i :: 0 <= i < |s.docs| ==>
      IndexKey(s.docs[i]) in s.geo && s.geo[IndexKey(s.docs[i])] == Coord(s.docs[i].longitude, s.docs[i].latitude)
  }

  /** Every geo member is the key of some document. */
  ghost predicate GeoHasNoOrphans(s: Stores) {
    forall k :: k in s.geo ==> exists i :: 0 <= i < |s.docs| && IndexKey(s.docs[i]) == k
  }

  ghost predicate DistinctKeys(docs: seq<Airport>) {
    forall i, j :: 0 <= i < j < |docs| ==> IndexKey(docs[i]) != IndexKey(docs[j])
  }

  /** Appending a document together with its geo entry keeps the index in step, if its key is new. */
  lemma AppendKeepsGeoInSync(s: Stores, a: Airport, t: Stores)
    requires GeoCovers(s) && GeoHasNoOrphans(s)
    requires forall i :: 0 <= i < |s.docs| ==> IndexKey(s.docs[i]) != IndexKey(a)
    requires t.docs == s.docs + [a] && t.geo == s.geo[IndexKey(a) := Coord(a.longitude, a.latitude)]
    ensures GeoCovers(t) && GeoHasNoOrphans(t)
  {
    forall k | k in t.geo
      ensures exists i :: 0 <= i < |t.docs| && IndexKey(t.docs[i]) == k
    {
      if k == IndexKey(a) {
        assert t.docs[|s.docs|] == a;
      } else {
        var i :| 0 <= i < |s.docs| && IndexKey(s.docs[i]) == k;
        assert t.docs[i] == s.docs[i];
      }
    }
    forall i | 0 <= i < |t.docs|
      ensures IndexKey(t.docs[i]) in t.geo
      ensures t.geo[IndexKey(t.docs[i])] == Coord(t.docs[i].longitude, t.docs[i].latitude)
    {
      if i < |s.docs| {
        assert t.docs[i] == s.docs[i];
      }
    }
  }

  /** A create whose `GEOADD` works keeps the geo index in step, if its key is new. */
  lemma CreateKeepsGeoInSync(s: Stores, b: CreateBody, parseFloat: string -> Option<real>)
    requires GeoCovers(s) && GeoHasNoOrphans(s)
    requires CreateAccepted(s, b, parseFloat)
    requires forall i :: 0 <= i < |s.docs| ==> IndexKey(s.docs[i]) != IndexKey(Candidate(s, b, parseFloat))
    ensures GeoCovers(Create(s, b, parseFloat, Works).after)
    ensures GeoHasNoOrphans(Create(s, b, parseFloat, Works).after)
  {
    var r := Create(s, b, parseFloat, Works);
    AppendKeepsGeoInSync(s, r.response.value, r.after);
  }

  /** When the `GEOADD` of a create fails, the new document has no geo entry under a new key. */
  lemma CreateWithoutGeoLeavesGap(s: Stores, b: CreateBody, parseFloat: string -> Option<real>, geo: IndexCall)
    requires geo != Works
    requires CreateAccepted(s, b, parseFloat)
    requires IndexKey(Candidate(s, b, parseFloat)) !in s.geo
    ensures !GeoCovers(Create(s, b, parseFloat, geo).after)
  {
    var r := Create(s, b, parseFloat, geo);
    assert r.after.docs[|s.docs|] == r.response.value;
  }

  // ----- update (PUT /:identifier) -----

  /**
   * The fields of a PUT body the model follows; `None` is a field the body does not carry.
   * For the nullable fields `Some(None)` is an explicit `null`.
   */
  datatype UpdateBody = UpdateBody(
    id: Option<int>,
    ident: Option<string>,
    name: Option<string>,
    kind: Option<string>,
    latitude: Option<Json>,
    longitude: Option<Json>,
    elevation: Option<Json>,
    continent: Option<Option<string>>,
    isoCountry: Option<Option<string>>,
    isoRegion: Option<Option<string>>,
    municipality: Option<Option<string>>,
    scheduledService: Option<Option<string>>,
    gpsCode: Option<Option<string>>,
    iataCode: Option<Option<string>>,
    localCode: Option<Option<string>>,
    homeLink: Option<Option<string>>,
    wikipediaLink: Option<Option<string>>,
    keywords: Option<Option<string>>)

  /** The `ident`/`iata_code` normalisation: a truthy value is upper-cased, others kept. */
  function UpperIfGiven(v: string): (r: string)
    ensures v != "" ==> r == JsText.ToUpper(v)
    ensures v == "" ==> r == ""
  {
    if v != "" then JsText.ToUpper(v) else v
  }

  /** One `$set` path: the body's value when the body carries the field, the stored one otherwise. */
  ghost predicate SetsField<T>(before: T, after: T, v: Option<T>) {
    (v.Some? ==> after == v.value) && (v.None? ==> after == before)
  }

  function SetPath<T>(current: T, v: Option<T>): (r: T)
    ensures SetsField(current, r, v)
  {
    if v.Some? then v.value else current
  }

  /** `elevation_ft`, when the body carries it, becomes `parseInt(..) || 0`. */
  function SetElevation(current: Option<int>, v: Option<Json>): (r: Option<int>)
    ensures v.Some? ==> r == Some(ParseIntValue(v).GetOr(0))
    ensures v.None? ==> r == current
  {
    if v.Some? then Some(ParseIntValue(v).GetOr(0)) else current
  }

  /** `iata_code`, when the body carries it: upper-cased if truthy, else written as given. */
  function SetIata(current: Option<string>, v: Option<Option<string>>): (r: Option<string>)
    ensures v.Some? && Given(v.value) ==> r == Some(JsText.ToUpper(v.value.value))
    ensures v.Some? && !Given(v.value) ==> r == v.value
    ensures v.None? ==> r == current
  {
    if v.Some? && v.value.Some? then Some(UpperIfGiven(v.value.value)) else SetPath(current, v)
  }

  /**
   * The paths of a PUT besides the id, the coordinates and `ident`, from document `b` to `a`:
   * each field the body carries is written, the elevation as `parseInt(..) || 0` and a truthy
   * `iata_code` upper-cased; every other field keeps its stored value.
   */
  ghost predicate UpdatedFields(b: Airport, a: Airport, u: UpdateBody) {
    && SetsField(b.name, a.name, u.name)
    && SetsField(b.kind, a.kind, u.kind)
    && (u.elevation.Some? ==> a.elevation == Some(ParseIntValue(u.elevation).GetOr(0)))
    && (u.elevation.None? ==> a.elevation == b.elevation)
    && (u.iataCode.Some? && Given(u.iataCode.value) ==> a.iataCode == Some(JsText.ToUpper(u.iataCode.value.value)))
    && (u.iataCode.Some? && !Given(u.iataCode.value) ==> a.iataCode == u.iataCode.value)
    && (u.iataCode.None? ==> a.iataCode == b.iataCode)
    && OptionalFieldsSet(b, a, u)
  }

  /** The nullable text paths: written as the body gives them (`null` included), else kept. */
  ghost predicate OptionalFieldsSet(b: Airport, a: Airport, u: UpdateBody) {
    && SetsField(b.continent, a.continent, u.continent)
    && SetsField(b.isoCountry, a.isoCountry, u.isoCountry)
    && SetsField(b.isoRegion, a.isoRegion, u.isoRegion)
    && SetsField(b.municipality, a.municipality, u.municipality)
    && SetsField(b.scheduledService, a.scheduledService, u.scheduledService)
    && SetsField(b.gpsCode, a.gpsCode, u.gpsCode)
    && SetsField(b.localCode, a.localCode, u.localCode)
    && SetsField(b.homeLink, a.homeLink, u.homeLink)
    && SetsField(b.wikipediaLink, a.wikipediaLink, u.wikipediaLink)
    && SetsField(b.keywords, a.keywords, u.keywords)
  }

  /** `$set` of the normalised body onto document `a`. */
  function Apply(a: Airport, u: UpdateBody, lat: Option<real>, lng: Option<real>): (r: Airport)
    ensures UpdatedFields(a, r, u)
  {
    a.(
      id := SetPath(a.id, u.id),
      ident := if u.ident.Some? then UpperIfGiven(u.ident.value) else a.ident,
      name := SetPath(a.name, u.name),
      kind := SetPath(a.kind, u.kind),
      latitude := SetPath(a.latitude, lat),
      longitude := SetPath(a.longitude, lng),
      elevation := SetElevation(a.elevation, u.elevation),
      iataCode := SetIata(a.iataCode, u.iataCode),
      continent := SetPath(a.continent, u.continent),
      isoCountry := SetPath(a.isoCountry, u.isoCountry),
      isoRegion := SetPath(a.isoRegion, u.isoRegion),
      municipality := SetPath(a.municipality, u.municipality),
      scheduledService := SetPath(a.scheduledService, u.scheduledService),
      gpsCode := SetPath(a.gpsCode, u.gpsCode),
      localCode := SetPath(a.localCode, u.localCode),
      homeLink := SetPath(a.homeLink, u.homeLink),
      wikipediaLink := SetPath(a.wikipediaLink, u.wikipediaLink),
      keywords := SetPath(a.keywords, u.keywords))
  }

  /** The update validators: a required text path the body sets must not become empty. */
  predicate UpdatePathsValid(u: UpdateBody) {
    (u.ident.Some? ==> u.ident.value != "") && (u.name.Some? ==> u.name.value != "") && (u.kind.Some? ==> u.kind.value != "")
  }

  /**
   * Every check of a PUT passes: each supplied coordinate parses in range, the validators
   * accept the body, the identifier casts and selects a document.
   */
  predicate UpdateAccepted(s: Stores, identifier: string, u: UpdateBody, parseFloat: string -> Option<real>) {
    && (u.latitude.None? || LatitudeOk(ParseFloat(u.latitude, parseFloat)))
    && (u.longitude.None? || LongitudeOk(ParseFloat(u.longitude, parseFloat)))
    && UpdatePathsValid(u)
    && Selects(s.docs, identifier)
  }

  predicate MovesCoordinates(u: UpdateBody) {
    u.latitude.Some? || u.longitude.Some?
  }

  /**
   * PUT `/:identifier`. A supplied latitude or longitude that is `NaN` or out of range is a
   * 400 before any lookup; a failing update validator or an identifier the store cannot cast
   * is a 500; then the first selected document is rewritten, or 404. Only a body that carries
   * a coordinate rewrites the geo entry, under the document's new key; the entry under its old
   * key is never removed.
   */
  function Update(s: Stores, identifier: string, u: UpdateBody, parseFloat: string -> Option<real>, geo: IndexCall)
    : (r: Outcome<Airport>)
    ensures r.response.Err? ==> r.after == s
    ensures u.latitude.Some? && !LatitudeOk(ParseFloat(u.latitude, parseFloat)) ==>
      r.response == Err(LatitudeOutOfRange)
    ensures (u.latitude.None? || LatitudeOk(ParseFloat(u.latitude, parseFloat))) ==>
      && (u.longitude.Some? && !LongitudeOk(ParseFloat(u.longitude, parseFloat)) ==> r.response == Err(LongitudeOutOfRange))
      && ((u.longitude.None? || LongitudeOk(ParseFloat(u.longitude, parseFloat))) ==>
            && (!UpdatePathsValid(u) || Uncastable(Resolve(identifier)) ==> r.response == Err(ServerError))
            && (UpdatePathsValid(u) && !Uncastable(Resolve(identifier)) && FindFirst(s.docs, Resolve(identifier)).None? ==>
                  r.response == Err(NotFound)))
    ensures UpdateAccepted(s, identifier, u, parseFloat) <==> r.response.Ok?
    ensures r.response.Ok? ==>
      var i := FindFirst(s.docs, Resolve(identifier));
      var a := r.response.value;
      && i.Some?
      && r.after.docs == s.docs[i.value := a]
      && a.id == (if u.id.Some? then u.id.value else s.docs[i.value].id)
      && (u.latitude.Some? ==> Some(a.latitude) == ParseFloat(u.latitude, parseFloat) && -90.0 <= a.latitude <= 90.0)
      && (u.latitude.None? ==> a.latitude == s.docs[i.value].latitude)
      && (u.longitude.Some? ==> Some(a.longitude) == ParseFloat(u.longitude, parseFloat) && -180.0 <= a.longitude <= 180.0)
      && (u.longitude.None? ==> a.longitude == s.docs[i.value].longitude)
      && (u.ident.Some? ==> a.ident == JsText.ToUpper(u.ident.value))
      && (u.ident.None? ==> a.ident == s.docs[i.value].ident)
      && (MovesCoordinates(u) ==> r.after.geo == GeoAdd(s.geo, IndexKey(a), Coord(a.longitude, a.latitude), geo))
      && (!MovesCoordinates(u) ==> r.after.geo == s.geo)
      && r.after.pop == s.pop
    ensures r.response.Ok? ==> UpdatedFields(s.docs[FindFirst(s.docs, Resolve(identifier)).value], r.response.value, u)
  {
    var lat := if u.latitude.Some? then ParseFloat(u.latitude, parseFloat) else None;
    var lng := if u.longitude.Some? then ParseFloat(u.longitude, parseFloat) else None;
    if u.latitude.Some? && !LatitudeOk(lat) then Outcome(Err(LatitudeOutOfRange), s)
    else if u.longitude.Some? && !LongitudeOk(lng) then Outcome(Err(LongitudeOutOfRange), s)
    else if !UpdatePathsValid(u) || Uncastable(Resolve(identifier)) then Outcome(Err(ServerError), s)
    else match FindFirst(s.docs, Resolve(identifier))
      case None => Outcome(Err(NotFound), s)
      case Some(i) =>
        var a := Apply(s.docs[i], u, lat, lng);
        var g := if MovesCoordinates(u) then GeoAdd(s.geo, IndexKey(a), Coord(a.longitude, a.latitude), geo) else s.geo;
        Outcome(Ok(a), Stores(s.docs[i := a], g, s.pop))
  }

  /**
   * An update that moves an airport and changes its key leaves the old key in the geo index
   * with no document behind it, when keys were distinct before.
   */
  lemma UpdateLeavesStaleGeoKey(s: Stores, identifier: string, u: UpdateBody, parseFloat: string -> Option<real>)
    requires DistinctKeys(s.docs) && GeoCovers(s)
    requires UpdateAccepted(s, identifier, u, parseFloat)
    requires MovesCoordinates(u)
    requires IndexKey(s.docs[FindFirst(s.docs, Resolve(identifier)).value])
          != IndexKey(Update(s, identifier, u, parseFloat, Works).response.value)
    ensures
      var r := Update(s, identifier, u, parseFloat, Works);
      var stale := IndexKey(s.docs[FindFirst(s.docs, Resolve(identifier)).value]);
      stale in r.after.geo && !GeoHasNoOrphans(r.after)
  {
    var r := Update(s, identifier, u, parseFloat, Works);
    var i := FindFirst(s.docs, Resolve(identifier)).value;
    var stale := IndexKey(s.docs[i]);
    assert stale in r.after.geo;
    forall j | 0 <= j < |r.after.docs|
      ensures IndexKey(r.after.docs[j]) != stale
    {
      if j != i {
        assert r.after.docs[j] == s.docs[j];
      }
    }
  }

  /** An update that neither moves the airport nor changes its key keeps the geo cover. */
  lemma UpdateKeepsGeoCover(s: Stores, identifier: string, u: UpdateBody, parseFloat: string -> Option<real>, geo: IndexCall)
    requires GeoCovers(s)
    requires UpdateAccepted(s, identifier, u, parseFloat)
    requires !MovesCoordinates(u)
    requires IndexKey(s.docs[FindFirst(s.docs, Resolve(identifier)).value])
          == IndexKey(Update(s, identifier, u, parseFloat, geo).response.value)
    ensures GeoCovers(Update(s, identifier, u, parseFloat, geo).after)
  {
    var r := Update(s, identifier, u, parseFloat, geo);
    var i := FindFirst(s.docs, Resolve(identifier)).value;
    forall j | 0 <= j < |r.after.docs|
      ensures IndexKey(r.after.docs[j]) in r.after.geo
      ensures r.after.geo[IndexKey(r.after.docs[j])] == Coord(r.after.docs[j].longitude, r.after.docs[j].latitude)
    {
      if j != i {
        assert r.after.docs[j] == s.docs[j];
      }
    }
  }

  // ----- delete (DELETE /:identifier) -----

  /**
   * DELETE `/:identifier`: removes the first selected document, then `ZREM`s its key from the
   * geo index and from the ranking, in that order inside one `try`: a failing geo removal
   * skips the ranking removal. A miss is a 404 and touches nothing, and so is a 500 for an
   * identifier the store cannot cast.
   */
  function Delete(s: Stores, identifier: string, geo: IndexCall, pop: IndexCall, now: int)
    : (r: Outcome<Airport>)
    ensures Uncastable(Resolve(identifier)) <==> r.response == Err(ServerError)
    ensures !Uncastable(Resolve(identifier)) && FindFirst(s.docs, Resolve(identifier)).None? <==> r.response == Err(NotFound)
    ensures Selects(s.docs, identifier) ==> r.response == Ok(s.docs[FindFirst(s.docs, Resolve(identifier)).value])
    ensures r.response.Err? ==> r.after == s
    ensures r.response.Ok? ==>
      var i := FindFirst(s.docs, Resolve(identifier)).value;
      var a := r.response.value;
      var key := IndexKey(a);
      && a == s.docs[i] && Matches(a, Resolve(identifier))
      && r.after.docs == s.docs[..i] + s.docs[i + 1..]
      && |r.after.docs| == |s.docs| - 1
      && r.after.geo == GeoRemove(s.geo, key, geo)
      && (geo != Fails && pop == Works ==>
            && r.after.pop.scores.Keys == Live(s.pop, now).scores.Keys - {key}
            && (forall k :: k in r.after.pop.scores ==> Score(r.after.pop, k) == Score(Live(s.pop, now), k))
            && (r.after.pop.scores != map[] ==> r.after.pop.expiresAt == Live(s.pop, now).expiresAt)
            && (r.after.pop.scores == map[] ==> r.after.pop == Empty))
      && (geo == Fails || pop != Works ==> r.after.pop == s.pop)
  {
    if Uncastable(Resolve(identifier)) then Outcome(Err(ServerError), s)
    else match FindFirst(s.docs, Resolve(identifier))
      case None => Outcome(Err(NotFound), s)
      case Some(i) =>
        var a := s.docs[i];
        var key := IndexKey(a);
        var g := GeoRemove(s.geo, key, geo);
        var p := if geo != Fails && pop == Works then RemoveMember(s.pop, key, now) else s.pop;
        Outcome(Ok(a), Stores(s.docs[..i] + s.docs[i + 1..], g, p))
  }

  /** At most one document answers to the query. */
  ghost predicate AtMostOneMatch(docs: seq<Airport>, q: Query) {
    forall i, j :: 0 <= i < j < |docs| ==> !(Matches(docs[i], q) && Matches(docs[j], q))
  }

  /** With distinct ids a numeric selector matches at most one document. */
  lemma UniqueIdsMatchOnce(docs: seq<Airport>, n: Option<int>)
    requires UniqueIds(docs)
    ensures AtMostOneMatch(docs, ById(n))
  {
  }

  /**
   * Deleting twice: when at most one document answers to the identifier, the second delete
   * finds nothing and is a 404.
   */
  lemma DeleteTwiceNotFound(s: Stores, identifier: string, geo: IndexCall, pop: IndexCall, now: int,
                            geo2: IndexCall, pop2: IndexCall, later: int)
    requires AtMostOneMatch(s.docs, Resolve(identifier))
    requires Selects(s.docs, identifier)
    ensures Delete(Delete(s, identifier, geo, pop, now).after, identifier, geo2, pop2, later).response == Err(NotFound)
  {
    var i := FindFirst(s.docs, Resolve(identifier)).value;
    RemoveOnlyMatch(s.docs, i, Resolve(identifier), s.docs[..i] + s.docs[i + 1..]);
  }

  /** Removing the one matching document leaves none that matches. */
  lemma RemoveOnlyMatch(docs: seq<Airport>, i: nat, q: Query, d: seq<Airport>)
    requires i < |docs| && Matches(docs[i], q) && AtMostOneMatch(docs, q)
    requires d == docs[..i] + docs[i + 1..]
    ensures forall j :: 0 <= j < |d| ==> !Matches(d[j], q)
  {
    forall j | 0 <= j < |d|
      ensures !Matches(d[j], q)
    {
      if j < i {
        assert d[j] == docs[j];
      } else {
        assert d[j] == docs[j + 1];
      }
    }
  }

  /** A delete whose geo removal works leaves no orphan behind it. */
  lemma DeleteKeepsNoOrphans(s: Stores, identifier: string, pop: IndexCall, now: int)
    requires GeoHasNoOrphans(s)
    requires Selects(s.docs, identifier)
    ensures GeoHasNoOrphans(Delete(s, identifier, Works, pop, now).after)
  {
    var r := Delete(s, identifier, Works, pop, now);
    var i := FindFirst(s.docs, Resolve(identifier)).value;
    RemoveKeepsNoOrphans(s, i, r.after);
  }

  /** Removing a document together with its geo member keeps every member owned. */
  lemma RemoveKeepsNoOrphans(s: Stores, i: nat, t: Stores)
    requires i < |s.docs| && GeoHasNoOrphans(s)
    requires t.docs == s.docs[..i] + s.docs[i + 1..]
    requires t.geo.Keys <= s.geo.Keys - {IndexKey(s.docs[i])}
    ensures GeoHasNoOrphans(t)
  {
    var d := t.docs;
    forall k | k in t.geo
      ensures exists j :: 0 <= j < |d| && IndexKey(d[j]) == k
    {
      var j :| 0 <= j < |s.docs| && IndexKey(s.docs[j]) == k;
      if j < i {
        assert d[j] == s.docs[j];
      } else {
        assert d[j - 1] == s.docs[j];
      }
    }
  }

  /** With distinct keys, a delete keeps every remaining document's geo entry. */
  lemma DeleteKeepsGeoCover(s: Stores, identifier: string, geo: IndexCall, pop: IndexCall, now: int)
    requires GeoCovers(s) && DistinctKeys(s.docs)
    requires Selects(s.docs, identifier)
    ensures GeoCovers(Delete(s, identifier, geo, pop, now).after)
  {
    var r := Delete(s, identifier, geo, pop, now);
    var i := FindFirst(s.docs, Resolve(identifier)).value;
    assert r.after.docs == s.docs[..i] + s.docs[i + 1..];
    assert r.after.geo == GeoRemove(s.geo, IndexKey(s.docs[i]), geo);
    RemoveKeepsGeoCover(s, i, r.after);
  }

  /** Removing a document and at most its own geo member keeps the other documents indexed. */
  lemma RemoveKeepsGeoCover(s: Stores, i: nat, t: Stores)
    requires i < |s.docs| && GeoCovers(s) && DistinctKeys(s.docs)
    requires t.docs == s.docs[..i] + s.docs[i + 1..]
    requires forall k :: k in s.geo && k != IndexKey(s.docs[i]) ==> k in t.geo && t.geo[k] == s.geo[k]
    ensures GeoCovers(t)
  {
    var d := t.docs;
    forall j | 0 <= j < |d|
      ensures IndexKey(d[j]) in t.geo
      ensures t.geo[IndexKey(d[j])] == Coord(d[j].longitude, d[j].latitude)
    {
      var k := if j < i then j else j + 1;
      assert d[j] == s.docs[k];
      assert IndexKey(s.docs[k]) != IndexKey(s.docs[i]);
    }
  }
}

=== FILE: airport_search.dfy ===
/**
 * The search both front-end pages run on submit: a query that looks like a code is first
 * looked up as a code and falls back to a text search when that lookup fails; any other
 * query goes straight to the text search, and an error anywhere shows no results. The
 * two lookups are calls to the back end, so their answers are inputs.
 */
module AirportSearch {
  import opened Wrappers
  import JsText
  import opened AirportModel

  /**
   * The back-end calls a page can make: a code lookup and a text search with an optional
   * limit. `None` is a call that throws.
   */
  datatype Api = Api(byCode: string -> Option<Airport>, byText: (string, Option<nat>) -> Option<seq<Airport>>)

  /** A text search whose failure is caught: it shows no results. */
  function TextResults(api: Api, q: string, limit: Option<nat>): (r: seq<Airport>)
    ensures api.byText(q, limit).Some? ==> r == api.byText(q, limit).value
    ensures api.byText(q, limit).None? ==> r == []
  {
    api.byText(q, limit).GetOr([])
  }

  /**
   * The submit handler: `None` when the query is blank and nothing is searched, otherwise
   * the results shown. Both lookups receive the trimmed query.
   */
  function Search(query: string, isCode: string -> bool, limit: Option<nat>, api: Api): (r: Option<seq<Airport>>)
    ensures r.None? <==> JsText.IsBlank(query)
    ensures r.Some? && isCode(query) && api.byCode(JsText.Trim(query)).Some? ==>
      r.value == [api.byCode(JsText.Trim(query)).value]
    ensures r.Some? && isCode(query) && api.byCode(JsText.Trim(query)).None? ==>
      r.value == TextResults(api, JsText.Trim(query), limit)
    ensures r.Some? && !isCode(query) ==> r.value == TextResults(api, JsText.Trim(query), limit)
  {
    if JsText.IsBlank(query) then None
    else
      var q := JsText.Trim(query);
      if isCode(query) then
        match api.byCode(q)
        case Some(a) => Some([a])
        case None => Some(TextResults(api, q, limit))
      else Some(TextResults(api, q, limit))
  }

  /** Everything shown comes from one of the two lookups for the trimmed query. */
  lemma SearchShowsOnlyLookedUp(query: string, isCode: string -> bool, limit: Option<nat>, api: Api, a: Airport)
    requires Search(query, isCode, limit, api).Some? && a in Search(query, isCode, limit, api).value
    ensures api.byCode(JsText.Trim(query)) == Some(a)
      || (api.byText(JsText.Trim(query), limit).Some? && a in api.byText(JsText.Trim(query), limit).value)
  {
  }

  /** A code found by the code lookup is shown alone, and no text search is made for it. */
  lemma CodeHitSkipsText(query: string, isCode: string -> bool, limit: Option<nat>, api: Api, other: (string, Option<nat>) -> Option<seq<Airport>>)
    requires !JsText.IsBlank(query) && isCode(query) && api.byCode(JsText.Trim(query)).Some?
    ensures |Search(query, isCode, limit, api).value| == 1
    ensures Search(query, isCode, limit, api) == Search(query, isCode, limit, api.(byText := other))
  {
  }

  /** A query that is not a code never reaches the code lookup. */
  lemma TextQuerySkipsCode(query: string, isCode: string -> bool, limit: Option<nat>, api: Api, other: string -> Option<Airport>)
    requires !isCode(query)
    ensures Search(query, isCode, limit, api) == Search(query, isCode, limit, api.(byCode := other))
  {
  }

  /** When both lookups fail the page shows no results, rather than keeping older ones. */
  lemma BothFailShowNothing(query: string, isCode: string -> bool, limit: Option<nat>, api: Api)
    requires !JsText.IsBlank(query)
    requires api.byCode(JsText.Trim(query)).None? && api.byText(JsText.Trim(query), limit).None?
    ensures Search(query, isCode, limit, api) == Some([])
  {
  }
}

=== FILE: episode_rental.dfy ===
/**
 * The episode rental service: episodes live in a key-value store under
 * `episodio:{temporada}:{capitulo}`, a rent reserves an available episode for 240 seconds and
 * a confirmation rents a reserved one for 86400 seconds. Expiry deletes the key; time is a
 * logical clock `now`, in seconds.
 */
module EpisodeRental {
  import opened Wrappers
  import Sorting

  const Available: string := "disponible"
  const Reserved: string := "reservado"
  const Rented: string := "alquilado"

  const ReservationTtl: int := 240
  const RentalTtl: int := 86400

  /** One stored episode: its season, its number and its `estado`. */
  datatype Episode = Episode(temporada: int, episodio: int, estado: string)

  /** A stored value and the instant its key expires, if it has an expiry. */
  datatype Entry = Entry(episode: Episode, expiresAt: Option<int>)

  type Store = map<string, Entry>

  /** The key of an episode, from the request's `temporada` and `capitulo`. */
  function Key(temporada: string, capitulo: string): (k: string)
    ensures |k| == 10 + |temporada| + |capitulo|
    ensures k[..9] == "episodio:" && k[9 + |temporada|] == ':'
    ensures k[9..9 + |temporada|] == temporada && k[10 + |temporada|..] == capitulo
  {
    var k := "episodio:" + temporada + ":" + capitulo;
    assert k[9..9 + |temporada|] == temporada;
    assert k[10 + |temporada|..] == capitulo;
    k
  }

  /** Seasons without a `:` give every episode its own key. */
  lemma KeyInjective(t1: string, c1: string, t2: string, c2: string)
    requires ':' !in t1 && ':' !in t2
    requires Key(t1, c1) == Key(t2, c2)
    ensures t1 == t2 && c1 == c2
  {
  }

  /** An entry is live until its expiry instant. */
  predicate Live(e: Entry, now: int) {
    e.expiresAt.None? || now < e.expiresAt.value
  }

  /** `GET key` at `now`: the episode, or `None` when the key is missing or has expired. */
  function Get(store: Store, key: string, now: int): (r: Option<Episode>)
    ensures r.Some? <==> key in store && Live(store[key], now)
    ensures r.Some? ==> r.value == store[key].episode
  {
    if key in store && Live(store[key], now) then Some(store[key].episode) else None
  }

  /** `SETEX key ttl value`: the value replaces whatever was there and expires `ttl` seconds from now. */
  function SetEx(store: Store, key: string, ttl: int, ep: Episode, now: int): (r: Store)
    ensures key in r && r[key] == Entry(ep, Some(now + ttl))
    ensures forall k :: k != key ==> (k in r <==> k in store) && (k in store ==> r[k] == store[k])
  {
    store[key := Entry(ep, Some(now + ttl))]
  }

  /** A `GET` after `SETEX` reads the value until the TTL runs out; other keys read as before. */
  lemma GetAfterSetEx(store: Store, key: string, ttl: int, ep: Episode, now: int, later: int, k: string)
    ensures Get(SetEx(store, key, ttl, ep, now), key, later) == if later < now + ttl then Some(ep) else None
    ensures k != key ==> Get(SetEx(store, key, ttl, ep, now), k, later) == Get(store, k, later)
  {
  }

  /** The JSON answer of a request: a message, or a 400 with an error text. */
  datatype Reply = Ok(mensaje: string) | BadRequest(error: string)

  const NotFoundError: string := "Episodio no encontrado"
  const NotAvailableError: string := "Episodio no disponible"
  const NotReservedError: string := "Episodio no está reservado"

  datatype Result = Result(reply: Reply, after: Store)

  /**
   * POST `/alquilar`: an episode in state `disponible` becomes `reservado` for 240 seconds;
   * a missing or expired key, or any other state, is a 400 and nothing changes.
   */
  function Rent(store: Store, temporada: string, capitulo: string, now: int): (r: Result)
    ensures Get(store, Key(temporada, capitulo), now).None? ==> r == Result(BadRequest(NotFoundError), store)
    ensures Get(store, Key(temporada, capitulo), now).Some? && Get(store, Key(temporada, capitulo), now).value.estado != Available ==>
      r == Result(BadRequest(NotAvailableError), store)
    ensures r.reply.Ok? <==> Get(store, Key(temporada, capitulo), now).Some? && Get(store, Key(temporada, capitulo), now).value.estado == Available
    ensures r.reply.Ok? ==>
      r.after == SetEx(store, Key(temporada, capitulo), ReservationTtl,
                       Get(store, Key(temporada, capitulo), now).value.(estado := Reserved), now)
  {
    var key := Key(temporada, capitulo);
    match Get(store, key, now)
    case None => Result(BadRequest(NotFoundError), store)
    case Some(cap) =>
      if cap.estado != Available then Result(BadRequest(NotAvailableError), store)
      else Result(Ok("Capítulo reservado por 4 minutos"), SetEx(store, key, ReservationTtl, cap.(estado := Reserved), now))
  }

  /**
   * POST `/confirmar`: an episode in state `reservado` becomes `alquilado` for 86400 seconds;
   * a missing or expired key, or any other state, is a 400 and nothing changes.
   */
  function Confirm(store: Store, temporada: string, capitulo: string, now: int): (r: Result)
    ensures Get(store, Key(temporada, capitulo), now).None? ==> r == Result(BadRequest(NotFoundError), store)
    ensures Get(store, Key(temporada, capitulo), now).Some? && Get(store, Key(temporada, capitulo), now).value.estado != Reserved ==>
      r == Result(BadRequest(NotReservedError), store)
    ensures r.reply.Ok? <==> Get(store, Key(temporada, capitulo), now).Some? && Get(store, Key(temporada, capitulo), now).value.estado == Reserved
    ensures r.reply.Ok? ==>
      r.after == SetEx(store, Key(temporada, capitulo), RentalTtl,
                       Get(store, Key(temporada, capitulo), now).value.(estado := Rented), now)
  {
    var key := Key(temporada, capitulo);
    match Get(store, key, now)
    case None => Result(BadRequest(NotFoundError), store)
    case Some(cap) =>
      if cap.estado != Reserved then Result(BadRequest(NotReservedError), store)
      else Result(Ok("Pago confirmado, episodio alquilado por 24 hs"), SetEx(store, key, RentalTtl, cap.(estado := Rented), now))
  }

  /** A request of the service. */
  datatype Request = RentRequest(temporada: string, capitulo: string) | ConfirmRequest(temporada: string, capitulo: string)

  /**
   * The service's dispatch: only the request's own key can change, and an accepted request
   * leaves that key holding the new state under the TTL of its kind.
   */
  function Handle(store: Store, req: Request, now: int): (r: Result)
    ensures forall k :: k != Key(req.temporada, req.capitulo) ==>
      (k in r.after <==> k in store) && (k in store ==> r.after[k] == store[k])
    ensures !r.reply.Ok? ==> r.after == store
    ensures r.reply.Ok? ==> Key(req.temporada, req.capitulo) in r.after
    ensures r.reply.Ok? ==> r.after[Key(req.temporada, req.capitulo)].episode.estado == (if req.RentRequest? then Reserved else Rented)
    ensures r.reply.Ok? ==>
      r.after[Key(req.temporada, req.capitulo)].expiresAt == Some(now + if req.RentRequest? then ReservationTtl else RentalTtl)
  {
    match req
    case RentRequest(t, c) => Rent(store, t, c, now)
    case ConfirmRequest(t, c) => Confirm(store, t, c, now)
  }

  /**
   * No request ever writes `disponible`: an entry in that state after a request was there,
   * unchanged, before it.
   */
  lemma NothingBecomesAvailable(store: Store, req: Request, now: int, k: string)
    requires k in Handle(store, req, now).after && Handle(store, req, now).after[k].episode.estado == Available
    ensures k in store && Handle(store, req, now).after[k] == store[k]
  {
  }

  /** A request changes at most the entry of its own key. */
  lemma OnlyOwnKeyChanges(store: Store, req: Request, now: int, k: string)
    requires k != Key(req.temporada, req.capitulo)
    ensures k in Handle(store, req, now).after <==> k in store
    ensures k in store ==> Handle(store, req, now).after[k] == store[k]
  {
  }

  /**
   * A reservation that is not confirmed within 240 seconds is gone: later rents and
   * confirmations of that episode report it as not found.
   */
  lemma ReservationExpires(store: Store, temporada: string, capitulo: string, now: int, later: int)
    requires Rent(store, temporada, capitulo, now).reply.Ok?
    requires later >= now + ReservationTtl
    ensures var s := Rent(store, temporada, capitulo, now).after;
      && Rent(s, temporada, capitulo, later).reply == BadRequest(NotFoundError)
      && Confirm(s, temporada, capitulo, later).reply == BadRequest(NotFoundError)
  {
  }

  /** Renting then confirming within the reservation window rents the episode for a day. */
  lemma RentThenConfirm(store: Store, temporada: string, capitulo: string, now: int, later: int)
    requires Rent(store, temporada, capitulo, now).reply.Ok?
    requires now <= later < now + ReservationTtl
    ensures var s := Confirm(Rent(store, temporada, capitulo, now).after, temporada, capitulo, later).after;
      && s[Key(temporada, capitulo)].episode.estado == Rented
      && s[Key(temporada, capitulo)].expiresAt == Some(later + RentalTtl)
  {
  }

  /** A reserved episode cannot be rented a second time while the reservation holds. */
  lemma NoDoubleReservation(store: Store, temporada: string, capitulo: string, now: int, later: int)
    requires Rent(store, temporada, capitulo, now).reply.Ok?
    requires now <= later < now + ReservationTtl
    ensures Rent(Rent(store, temporada, capitulo, now).after, temporada, capitulo, later).reply == BadRequest(NotAvailableError)
  {
  }

  // ----- listing -----

  /** The episodes of the `KEYS episodio:*` reply that are still there when read, in reply order. */
  function Fetched(keys: seq<string>, store: Store, now: int): (eps: seq<Episode>)
    ensures |eps| <= |keys|
    ensures forall e :: e in eps ==> exists i :: 0 <= i < |keys| && Get(store, keys[i], now) == Some(e)
    ensures forall i :: 0 <= i < |keys| && Get(store, keys[i], now).Some? ==> Get(store, keys[i], now).value in eps
    ensures |eps| == |keys| <==> forall i :: 0 <= i < |keys| ==> Get(store, keys[i], now).Some?
  {
    if |keys| == 0 then []
    else
      var rest := Fetched(keys[1..], store, now);
      assert forall e :: e in rest ==> exists i :: 0 <= i < |keys| && Get(store, keys[i], now) == Some(e) by {
        forall e | e in rest ensures exists i :: 0 <= i < |keys| && Get(store, keys[i], now) == Some(e) {
          var i :| 0 <= i < |keys[1..]| && Get(store, keys[1..][i], now) == Some(e);
          assert keys[1..][i] == keys[i + 1];
        }
      }
      assert forall i :: 1 <= i < |keys| ==> keys[i] == keys[1..][i - 1];
      match Get(store, keys[0], now)
      case None => rest
      case Some(e) => [e] + rest
  }

  /** The episodes of season `t`, in fetch order. */
  function OfSeason(eps: seq<Episode>, t: int): (r: seq<Episode>)
    ensures forall e :: e in r <==> e in eps && e.temporada == t
    ensures |r| == 0 <==> forall i :: 0 <= i < |eps| ==> eps[i].temporada != t
  {
    if |eps| == 0 then []
    else
      var n := |eps| - 1;
      assert eps == eps[..n] + [eps[n]];
      OfSeason(eps[..n], t) + (if eps[n].temporada == t then [eps[n]] else [])
  }

  /**
   * `resultado[temporada].push(cap)` over the fetched episodes, in fetch order.
   */
  function Group(eps: seq<Episode>): (g: map<int, seq<Episode>>)
    ensures forall t :: t in g ==> |g[t]| > 0
  {
    if |eps| == 0 then map[]
    else
      var n := |eps| - 1;
      var prev := Group(eps[..n]);
      var e := eps[n];
      prev[e.temporada := (if e.temporada in prev then prev[e.temporada] else []) + [e]]
  }

  /** Only seasons that occur are present, and each maps to its episodes in fetch order. */
  lemma GroupIsBySeason(eps: seq<Episode>)
    ensures forall t :: t in Group(eps) <==> exists i :: 0 <= i < |eps| && eps[i].temporada == t
    ensures forall t :: t in Group(eps) ==> Group(eps)[t] == OfSeason(eps, t)
  {
    forall t
      ensures t in Group(eps) <==> exists i :: 0 <= i < |eps| && eps[i].temporada == t
      ensures t in Group(eps) ==> Group(eps)[t] == OfSeason(eps, t)
    {
      GroupAt(eps, t);
    }
  }

  lemma {:induction false} GroupAt(eps: seq<Episode>, t: int)
    ensures t in Group(eps) <==> |OfSeason(eps, t)| > 0
    ensures t in Group(eps) ==> Group(eps)[t] == OfSeason(eps, t)
  {
    if |eps| > 0 {
      GroupAt(eps[..|eps| - 1], t);
    }
  }

  /** The numeric order of the comparator `a.episodio - b.episodio`. */
  function EpisodeNumber(): Episode -> real {
    (e: Episode) => e.episodio as real
  }

  /** GET `/listar`: the fetched episodes grouped by season, each group sorted by episode number. */
  function List(keys: seq<string>, store: Store, now: int): (r: map<int, seq<Episode>>)
    ensures forall t :: t in r ==> Sorting.SortedBy(r[t], EpisodeNumber())
    ensures forall t :: t in r ==> multiset(r[t]) == multiset(OfSeason(Fetched(keys, store, now), t))
    ensures forall t :: t in r <==> exists i :: 0 <= i < |Fetched(keys, store, now)| && Fetched(keys, store, now)[i].temporada == t
  {
    var g := Group(Fetched(keys, store, now));
    GroupIsBySeason(Fetched(keys, store, now));
    map t | t in g :: Sorting.SortBy(g[t], EpisodeNumber())
  }

  /** Every episode of a group belongs to that group's season, and every fetched episode is listed. */
  lemma ListMembers(keys: seq<string>, store: Store, now: int, t: int, e: Episode)
    requires t in List(keys, store, now)
    ensures e in List(keys, store, now)[t] <==> e in Fetched(keys, store, now) && e.temporada == t
  {
    var eps := Fetched(keys, store, now);
    GroupAt(eps, t);
    Sorting.SortByMembers(OfSeason(eps, t), EpisodeNumber(), e);
  }
}

=== FILE: hero_model.dfy ===
/**
 * The superhero document of the heroes API and its schema: which fields are required,
 * the setters that trim the names and lower-case the publisher, the publisher list and
 * the rule that a hero has at least one image.
 */
module HeroModel {
  import opened Wrappers
  import JsText

  /** The publishers the schema's `enum` allows, after lower-casing. */
  const Publishers: seq<string> := ["marvel", "dc"]

  /** A stored hero. `equipment` is free text; `realName` is optional. */
  datatype Hero = Hero(
    id: string,
    name: string,
    realName: Option<string>,
    yearOfAppearance: real,
    publisher: string,
    biography: string,
    equipment: Option<string>,
    images: seq<string>)

  /** The fields of a request body; `None` is a field the body leaves out. */
  datatype HeroFields = HeroFields(
    name: Option<string>,
    realName: Option<string>,
    yearOfAppearance: Option<real>,
    publisher: Option<string>,
    biography: Option<string>,
    equipment: Option<string>,
    images: Option<seq<string>>)

  /** What every stored hero satisfies. */
  predicate Valid(h: Hero) {
    && h.name != "" && JsText.Trim(h.name) == h.name
    && (h.realName.Some? ==> JsText.Trim(h.realName.value) == h.realName.value)
    && h.publisher in Publishers
    && h.biography != ""
    && |h.images| > 0
  }

  /** The schema's validation messages. */
  datatype SchemaError = NameRequired | YearRequired | PublisherRequired | PublisherNotAllowed | BiographyRequired | ImagesRequired

  /** A text setter applied to a field, when the field is there. */
  function Set(v: Option<string>, setter: string -> string): (r: Option<string>)
    ensures r.Some? <==> v.Some?
    ensures r.Some? ==> r.value == setter(v.value)
  {
    if v.Some? then Some(setter(v.value)) else None
  }

  /** A trimmed field trims to itself. */
  lemma TrimmedSet(v: Option<string>)
    ensures Set(v, JsText.Trim).Some? ==> JsText.Trim(Set(v, JsText.Trim).value) == Set(v, JsText.Trim).value
  {
    if v.Some? {
      JsText.TrimIdempotent(v.value);
    }
  }

  /** `required` on a string: the field is there and not empty. */
  predicate Present(v: Option<string>) {
    v.Some? && v.value != ""
  }

  /** `images.filter((img) => img.trim() !== "")`, as the routes apply it. */
  function NonBlankImages(images: seq<string>): (kept: seq<string>)
    ensures |kept| <= |images|
    ensures forall x :: x in kept <==> x in images && !JsText.IsBlank(x)
  {
    if images == [] then []
    else (if JsText.IsBlank(images[0]) then [] else [images[0]]) + NonBlankImages(images[1..])
  }

  /** The filter keeps order: filtering a concatenation filters each part. */
  lemma {:induction false} NonBlankImagesAppend(a: seq<string>, b: seq<string>)
    ensures NonBlankImages(a + b) == NonBlankImages(a) + NonBlankImages(b)
  {
    if a == [] {
      assert a + b == b;
    } else {
      assert (a + b)[0] == a[0];
      assert (a + b)[1..] == a[1..] + b;
      NonBlankImagesAppend(a[1..], b);
    }
  }

  /** Filtering twice is filtering once. */
  lemma {:induction false} NonBlankImagesIdempotent(images: seq<string>)
    ensures NonBlankImages(NonBlankImages(images)) == NonBlankImages(images)
  {
    if images != [] {
      NonBlankImagesIdempotent(images[1..]);
      var head := if JsText.IsBlank(images[0]) then [] else [images[0]];
      NonBlankImagesAppend(head, NonBlankImages(images[1..]));
    }
  }

  /** The outcome of each of the schema's checks. */
  datatype Checks = Checks(nameMissing: bool, yearMissing: bool, publisherMissing: bool,
                           publisherOutside: bool, biographyMissing: bool, imagesMissing: bool)

  /** The messages of the failed checks. */
  function Raised(c: Checks): (errors: set<SchemaError>)
    ensures NameRequired in errors <==> c.nameMissing
    ensures YearRequired in errors <==> c.yearMissing
    ensures PublisherRequired in errors <==> c.publisherMissing
    ensures PublisherNotAllowed in errors <==> c.publisherOutside
    ensures BiographyRequired in errors <==> c.biographyMissing
    ensures ImagesRequired in errors <==> c.imagesMissing
  {
    (if c.nameMissing then {NameRequired} else {})
    + (if c.yearMissing then {YearRequired} else {})
    + (if c.publisherMissing then {PublisherRequired} else {})
    + (if c.publisherOutside then {PublisherNotAllowed} else {})
    + (if c.biographyMissing then {BiographyRequired} else {})
    + (if c.imagesMissing then {ImagesRequired} else {})
  }

  /**
   * The messages a new document draws, after the setters have run: a missing or empty
   * required field, a publisher outside the list, an empty image list. A path reports only
   * its first failing validator, and `required` runs first, so an empty publisher draws the
   * `required` message alone.
   */
  function CreateErrors(f: HeroFields): (errors: set<SchemaError>)
    ensures NameRequired in errors <==> f.name.None? || JsText.IsBlank(f.name.value)
    ensures YearRequired in errors <==> f.yearOfAppearance.None?
    ensures PublisherRequired in errors <==> f.publisher.None? || f.publisher.value == ""
    ensures PublisherNotAllowed in errors <==>
      f.publisher.Some? && f.publisher.value != "" && JsText.ToLower(f.publisher.value) !in Publishers
    ensures PublisherRequired in errors ==> PublisherNotAllowed !in errors
    ensures BiographyRequired in errors <==> !Present(f.biography)
    ensures ImagesRequired in errors <==> f.images.None? || f.images.value == []
  {
    var name := Set(f.name, JsText.Trim);
    var publisher := Set(f.publisher, JsText.ToLower);
    Raised(Checks(
      nameMissing := !Present(name),
      yearMissing := f.yearOfAppearance.None?,
      publisherMissing := !Present(publisher),
      publisherOutside := Present(publisher) && publisher.value !in Publishers,
      biographyMissing := !Present(f.biography),
      imagesMissing := !(f.images.Some? && |f.images.value| > 0)))
  }

  /** `new Hero(data).save()` without the store: the document saved, or the validation messages. */
  function NewHero(f: HeroFields, id: string): (r: Option<Hero>)
    ensures r.Some? <==> CreateErrors(f) == {}
    ensures r.Some? ==> Valid(r.value) && r.value.id == id
    ensures r.Some? ==> r.value.name == JsText.Trim(f.name.value) && r.value.publisher == JsText.ToLower(f.publisher.value)
    ensures r.Some? ==> r.value.images == f.images.value && r.value.biography == f.biography.value
    ensures r.Some? ==> r.value.yearOfAppearance == f.yearOfAppearance.value
    ensures r.Some? ==> r.value.realName == Set(f.realName, JsText.Trim) && r.value.equipment == f.equipment
  {
    if CreateErrors(f) != {} then None
    else
      TrimmedSet(f.name);
      TrimmedSet(f.realName);
      Some(Hero(id, JsText.Trim(f.name.value), Set(f.realName, JsText.Trim), f.yearOfAppearance.value,
                JsText.ToLower(f.publisher.value), f.biography.value, f.equipment, f.images.value))
  }

  /** Every field of a stored hero, as a body would send it back. */
  function FieldsOf(h: Hero): (f: HeroFields)
    ensures f.name == Some(h.name) && f.publisher == Some(h.publisher) && f.images == Some(h.images)
  {
    HeroFields(Some(h.name), h.realName, Some(h.yearOfAppearance), Some(h.publisher), Some(h.biography), h.equipment, Some(h.images))
  }

  lemma PublishersAreLower(p: string)
    requires p in Publishers
    ensures JsText.ToLower(p) == p
  {
    assert p == "marvel" || p == "dc";
  }

  /** Saving a stored hero's own fields under its id gives the same hero back. */
  lemma NewHeroOfFields(h: Hero)
    requires Valid(h)
    ensures NewHero(FieldsOf(h), h.id) == Some(h)
  {
    PublishersAreLower(h.publisher);
    assert !JsText.IsBlank(h.name);
  }

  /**
   * The messages of an update with validators on, after the setters: only the fields the
   * body carries are checked, and a required field fails only when it is set empty.
   */
  function UpdateErrors(f: HeroFields): (errors: set<SchemaError>)
    ensures NameRequired in errors <==> f.name.Some? && JsText.IsBlank(f.name.value)
    ensures YearRequired !in errors
    ensures PublisherRequired in errors <==> f.publisher.Some? && f.publisher.value == ""
    ensures PublisherNotAllowed in errors <==>
      f.publisher.Some? && f.publisher.value != "" && JsText.ToLower(f.publisher.value) !in Publishers
    ensures PublisherRequired in errors ==> PublisherNotAllowed !in errors
    ensures BiographyRequired in errors <==> f.biography.Some? && f.biography.value == ""
    ensures ImagesRequired in errors <==> f.images.Some? && f.images.value == []
  {
    var publisher := Set(f.publisher, JsText.ToLower);
    Raised(Checks(
      nameMissing := f.name.Some? && JsText.IsBlank(f.name.value),
      yearMissing := false,
      publisherMissing := publisher.Some? && publisher.value == "",
      publisherOutside := Present(publisher) && publisher.value !in Publishers,
      biographyMissing := f.biography.Some? && f.biography.value == "",
      imagesMissing := f.images.Some? && f.images.value == []))
  }

  /** A field replaced when the body carries it, otherwise kept. */
  function Replace<T>(v: Option<T>, current: T): (r: T)
    ensures v.Some? ==> r == v.value
    ensures v.None? ==> r == current
  {
    if v.Some? then v.value else current
  }

  /** The hero after an update that passed validation: the carried fields set, the rest kept. */
  function Patched(h: Hero, f: HeroFields): (r: Option<Hero>)
    ensures r.Some? <==> UpdateErrors(f) == {}
    ensures r.Some? && Valid(h) ==> Valid(r.value)
    ensures r.Some? ==> r.value.id == h.id
    ensures r.Some? ==> r.value.name == Replace(Set(f.name, JsText.Trim), h.name)
    ensures r.Some? ==> r.value.publisher == Replace(Set(f.publisher, JsText.ToLower), h.publisher)
    ensures r.Some? ==> r.value.images == Replace(f.images, h.images)
    ensures r.Some? ==> r.value.yearOfAppearance == Replace(f.yearOfAppearance, h.yearOfAppearance)
    ensures r.Some? ==> r.value.biography == Replace(f.biography, h.biography)
    ensures r.Some? && f.realName.Some? ==> r.value.realName == Set(f.realName, JsText.Trim)
    ensures r.Some? && f.realName.None? ==> r.value.realName == h.realName
    ensures r.Some? && f.equipment.Some? ==> r.value.equipment == f.equipment
    ensures r.Some? && f.equipment.None? ==> r.value.equipment == h.equipment
  {
    if UpdateErrors(f) != {} then None
    else
      TrimmedSet(f.name);
      TrimmedSet(f.realName);
      var realName := if f.realName.Some? then Set(f.realName, JsText.Trim) else h.realName;
      Some(h.(
        name := Replace(Set(f.name, JsText.Trim), h.name),
        realName := realName,
        yearOfAppearance := Replace(f.yearOfAppearance, h.yearOfAppearance),
        publisher := Replace(Set(f.publisher, JsText.ToLower), h.publisher),
        biography := Replace(f.biography, h.biography),
        equipment := if f.equipment.Some? then f.equipment else h.equipment,
        images := Replace(f.images, h.images)))
  }

  /** Updating a valid hero with its own fields changes nothing. */
  lemma PatchedWithOwnFields(h: Hero)
    requires Valid(h)
    ensures Patched(h, FieldsOf(h)) == Some(h)
  {
    PublishersAreLower(h.publisher);
    assert !JsText.IsBlank(h.name);
  }
}

=== FILE: hero_routes.dfy ===
/**
 * The heroes API: list, list by publisher, get, create, update and delete over the hero
 * collection. Each route answers with a status and a body; a thrown error becomes a 500
 * on the reading routes and on delete, and a 400 on create and update.
 */
module HeroRoutes {
  import opened Wrappers
  import JsText
  import opened HeroModel

  datatype Body = Heroes(heroes: seq<Hero>) | One(hero: Hero) | Message(message: string)

  datatype Reply = Reply(status: int, body: Body)

  /** A route's reply and the collection after it. */
  datatype Outcome = Outcome(reply: Reply, after: seq<Hero>)

  /**
   * The collection's connection: when `up` is false every query throws; `castId` says
   * whether an id string casts to an ObjectId, and a query by an id that does not throws.
   */
  datatype Db = Db(up: bool, castId: string -> bool)

  const NotFoundMessage: string := "Superhéroe no encontrado"
  const ListFailed: string := "Error al obtener superhéroes"
  const GetFailed: string := "Error al obtener superhéroe"
  const CreateFailed: string := "Error al crear superhéroe"
  const UpdateFailed: string := "Error al actualizar superhéroe"
  const DeleteFailed: string := "Error al eliminar superhéroe"
  const DeletedMessage: string := "Superhéroe eliminado correctamente"

  function PublisherFailed(publisher: string): string {
    "Error al obtener superhéroes de " + publisher
  }

  /** Every hero valid, and no two with the same id. */
  predicate StoreValid(store: seq<Hero>) {
    && (forall i :: 0 <= i < |store| ==> Valid(store[i]))
    && (forall i, j :: 0 <= i < j < |store| ==> store[i].id != store[j].id)
  }

  predicate HasId(store: seq<Hero>, id: string) {
    exists i :: 0 <= i < |store| && store[i].id == id
  }

  /** `findById`: the first hero with the id. */
  function Find(store: seq<Hero>, id: string): (r: Option<nat>)
    ensures r.None? <==> !HasId(store, id)
    ensures r.Some? ==> r.value < |store| && store[r.value].id == id
    ensures r.Some? ==> forall j :: 0 <= j < r.value ==> store[j].id != id
  {
    if store == [] then None
    else if store[0].id == id then Some(0)
    else
      var rest := Find(store[1..], id);
      assert HasId(store, id) ==> HasId(store[1..], id) by {
        if HasId(store, id) {
          var i :| 0 <= i < |store| && store[i].id == id;
          assert store[1..][i - 1].id == id;
        }
      }
      if rest.None? then None
      else
        assert store[1..][rest.value] == store[rest.value + 1];
        Some(rest.value + 1)
  }

  /** The heroes of one publisher, in collection order. */
  function OfPublisher(store: seq<Hero>, publisher: string): (r: seq<Hero>)
    ensures forall h :: h in r <==> h in store && h.publisher == publisher
    ensures |r| <= |store|
  {
    if store == [] then []
    else (if store[0].publisher == publisher then [store[0]] else []) + OfPublisher(store[1..], publisher)
  }

  /** `GET /`: every hero. */
  function ListAll(store: seq<Hero>, db: Db): (r: Outcome)
    ensures r.after == store
    ensures db.up ==> r.reply == Reply(200, Heroes(store))
    ensures !db.up ==> r.reply == Reply(500, Message(ListFailed))
  {
    if db.up then Outcome(Reply(200, Heroes(store)), store) else Outcome(Reply(500, Message(ListFailed)), store)
  }

  /** `GET /publisher/:publisher`: the heroes of the lower-cased publisher. */
  function ByPublisher(store: seq<Hero>, publisher: string, db: Db): (r: Outcome)
    ensures r.after == store
    ensures db.up ==> r.reply.status == 200 && r.reply.body.Heroes?
    ensures db.up ==> forall h :: h in r.reply.body.heroes <==> h in store && h.publisher == JsText.ToLower(publisher)
    ensures !db.up ==> r.reply == Reply(500, Message(PublisherFailed(publisher)))
  {
    if db.up then Outcome(Reply(200, Heroes(OfPublisher(store, JsText.ToLower(publisher)))), store)
    else Outcome(Reply(500, Message(PublisherFailed(publisher))), store)
  }

  /** The publisher in the path is matched whatever its case. */
  lemma ByPublisherIgnoresCase(store: seq<Hero>, publisher: string, db: Db)
    requires db.up
    ensures ByPublisher(store, publisher, db) == ByPublisher(store, JsText.ToLower(publisher), db)
  {
    JsText.ToLowerIdempotent(publisher);
  }

  /** `GET /:id`. */
  function Get(store: seq<Hero>, id: string, db: Db): (r: Outcome)
    ensures r.after == store
    ensures !db.up || !db.castId(id) ==> r.reply == Reply(500, Message(GetFailed))
    ensures db.up && db.castId(id) && !HasId(store, id) ==> r.reply == Reply(404, Message(NotFoundMessage))
    ensures r.reply.status == 200 <==> db.up && db.castId(id) && HasId(store, id)
    ensures r.reply.status == 200 ==> r.reply.body.One? && r.reply.body.hero in store && r.reply.body.hero.id == id
  {
    if !db.up || !db.castId(id) then Outcome(Reply(500, Message(GetFailed)), store)
    else match Find(store, id)
      case None => Outcome(Reply(404, Message(NotFoundMessage)), store)
      case Some(i) => Outcome(Reply(200, One(store[i])), store)
  }

  /** The body's fields with its images filtered, or `None` when `images` is missing and `filter` throws. */
  function Filtered(body: HeroFields): (r: Option<HeroFields>)
    ensures r.Some? <==> body.images.Some?
    ensures r.Some? ==> r.value == body.(images := Some(NonBlankImages(body.images.value)))
  {
    if body.images.None? then None else Some(body.(images := Some(NonBlankImages(body.images.value))))
  }

  /** `POST /`: the hero is saved under the id the store gives it, with its blank images dropped. */
  function Create(store: seq<Hero>, body: HeroFields, newId: string, db: Db): (r: Outcome)
    ensures r.reply.status == 201 || r.reply == Reply(400, Message(CreateFailed))
    ensures r.reply.status == 201 <==>
      body.images.Some? && db.up && CreateErrors(body.(images := Some(NonBlankImages(body.images.value)))) == {}
    ensures r.reply.status == 201 ==> r.reply.body.One? && r.after == store + [r.reply.body.hero]
    ensures r.reply.status == 201 ==> Valid(r.reply.body.hero) && r.reply.body.hero.id == newId
    ensures r.reply.status == 201 ==> r.reply.body.hero.images == NonBlankImages(body.images.value)
    ensures r.reply.status == 201 ==>
      Filtered(body).Some? && NewHero(Filtered(body).value, newId) == Some(r.reply.body.hero)
    ensures r.reply.status != 201 ==> r.after == store
  {
    match Filtered(body)
    case None => Outcome(Reply(400, Message(CreateFailed)), store)
    case Some(fields) =>
      match NewHero(fields, newId)
      case None => Outcome(Reply(400, Message(CreateFailed)), store)
      case Some(h) =>
        if db.up then Outcome(Reply(201, One(h)), store + [h])
        else Outcome(Reply(400, Message(CreateFailed)), store)
  }

  /** A create whose images are all blank is refused: the schema needs one image. */
  lemma CreateAllBlankImagesRefused(store: seq<Hero>, body: HeroFields, newId: string, db: Db)
    requires body.images.Some? && forall x :: x in body.images.value ==> JsText.IsBlank(x)
    ensures Create(store, body, newId, db).reply.status == 400
  {
    var kept := NonBlankImages(body.images.value);
    if kept != [] {
      assert kept[0] in kept;
    }
  }

  /** `PUT /:id`: the update is validated, then applied to the hero with the id. */
  function Update(store: seq<Hero>, id: string, body: HeroFields, db: Db): (r: Outcome)
    ensures r.reply.status in {200, 400, 404}
    ensures r.reply.status == 400 ==> r.reply == Reply(400, Message(UpdateFailed))
    ensures r.reply.status == 400 <==>
      (|| body.images.None? || !db.up || !db.castId(id)
       || UpdateErrors(body.(images := Some(NonBlankImages(body.images.value)))) != {})
    ensures r.reply.status == 404 ==> !HasId(store, id) && r.reply == Reply(404, Message(NotFoundMessage))
    ensures r.reply.status == 200 ==> HasId(store, id) && r.reply.body.One? && r.reply.body.hero.id == id
    ensures r.reply.status == 200 ==> r.reply.body.hero.images == NonBlankImages(body.images.value)
    ensures r.reply.status == 200 ==> exists i :: 0 <= i < |store| && store[i].id == id && r.after == store[i := r.reply.body.hero]
    ensures r.reply.status == 200 ==>
      && Find(store, id).Some? && Filtered(body).Some?
      && Patched(store[Find(store, id).value], Filtered(body).value) == Some(r.reply.body.hero)
    ensures r.reply.status != 200 ==> r.after == store
  {
    match Filtered(body)
    case None => Outcome(Reply(400, Message(UpdateFailed)), store)
    case Some(fields) =>
      if !db.up || !db.castId(id) || UpdateErrors(fields) != {} then Outcome(Reply(400, Message(UpdateFailed)), store)
      else match Find(store, id)
        case None => Outcome(Reply(404, Message(NotFoundMessage)), store)
        case Some(i) =>
          var h := Patched(store[i], fields).value;
          Outcome(Reply(200, One(h)), store[i := h])
  }

  /** `DELETE /:id`. */
  function Delete(store: seq<Hero>, id: string, db: Db): (r: Outcome)
    ensures r.reply.status in {200, 404, 500}
    ensures r.reply.status == 500 <==> !db.up || !db.castId(id)
    ensures r.reply.status == 500 ==> r.reply == Reply(500, Message(DeleteFailed))
    ensures r.reply.status == 404 <==> db.up && db.castId(id) && !HasId(store, id)
    ensures r.reply.status == 404 ==> r.reply == Reply(404, Message(NotFoundMessage))
    ensures r.reply.status == 200 ==> r.reply == Reply(200, Message(DeletedMessage))
    ensures r.reply.status == 200 ==> exists i :: 0 <= i < |store| && store[i].id == id && r.after == store[..i] + store[i + 1..]
    ensures r.reply.status != 200 ==> r.after == store
  {
    if !db.up || !db.castId(id) then Outcome(Reply(500, Message(DeleteFailed)), store)
    else match Find(store, id)
      case None => Outcome(Reply(404, Message(NotFoundMessage)), store)
      case Some(i) => Outcome(Reply(200, Message(DeletedMessage)), store[..i] + store[i + 1..])
  }

  /** A create under a fresh id keeps the collection valid. */
  lemma CreateKeepsStoreValid(store: seq<Hero>, body: HeroFields, newId: string, db: Db)
    requires StoreValid(store) && !HasId(store, newId)
    ensures StoreValid(Create(store, body, newId, db).after)
  {
    var r := Create(store, body, newId, db);
    if r.reply.status == 201 {
      var after := r.after;
      assert after[|store|].id == newId;
      forall i, j | 0 <= i < j < |after| ensures after[i].id != after[j].id {
        if j == |store| {
          assert after[i] == store[i];
        } else {
          assert after[i] == store[i] && after[j] == store[j];
        }
      }
    }
  }

  /** After a create, the listing shows every hero it showed before, then the new one. */
  lemma CreateThenListed(store: seq<Hero>, body: HeroFields, newId: string, db: Db)
    requires Create(store, body, newId, db).reply.status == 201
    ensures ListAll(Create(store, body, newId, db).after, db).reply.body.heroes
      == store + [Create(store, body, newId, db).reply.body.hero]
  {
  }

  /** The created hero is found by its id afterwards. */
  lemma CreateThenGet(store: seq<Hero>, body: HeroFields, newId: string, db: Db)
    requires StoreValid(store) && !HasId(store, newId)
    requires Create(store, body, newId, db).reply.status == 201 && db.castId(newId)
    ensures Get(Create(store, body, newId, db).after, newId, db).reply
      == Reply(200, Create(store, body, newId, db).reply.body)
  {
    var after := Create(store, body, newId, db).after;
    assert after[|store|].id == newId;
    var k := Find(after, newId);
    assert k.Some?;
  }

  /** An update keeps the collection valid: the id is kept and the patched hero passes the schema. */
  lemma UpdateKeepsStoreValid(store: seq<Hero>, id: string, body: HeroFields, db: Db)
    requires StoreValid(store)
    ensures StoreValid(Update(store, id, body, db).after)
  {
  }

  /** Removing one hero keeps the collection valid and leaves no other hero with its id. */
  lemma RemoveKeepsValid(store: seq<Hero>, i: nat)
    requires StoreValid(store) && i < |store|
    ensures StoreValid(store[..i] + store[i + 1..])
    ensures !HasId(store[..i] + store[i + 1..], store[i].id)
  {
    var rest := store[..i] + store[i + 1..];
    assert forall j :: 0 <= j < |rest| ==> rest[j] == store[if j < i then j else j + 1];
  }

  /** A delete keeps the collection valid, and the deleted id is gone from it. */
  lemma DeleteRemovesId(store: seq<Hero>, id: string, db: Db)
    requires StoreValid(store)
    ensures StoreValid(Delete(store, id, db).after)
    ensures Delete(store, id, db).reply.status == 200 ==> !HasId(Delete(store, id, db).after, id)
  {
    if db.up && db.castId(id) && HasId(store, id) {
      RemoveKeepsValid(store, Find(store, id).value);
    }
  }
}

=== FILE: http.dfy ===
/** The answers the routes give: a value, or a failure with its HTTP status. */
module Http {

  datatype Failure =
    | MissingFields        // 400: ident, name, latitude_deg or longitude_deg missing
    | LatitudeOutOfRange   // 400
    | LongitudeOutOfRange  // 400
    | DuplicateIdent       // 400
    | DuplicateIata        // 400
    | NotFound             // 404
    | ServerError          // 500: the document store refused the write or the query

  function Status(f: Failure): (code: int)
    ensures 400 <= code < 600
  {
    match f
    case NotFound => 404
    case ServerError => 500
    case _ => 400
  }

  datatype Response<T> = Ok(value: T) | Err(failure: Failure)
}

=== FILE: import_common.dfy ===
/**
 * What the two importers share: reading text fields of a raw item, the `UNKN0001` style
 * fallback identifier, and loading converted airports into the stores batch by batch.
 */
module ImportCommon {
  import opened Wrappers
  import JsText
  import opened JsValue
  import opened AirportModel
  import opened Indexes
  import Seqs
  import opened AirportRoutes

  /**
   * The text a value is stored as in a `String` field: a string is itself; any other value
   * goes through the store's cast `cast` (`String(v)` for numbers and booleans).
   */
  function Text(v: Json, cast: Json -> string): (t: string)
    ensures v.Str? ==> t == v.s
  {
    if v.Str? then v.s else cast(v)
  }

  /** `a || b || ... || fallback` of the named fields, stored as text. */
  function TextOr(item: Json, names: seq<string>, fallback: string, cast: Json -> string): (t: string)
    ensures Truthy(FirstTruthy(Fields(item, names), None)) ==> t == Text(FirstTruthy(Fields(item, names), None).value, cast)
    ensures !Truthy(FirstTruthy(Fields(item, names), None)) ==> t == fallback
  {
    var v := FirstTruthy(Fields(item, names), None);
    if Truthy(v) then Text(v.value, cast) else fallback
  }

  /** `a || b || ... || null` of the named fields, stored as text or left empty. */
  function TextOrNull(item: Json, names: seq<string>, cast: Json -> string): (t: Option<string>)
    ensures Truthy(FirstTruthy(Fields(item, names), None)) ==> t == Some(Text(FirstTruthy(Fields(item, names), None).value, cast))
    ensures !Truthy(FirstTruthy(Fields(item, names), None)) ==> t.None?
  {
    var v := FirstTruthy(Fields(item, names), None);
    if Truthy(v) then Some(Text(v.value, cast)) else None
  }

  /** The two chains pick the same field: the fallback stands in exactly where the other gives `null`. */
  lemma TextOrAgreesWithNull(item: Json, names: seq<string>, fallback: string, cast: Json -> string)
    ensures TextOrNull(item, names, cast).Some? ==> TextOr(item, names, fallback, cast) == TextOrNull(item, names, cast).value
    ensures TextOrNull(item, names, cast).None? ==> TextOr(item, names, fallback, cast) == fallback
  {
  }

  /** `v && v.length === 3 ? v : null`: a code value is kept only when its `.length` is exactly 3. */
  function ThreeLetterCode(v: Option<Json>, cast: Json -> string): (code: Option<string>)
    ensures code.Some? <==> Truthy(v) && Length(v.value) == Some(3)
    ensures code.Some? ==> code.value == Text(v.value, cast)
    ensures code.Some? && v.value.Str? ==> |code.value| == 3
  {
    if Truthy(v) && Length(v.value) == Some(3) then Some(Text(v.value, cast)) else None
  }

  /** `"UNKN" + String(index + 1).padStart(4, "0")`. */
  function UnknownIdent(index: nat): (s: string)
    ensures |s| >= 8 && s[..4] == "UNKN"
    ensures JsText.ParseInt(s[4..]) == Some(index + 1)
  {
    var digits := JsText.NatToString(index + 1);
    var padded := JsText.PadStart(digits, 4, '0');
    PaddedParse(digits, padded);
    JsText.DigitsValueOfNatToString(index + 1);
    var s := "UNKN" + padded;
    assert s[4..] == padded;
    s
  }

  /** Zeros in front of a printed number do not change what `parseInt` reads. */
  lemma PaddedParse(digits: string, padded: string)
    requires |digits| > 0 && JsText.AllDigits(digits)
    requires padded == JsText.PadStart(digits, 4, '0')
    ensures JsText.ParseInt(padded) == Some(JsText.DigitsValue(digits, 10))
  {
    var k := |padded| - |digits|;
    assert JsText.AllDigits(padded) by {
      forall i | 0 <= i < |padded| ensures JsText.IsDigit(padded[i]) {
        if i >= k {
          assert padded[i] == padded[k..][i - k];
        }
      }
    }
    JsText.ParseIntOfDigits(padded);
    LeadingZeros(padded, k);
  }

  /** Leading zeros add nothing to a decimal value. */
  lemma {:induction false} LeadingZeros(s: string, k: nat)
    requires k <= |s| && JsText.AllDigits(s)
    requires forall i :: 0 <= i < k ==> s[i] == '0'
    ensures JsText.DigitsValue(s, 10) == JsText.DigitsValue(s[k..], 10)
    decreases |s|
  {
    if |s| == k {
      AllZeros(s);
      assert s[k..] == [];
    } else {
      var init := s[..|s| - 1];
      LeadingZeros(init, k);
      assert init[k..] == s[k..][..|s[k..]| - 1];
    }
  }

  lemma {:induction false} AllZeros(s: string)
    requires forall i :: 0 <= i < |s| ==> s[i] == '0'
    ensures JsText.DigitsValue(s, 10) == 0
    decreases |s|
  {
    if |s| > 0 {
      AllZeros(s[..|s| - 1]);
    }
  }

  // ----- conversion -----

  /** A converter numbers the document of the item at position `i` as `i + 1`. */
  ghost predicate NumbersByPosition(convert: (Json, nat) -> Option<Airport>) {
    forall item, i: nat :: convert(item, i).Some? ==> convert(item, i).value.id == i + 1
  }

  /**
   * `items.forEach((item, index) => ...)` pushing each converted document: the documents
   * the first `n` items convert to, in item order; a `None` item is skipped.
   */
  function Converted(items: seq<Json>, n: nat, convert: (Json, nat) -> Option<Airport>): (r: seq<Airport>)
    requires n <= |items|
    ensures |r| <= n
  {
    if n == 0 then []
    else
      var prev := Converted(items, n - 1, convert);
      match convert(items[n - 1], n - 1)
      case None => prev
      case Some(a) => prev + [a]
  }

  /**
   * The documents carry ids `1..n` in strictly increasing order, and each one is what the
   * item at position `id - 1` converts to.
   */
  lemma {:induction false} ConvertedIds(items: seq<Json>, n: nat, convert: (Json, nat) -> Option<Airport>)
    requires n <= |items| && NumbersByPosition(convert)
    ensures forall k :: 0 <= k < |Converted(items, n, convert)| ==>
      && 1 <= Converted(items, n, convert)[k].id <= n
      && convert(items[Converted(items, n, convert)[k].id - 1], Converted(items, n, convert)[k].id - 1) == Some(Converted(items, n, convert)[k])
    ensures forall j, k :: 0 <= j < k < |Converted(items, n, convert)| ==> Converted(items, n, convert)[j].id < Converted(items, n, convert)[k].id
  {
    if n > 0 {
      ConvertedIds(items, n - 1, convert);
      var prev := Converted(items, n - 1, convert);
      var r := Converted(items, n, convert);
      match convert(items[n - 1], n - 1) {
        case None =>
          assert r == prev;
        case Some(a) =>
          assert r == prev + [a];
          assert a.id == n;
          assert forall k :: 0 <= k < |prev| ==> r[k] == prev[k];
          assert r[|prev|] == a;
      }
    }
  }

  /** Every item that converts is among the documents. */
  lemma {:induction false} ConvertedComplete(items: seq<Json>, n: nat, convert: (Json, nat) -> Option<Airport>, i: nat)
    requires i < n <= |items| && convert(items[i], i).Some?
    ensures convert(items[i], i).value in Converted(items, n, convert)
  {
    if i < n - 1 {
      ConvertedComplete(items, n - 1, convert, i);
    }
  }

  /** The conversion loop: counts the items that convert and those that are skipped. */
  method ConvertEach(items: seq<Json>, convert: (Json, nat) -> Option<Airport>)
    returns (airports: seq<Airport>, valid: nat, invalid: nat)
    ensures airports == Converted(items, |items|, convert)
    ensures valid == |airports| && valid + invalid == |items|
  {
    airports, valid, invalid := [], 0, 0;
    var index := 0;
    while index < |items|
      invariant index <= |items|
      invariant airports == Converted(items, index, convert)
      invariant valid == |airports| && valid + invalid == index
    {
      match convert(items[index], index) {
        case None =>
          invalid := invalid + 1;
        case Some(a) =>
          airports := airports + [a];
          valid := valid + 1;
      }
      index := index + 1;
    }
  }

  // ----- batch loading -----

  /** `for (i = 0; i < n; i += size) batch = items.slice(i, i + size)`. */
  function Chunks(xs: seq<Airport>, size: nat): (cs: seq<seq<Airport>>)
    requires size > 0
    ensures Concat(cs) == xs
    ensures forall i :: 0 <= i < |cs| ==> 0 < |cs[i]| <= size
    ensures forall i :: 0 <= i < |cs| - 1 ==> |cs[i]| == size
    decreases |xs|
  {
    if |xs| == 0 then []
    else if |xs| <= size then [xs]
    else
      var rest := Chunks(xs[size..], size);
      assert xs == xs[..size] + xs[size..];
      assert ([xs[..size]] + rest)[1..] == rest;
      [xs[..size]] + rest
  }

  function Concat(cs: seq<seq<Airport>>): seq<Airport> {
    if |cs| == 0 then [] else cs[0] + Concat(cs[1..])
  }

  /** A member of a chunk is a member of the chunked sequence. */
  lemma {:induction false} ChunkMemberIn(cs: seq<seq<Airport>>, b: nat, i: nat)
    requires b < |cs| && i < |cs[b]|
    ensures cs[b][i] in Concat(cs)
    decreases |cs|
  {
    if b == 0 {
      assert Concat(cs) == cs[0] + Concat(cs[1..]);
    } else {
      ChunkMemberIn(cs[1..], b - 1, i);
    }
  }

  /** A member of the chunked sequence is in one of the chunks. */
  lemma {:induction false} ChunkOf(cs: seq<seq<Airport>>, x: Airport)
    requires x in Concat(cs)
    ensures exists b, i :: 0 <= b < |cs| && 0 <= i < |cs[b]| && cs[b][i] == x
    decreases |cs|
  {
    assert Concat(cs) == cs[0] + Concat(cs[1..]);
    if x in cs[0] {
      var i :| 0 <= i < |cs[0]| && cs[0][i] == x;
      assert cs[0][i] == x;
    } else {
      ChunkOf(cs[1..], x);
      var b, i :| 0 <= b < |cs[1..]| && 0 <= i < |cs[1..][b]| && cs[1..][b][i] == x;
      assert cs[b + 1][i] == x;
    }
  }

  /** What became of one batch: `insertMany` stored it, and the batch's `GEOADD` worked. */
  datatype BatchOutcome = BatchOutcome(inserted: bool, geoAdded: bool)

  /** Some member of `ms` has the geo key `key`. */
  predicate HasKey(ms: seq<Airport>, key: string) {
    exists i :: 0 <= i < |ms| && IndexKey(ms[i]) == key
  }

  /** No member after position `i` has the key of member `i`. */
  predicate LastWithKey(ms: seq<Airport>, i: nat)
    requires i < |ms|
  {
    forall j :: i < j < |ms| ==> IndexKey(ms[j]) != IndexKey(ms[i])
  }

  /** The position a member is stored at (`lng lat` of `GEOADD`). */
  function Position(a: Airport): Coord {
    Coord(a.longitude, a.latitude)
  }

  /** `GEOADD` of several members at once: applied in order, so a repeated key keeps its last position. */
  ghost predicate AddedAll(g: GeoIndex, ms: seq<Airport>, r: GeoIndex) {
    && (forall k :: k in r <==> k in g || HasKey(ms, k))
    && (forall k :: k in g && !HasKey(ms, k) ==> r[k] == g[k])
    && (forall i :: 0 <= i < |ms| && LastWithKey(ms, i) ==> IndexKey(ms[i]) in r && r[IndexKey(ms[i])] == Position(ms[i]))
  }

  function AddAll(g: GeoIndex, ms: seq<Airport>): (r: GeoIndex)
    ensures AddedAll(g, ms, r)
    decreases |ms|
  {
    if |ms| == 0 then g
    else
      var prev := AddAll(g, ms[..|ms| - 1]);
      AddAllStep(g, ms, prev);
      prev[IndexKey(ms[|ms| - 1]) := Position(ms[|ms| - 1])]
  }

  /** The keys of `ms` are those of all but its last member, and the last member's key. */
  lemma HasKeyStep(ms: seq<Airport>, k: string)
    requires |ms| > 0
    ensures HasKey(ms, k) <==> HasKey(ms[..|ms| - 1], k) || k == IndexKey(ms[|ms| - 1])
  {
    var init := ms[..|ms| - 1];
    if HasKey(ms, k) {
      var i :| 0 <= i < |ms| && IndexKey(ms[i]) == k;
      if i < |init| { assert init[i] == ms[i]; }
    }
    if HasKey(init, k) {
      var i :| 0 <= i < |init| && IndexKey(init[i]) == k;
      assert ms[i] == init[i];
    }
  }

  /** A member that is last with its key, other than the last member, is last with it among the others too. */
  lemma LastWithKeyStep(ms: seq<Airport>, i: nat)
    requires i < |ms| - 1 && LastWithKey(ms, i)
    ensures IndexKey(ms[i]) != IndexKey(ms[|ms| - 1]) && LastWithKey(ms[..|ms| - 1], i)
  {
    var init := ms[..|ms| - 1];
    forall j | i < j < |init| ensures IndexKey(init[j]) != IndexKey(init[i]) {
      assert init[j] == ms[j];
    }
  }

  /** Adding the last member on top of the others. */
  lemma AddAllStep(g: GeoIndex, ms: seq<Airport>, prev: GeoIndex)
    requires |ms| > 0 && AddedAll(g, ms[..|ms| - 1], prev)
    ensures AddedAll(g, ms, prev[IndexKey(ms[|ms| - 1]) := Position(ms[|ms| - 1])])
  {
    var n := |ms| - 1;
    var init := ms[..n];
    var key := IndexKey(ms[n]);
    var r := prev[key := Position(ms[n])];
    forall k ensures k in r <==> k in g || HasKey(ms, k) {
      HasKeyStep(ms, k);
    }
    forall k | k in g && !HasKey(ms, k) ensures r[k] == g[k] {
      HasKeyStep(ms, k);
    }
    forall i | 0 <= i < |ms| && LastWithKey(ms, i)
      ensures IndexKey(ms[i]) in r && r[IndexKey(ms[i])] == Position(ms[i])
    {
      if i < n {
        LastWithKeyStep(ms, i);
        assert init[i] == ms[i];
      }
    }
    assert AddedAll(g, ms, r);
  }

  /** The members of one batch's `GEOADD`, and whether the command is sent at all. */
  function GeoMembers(batch: seq<Airport>, eligible: Airport -> bool): seq<Airport> {
    Seqs.Filter(batch, eligible)
  }

  /**
   * Loads the batches from `start` on: a stored batch is appended to the documents, and, if
   * its `GEOADD` worked, its eligible airports are added to the geo index. A batch that fails
   * to insert is skipped entirely, including its geo entries.
   */
  function Load(s: Stores, cs: seq<seq<Airport>>, outcome: nat -> BatchOutcome, eligible: Airport -> bool, start: nat)
    : (r: Stores)
    ensures r.pop == s.pop
    decreases |cs|
  {
    if |cs| == 0 then s
    else
      var o := outcome(start);
      var next :=
        if !o.inserted then s
        else Stores(s.docs + cs[0],
                    if o.geoAdded then AddAll(s.geo, GeoMembers(cs[0], eligible)) else s.geo, s.pop);
      Load(next, cs[1..], outcome, eligible, start + 1)
  }

  /** The documents of the batches that were stored, in order. */
  function Stored(cs: seq<seq<Airport>>, outcome: nat -> BatchOutcome, start: nat): seq<Airport>
    decreases |cs|
  {
    if |cs| == 0 then []
    else (if outcome(start).inserted then cs[0] else []) + Stored(cs[1..], outcome, start + 1)
  }

  /** When every batch is stored, the stored documents are all of them. */
  lemma {:induction false} StoredAll(cs: seq<seq<Airport>>, outcome: nat -> BatchOutcome, start: nat)
    requires forall b :: outcome(b).inserted
    ensures Stored(cs, outcome, start) == Concat(cs)
    decreases |cs|
  {
    if |cs| > 0 {
      StoredAll(cs[1..], outcome, start + 1);
    }
  }

  /** A member of a stored batch is among the stored documents. */
  lemma {:induction false} StoredMember(cs: seq<seq<Airport>>, outcome: nat -> BatchOutcome, start: nat, b: nat, i: nat)
    requires b < |cs| && i < |cs[b]| && outcome(start + b).inserted
    ensures cs[b][i] in Stored(cs, outcome, start)
    decreases |cs|
  {
    if b == 0 {
      assert cs[0][i] in cs[0];
    } else {
      StoredMember(cs[1..], outcome, start + 1, b - 1, i);
      assert start + 1 + (b - 1) == start + b;
    }
  }

  /** A geo key the import adds: an eligible airport's key, from a stored batch whose `GEOADD` worked. */
  ghost predicate Indexed(cs: seq<seq<Airport>>, outcome: nat -> BatchOutcome, eligible: Airport -> bool,
                          start: nat, key: string) {
    exists b, i :: 0 <= b < |cs| && 0 <= i < |cs[b]| &&
      outcome(start + b).inserted && outcome(start + b).geoAdded && eligible(cs[b][i]) && IndexKey(cs[b][i]) == key
  }

  /** Loading appends exactly the stored batches. */
  lemma {:induction false} LoadDocs(s: Stores, cs: seq<seq<Airport>>, outcome: nat -> BatchOutcome,
                                    eligible: Airport -> bool, start: nat)
    ensures Load(s, cs, outcome, eligible, start).docs == s.docs + Stored(cs, outcome, start)
    decreases |cs|
  {
    if |cs| > 0 {
      var o := outcome(start);
      var next :=
        if !o.inserted then s
        else Stores(s.docs + cs[0],
                    if o.geoAdded then AddAll(s.geo, GeoMembers(cs[0], eligible)) else s.geo, s.pop);
      LoadDocs(next, cs[1..], outcome, eligible, start + 1);
      if o.inserted {
        assert s.docs + cs[0] + Stored(cs[1..], outcome, start + 1) == s.docs + (cs[0] + Stored(cs[1..], outcome, start + 1));
      }
    }
  }

  /** The keys one batch adds: its eligible airports', when it was stored and its `GEOADD` worked. */
  ghost predicate BatchIndexes(batch: seq<Airport>, o: BatchOutcome, eligible: Airport -> bool, key: string) {
    o.inserted && o.geoAdded && exists i :: 0 <= i < |batch| && eligible(batch[i]) && IndexKey(batch[i]) == key
  }

  lemma FirstBatchKeys(s: Stores, batch: seq<Airport>, o: BatchOutcome, eligible: Airport -> bool, key: string)
    ensures var g := if o.inserted && o.geoAdded then AddAll(s.geo, GeoMembers(batch, eligible)) else s.geo;
      key in g <==> key in s.geo || BatchIndexes(batch, o, eligible, key)
  {
    if o.inserted && o.geoAdded {
      var members := GeoMembers(batch, eligible);
      if HasKey(members, key) {
        var i :| 0 <= i < |members| && IndexKey(members[i]) == key;
        assert members[i] in batch;
        var j :| 0 <= j < |batch| && batch[j] == members[i];
      }
      if exists i :: 0 <= i < |batch| && eligible(batch[i]) && IndexKey(batch[i]) == key {
        var i :| 0 <= i < |batch| && eligible(batch[i]) && IndexKey(batch[i]) == key;
        assert batch[i] in members;
        var j :| 0 <= j < |members| && members[j] == batch[i];
      }
    }
  }

  lemma IndexedSplit(cs: seq<seq<Airport>>, outcome: nat -> BatchOutcome, eligible: Airport -> bool,
                     start: nat, key: string)
    requires |cs| > 0
    ensures Indexed(cs, outcome, eligible, start, key) <==>
      BatchIndexes(cs[0], outcome(start), eligible, key) || Indexed(cs[1..], outcome, eligible, start + 1, key)
  {
    if Indexed(cs[1..], outcome, eligible, start + 1, key) {
      var b, i :| 0 <= b < |cs[1..]| && 0 <= i < |cs[1..][b]| &&
        outcome(start + 1 + b).inserted && outcome(start + 1 + b).geoAdded &&
        eligible(cs[1..][b][i]) && IndexKey(cs[1..][b][i]) == key;
      assert cs[b + 1] == cs[1..][b];
      assert start + (b + 1) == start + 1 + b;
    }
    if Indexed(cs, outcome, eligible, start, key) {
      var b, i :| 0 <= b < |cs| && 0 <= i < |cs[b]| &&
        outcome(start + b).inserted && outcome(start + b).geoAdded && eligible(cs[b][i]) && IndexKey(cs[b][i]) == key;
      if b > 0 {
        assert cs[1..][b - 1] == cs[b];
        assert start + 1 + (b - 1) == start + b;
      }
    }
  }

  /** A key is in the geo index after loading exactly when it was before, or the import added it. */
  lemma {:induction false} LoadGeoKeys(s: Stores, cs: seq<seq<Airport>>, outcome: nat -> BatchOutcome,
                                       eligible: Airport -> bool, start: nat, key: string)
    ensures key in Load(s, cs, outcome, eligible, start).geo <==> key in s.geo || Indexed(cs, outcome, eligible, start, key)
    decreases |cs|
  {
    if |cs| > 0 {
      var o := outcome(start);
      var next :=
        if !o.inserted then s
        else Stores(s.docs + cs[0],
                    if o.geoAdded then AddAll(s.geo, GeoMembers(cs[0], eligible)) else s.geo, s.pop);
      LoadGeoKeys(next, cs[1..], outcome, eligible, start + 1, key);
      FirstBatchKeys(s, cs[0], o, eligible, key);
      IndexedSplit(cs, outcome, eligible, start, key);
    }
  }
}

=== FILE: import_divergence.dfy ===
/**
 * The server's start-up import and the stand-alone script convert the same raw item
 * differently. Each lemma names one item and what each converter makes of it.
 */
module ImportDivergence {
  import opened Wrappers
  import opened JsValue
  import ServerImport
  import ScriptImport

  const Equator: Json := Obj(map["lat" := Num(0.0), "lng" := Num(10.0)])
  const OutOfRangeFirst: Json := Obj(map["lat" := Num(100.0), "latitude" := Num(45.0), "lng" := Num(10.0)])
  const NumericNamed: Json := Obj(map["name" := Num(7.0), "lat" := Num(10.0), "lng" := Num(10.0)])

  lemma EquatorOnServer(pf: string -> Option<real>, cast: Json -> string)
    ensures ServerImport.ConvertItem(Equator, 0, pf, cast).Some?
    ensures ServerImport.ConvertItem(Equator, 0, pf, cast).value.latitude == 0.0
  {
    assert ServerImport.Qualifies(Get(Equator, ServerImport.LatitudeFields[0]), 90.0, pf);
    assert ServerImport.Qualifies(Get(Equator, ServerImport.LongitudeFields[0]), 180.0, pf);
  }

  lemma EquatorInScript(pf: string -> Option<real>, cast: Json -> string)
    ensures ScriptImport.ConvertItem(Equator, 0, pf, cast).None?
  {
    EquatorScriptLatitude(pf);
  }

  /** The script finds no truthy latitude field and falls back to 0. */
  lemma EquatorScriptLatitude(pf: string -> Option<real>)
    ensures ScriptImport.Coordinate(Equator, ScriptImport.LatitudeFields, pf) == Some(0.0)
  {
    assert forall i :: 0 <= i < |ScriptImport.LatitudeFields| ==> !Truthy(Get(Equator, ScriptImport.LatitudeFields[i]));
  }

  /** An airport on the equator: the server keeps it with latitude 0, the script drops it. */
  lemma EquatorItem(pf: string -> Option<real>, cast: Json -> string)
    ensures && ServerImport.ConvertItem(Equator, 0, pf, cast).Some?
            && ServerImport.ConvertItem(Equator, 0, pf, cast).value.latitude == 0.0
            && ScriptImport.ConvertItem(Equator, 0, pf, cast).None?
  {
    EquatorOnServer(pf, cast);
    EquatorInScript(pf, cast);
  }

  lemma OutOfRangeOnServer(pf: string -> Option<real>, cast: Json -> string)
    ensures ServerImport.ConvertItem(OutOfRangeFirst, 0, pf, cast).Some?
    ensures ServerImport.ConvertItem(OutOfRangeFirst, 0, pf, cast).value.latitude == 45.0
  {
    OutOfRangeLatitude(pf);
    assert ServerImport.Qualifies(Get(OutOfRangeFirst, ServerImport.LongitudeFields[0]), 180.0, pf);
  }

  /** The server reads the second latitude field once the first is out of range. */
  lemma OutOfRangeLatitude(pf: string -> Option<real>)
    ensures ServerImport.Latitude(OutOfRangeFirst, pf) == Some(45.0)
  {
    assert !ServerImport.Qualifies(Get(OutOfRangeFirst, ServerImport.LatitudeFields[0]), 90.0, pf);
    assert ServerImport.Qualifies(Get(OutOfRangeFirst, ServerImport.LatitudeFields[1]), 90.0, pf);
  }

  lemma OutOfRangeInScript(pf: string -> Option<real>, cast: Json -> string)
    ensures ScriptImport.ConvertItem(OutOfRangeFirst, 0, pf, cast).None?
  {
    assert Truthy(Get(OutOfRangeFirst, ScriptImport.LatitudeFields[0]));
  }

  /**
   * An out-of-range first latitude field: the server goes on to the next field and keeps
   * the airport at latitude 45, the script reads only the first truthy field and drops it.
   */
  lemma OutOfRangeFirstField(pf: string -> Option<real>, cast: Json -> string)
    ensures && ServerImport.ConvertItem(OutOfRangeFirst, 0, pf, cast).Some?
            && ServerImport.ConvertItem(OutOfRangeFirst, 0, pf, cast).value.latitude == 45.0
            && ScriptImport.ConvertItem(OutOfRangeFirst, 0, pf, cast).None?
  {
    OutOfRangeOnServer(pf, cast);
    OutOfRangeInScript(pf, cast);
  }

  lemma NumericNameOnServer(pf: string -> Option<real>, cast: Json -> string)
    ensures ServerImport.ConvertItem(NumericNamed, 0, pf, cast).Some?
    ensures ServerImport.ConvertItem(NumericNamed, 0, pf, cast).value.name == "Unknown Airport"
  {
    assert ServerImport.Qualifies(Get(NumericNamed, ServerImport.LatitudeFields[0]), 90.0, pf);
    assert ServerImport.Qualifies(Get(NumericNamed, ServerImport.LongitudeFields[0]), 180.0, pf);
    assert forall i :: 0 <= i < |ServerImport.NameFields| ==> !ServerImport.NameCandidate(Get(NumericNamed, ServerImport.NameFields[i]));
  }

  lemma NumericNameInScript(pf: string -> Option<real>, cast: Json -> string)
    ensures ScriptImport.ConvertItem(NumericNamed, 0, pf, cast).None?
  {
    assert Truthy(Get(NumericNamed, ScriptImport.NameFields[0]));
  }

  /**
   * A numeric name: the server passes over it and names the airport "Unknown Airport"; in the
   * script `trim` throws on it and the item is skipped.
   */
  lemma NumericName(pf: string -> Option<real>, cast: Json -> string)
    ensures && ServerImport.ConvertItem(NumericNamed, 0, pf, cast).Some?
            && ServerImport.ConvertItem(NumericNamed, 0, pf, cast).value.name == "Unknown Airport"
            && ScriptImport.ConvertItem(NumericNamed, 0, pf, cast).None?
  {
    NumericNameOnServer(pf, cast);
    NumericNameInScript(pf, cast);
  }
}

=== FILE: indexes.dfy ===
/**
 * The two Redis structures derived from the airport documents: the geo set `airports_geo`
 * (member -> longitude/latitude) and the sorted set `airport_popularity` (member -> score)
 * with one expiry for the whole key. Time is a logical clock in seconds.
 */
module Indexes {
  import opened Wrappers

  datatype Coord = Coord(longitude: real, latitude: real)

  type GeoIndex = map<string, Coord>

  /**
   * The fate of one best-effort Redis command: the client handle is not set (the command is
   * skipped), the command throws (the error is logged and swallowed), or it takes effect.
   */
  datatype IndexCall = NoClient | Fails | Works

  /** The reply of a Redis query whose result the route reads. */
  datatype RedisReply<T> = Unavailable | Threw | Replied(value: T)

  /** `GEOADD airports_geo lng lat key`, taking effect only when the call works. */
  function GeoAdd(g: GeoIndex, key: string, c: Coord, call: IndexCall): (r: GeoIndex)
    ensures call == Works ==> key in r && r[key] == c && r.Keys == g.Keys + {key}
    ensures call == Works ==> forall k :: k in g && k != key ==> k in r && r[k] == g[k]
    ensures call != Works ==> r == g
  {
    if call == Works then g[key := c] else g
  }

  /** `ZREM airports_geo key`. */
  function GeoRemove(g: GeoIndex, key: string, call: IndexCall): (r: GeoIndex)
    ensures call == Works ==> r.Keys == g.Keys - {key} && forall k :: k in r ==> r[k] == g[k]
    ensures call != Works ==> r == g
  {
    if call == Works then g - {key} else g
  }

  /** Seconds of life `EXPIRE airport_popularity 86400` gives the whole ranking. */
  const PopularityTtl: int := 86400

  /** The ranking: a score per member, and the instant the whole key expires, if set. */
  datatype Popularity = Popularity(scores: map<string, nat>, expiresAt: Option<int>)

  /** A Redis key exists only while it holds members, and only an existing key has a TTL. */
  predicate WellFormed(p: Popularity) {
    p.scores == map[] ==> p.expiresAt.None?
  }

  const Empty: Popularity := Popularity(map[], None)

  /** The ranking as seen at instant `now`: gone entirely once its expiry has passed. */
  function Live(p: Popularity, now: int): (r: Popularity)
    ensures WellFormed(r)
    ensures p.expiresAt.Some? && now >= p.expiresAt.value ==> r == Empty
    ensures WellFormed(p) && (p.expiresAt.None? || now < p.expiresAt.value) ==> r == p
  {
    if p.expiresAt.Some? && now >= p.expiresAt.value then Empty
    else if p.scores == map[] then Empty
    else p
  }

  /** The score of `key`; a member that is not there counts 0. */
  function Score(p: Popularity, key: string): nat {
    if key in p.scores then p.scores[key] else 0
  }

  /** `ZINCRBY airport_popularity 1 key` at instant `now`; a missing member starts at 0. */
  function Increment(p: Popularity, key: string, now: int): (r: Popularity)
    ensures WellFormed(r) && r.scores != map[]
    ensures Score(r, key) == Score(Live(p, now), key) + 1
    ensures forall k :: k != key ==> Score(r, k) == Score(Live(p, now), k)
    ensures r.scores.Keys == Live(p, now).scores.Keys + {key}
    ensures r.expiresAt == Live(p, now).expiresAt
  {
    var l := Live(p, now);
    Popularity(l.scores[key := Score(l, key) + 1], l.expiresAt)
  }

  /** `EXPIRE airport_popularity secs`: a no-op on a key that does not exist. */
  function Expire(p: Popularity, secs: int, now: int): (r: Popularity)
    ensures WellFormed(r)
    ensures r.scores == Live(p, now).scores
    ensures r.scores != map[] ==> r.expiresAt == Some(now + secs)
    ensures r.scores == map[] ==> r == Empty
  {
    var l := Live(p, now);
    if l.scores == map[] then l else Popularity(l.scores, Some(now + secs))
  }

  /** `ZREM airport_popularity key`; removing the last member deletes the key and its TTL. */
  function RemoveMember(p: Popularity, key: string, now: int): (r: Popularity)
    ensures WellFormed(r)
    ensures r.scores.Keys == Live(p, now).scores.Keys - {key}
    ensures forall k :: k in r.scores ==> r.scores[k] == Live(p, now).scores[k]
    ensures r.scores != map[] ==> r.expiresAt == Live(p, now).expiresAt
    ensures r.scores == map[] ==> r == Empty
  {
    var l := Live(p, now);
    var s := l.scores - {key};
    if s == map[] then Empty else Popularity(s, l.expiresAt)
  }

  /** `DEL airport_popularity`: every score reads 0 and a later `EXPIRE` has nothing to time. */
  function Delete(p: Popularity): (r: Popularity)
    ensures r == Empty
    ensures forall k :: Score(r, k) == 0
    ensures forall secs, now :: Expire(r, secs, now) == r
  {
    Empty
  }

  /**
   * The import's `DEL` followed by `EXPIRE` on the same key leaves no TTL at all: the
   * `EXPIRE` finds no key. The ranking only gets its expiry from the first lookup.
   */
  lemma ExpireAfterDeleteIsNoOp(p: Popularity, now: int)
    ensures Expire(Delete(p), PopularityTtl, now) == Empty
    ensures Expire(Delete(p), PopularityTtl, now).expiresAt.None?
  {
  }
}

=== FILE: js_text.dfy ===
/**
 * The few pieces of JavaScript string behaviour the routes and importers depend on:
 * `trim`, ASCII case mapping, `parseInt` without a radix, the `Number(s)` coercion
 * behind `isNaN(s)`, decimal printing of integers and `padStart`.
 */
module JsText {
  import opened Wrappers

  /** The characters `String.prototype.trim` removes (WhiteSpace and LineTerminator). */
  predicate IsSpace(c: char) {
    c == ' ' || c == '\t' || c == '\n' || c == '\r' || c == '\U{B}' || c == '\U{C}'
    || c == '\U{A0}' || c == '\U{1680}' || ('\U{2000}' <= c <= '\U{200A}')
    || c == '\U{2028}' || c == '\U{2029}' || c == '\U{202F}' || c == '\U{205F}'
    || c == '\U{3000}' || c == '\U{FEFF}'
  }

  /** `s.trimStart()`. */
  function TrimStart(s: string): (r: string)
    ensures |r| <= |s|
  {
    if |s| > 0 && IsSpace(s[0]) then TrimStart(s[1..]) else s
  }

  /** `trimStart` cuts off exactly the leading spaces. */
  lemma {:induction false} TrimStartFacts(s: string)
    ensures var r := TrimStart(s);
      && r == s[|s| - |r|..]
      && (|r| > 0 ==> !IsSpace(r[0]))
      && (forall i :: 0 <= i < |s| - |r| ==> IsSpace(s[i]))
    decreases |s|
  {
    if |s| > 0 && IsSpace(s[0]) {
      TrimStartFacts(s[1..]);
      var r := TrimStart(s);
      assert forall i :: 1 <= i < |s| ==> s[i] == s[1..][i - 1];
      assert s[1..][|s[1..]| - |r|..] == s[|s| - |r|..];
    }
  }

  /** `s.trimEnd()`. */
  function TrimEnd(s: string): (r: string)
    ensures |r| <= |s|
  {
    if |s| > 0 && IsSpace(s[|s| - 1]) then TrimEnd(s[..|s| - 1]) else s
  }

  /** `trimEnd` cuts off exactly the trailing spaces. */
  lemma {:induction false} TrimEndFacts(s: string)
    ensures var r := TrimEnd(s);
      && r == s[..|r|]
      && (|r| > 0 ==> !IsSpace(r[|r| - 1]))
      && (forall i :: |r| <= i < |s| ==> IsSpace(s[i]))
    decreases |s|
  {
    if |s| > 0 && IsSpace(s[|s| - 1]) {
      TrimEndFacts(s[..|s| - 1]);
      var r := TrimEnd(s);
      assert forall i :: 0 <= i < |s| - 1 ==> s[i] == s[..|s| - 1][i];
      assert s[..|s| - 1][..|r|] == s[..|r|];
    }
  }

  /** How many spaces `trimStart` removes from the front of `s`. */
  function LeadingSpaces(s: string): (n: nat)
    ensures n <= |s|
  {
    |s| - |TrimStart(s)|
  }

  /** `s.trim()`: `trimEnd` of `trimStart`. */
  function Trim(s: string): (r: string)
    ensures |r| <= |s|
  {
    TrimEnd(TrimStart(s))
  }

  /** `trim` leaves the slice of `s` between its leading and its trailing spaces. */
  lemma TrimFacts(s: string)
    ensures var r := Trim(s);
      && LeadingSpaces(s) + |r| <= |s|
      && r == s[LeadingSpaces(s)..LeadingSpaces(s) + |r|]
      && (forall i :: 0 <= i < LeadingSpaces(s) ==> IsSpace(s[i]))
      && (forall i :: LeadingSpaces(s) + |r| <= i < |s| ==> IsSpace(s[i]))
      && (|r| > 0 ==> !IsSpace(r[0]) && !IsSpace(r[|r| - 1]))
  {
    var t := TrimStart(s);
    var r := TrimEnd(t);
    TrimStartFacts(s);
    TrimEndFacts(t);
    assert |r| > 0 ==> r[0] == t[0];
    assert forall i :: LeadingSpaces(s) + |r| <= i < |s| ==> s[i] == t[i - LeadingSpaces(s)];
  }

  /** `!s.trim()`: the string holds nothing but spaces. */
  predicate IsBlank(s: string) {
    Trim(s) == ""
  }

  lemma {:induction false} TrimStartOfNoLeadingSpace(s: string)
    requires |s| == 0 || !IsSpace(s[0])
    ensures TrimStart(s) == s
  {
  }

  lemma {:induction false} TrimEndOfNoTrailingSpace(s: string)
    requires |s| == 0 || !IsSpace(s[|s| - 1])
    ensures TrimEnd(s) == s
  {
  }

  /** Trimming twice is trimming once. */
  lemma TrimIdempotent(s: string)
    ensures Trim(Trim(s)) == Trim(s)
  {
    var r := Trim(s);
    TrimFacts(s);
    TrimStartOfNoLeadingSpace(r);
    TrimEndOfNoTrailingSpace(r);
  }

  /** `IsBlank` holds exactly when every character is a space. */
  lemma {:induction false} BlankIffAllSpaces(s: string)
    ensures IsBlank(s) <==> forall i :: 0 <= i < |s| ==> IsSpace(s[i])
  {
    if |s| > 0 && IsSpace(s[0]) {
      BlankIffAllSpaces(s[1..]);
      assert TrimStart(s) == TrimStart(s[1..]);
      assert forall i :: 1 <= i < |s| ==> s[i] == s[1..][i - 1];
    } else if |s| > 0 {
      assert TrimStart(s) == s;
      TrimEndFacts(s);
      assert |TrimEnd(s)| > 0 by {
        assert !IsSpace(s[0]);
      }
    }
  }

  function UpperChar(c: char): (u: char)
    ensures 'a' <= c <= 'z' ==> 'A' <= u <= 'Z'
    ensures !('a' <= c <= 'z') ==> u == c
  {
    if 'a' <= c <= 'z' then (c as int - 32) as char else c
  }

  function LowerChar(c: char): (l: char)
    ensures 'A' <= c <= 'Z' ==> 'a' <= l <= 'z'
    ensures !('A' <= c <= 'Z') ==> l == c
  {
    if 'A' <= c <= 'Z' then (c as int + 32) as char else c
  }

  /** `s.toUpperCase()` over the ASCII letters: same length, each character mapped on its own. */
  function ToUpper(s: string): (r: string)
    ensures |r| == |s|
    ensures forall i :: 0 <= i < |s| ==> r[i] == UpperChar(s[i])
  {
    seq(|s|, i requires 0 <= i < |s| => UpperChar(s[i]))
  }

  /** `s.toLowerCase()` over the ASCII letters. */
  function ToLower(s: string): (r: string)
    ensures |r| == |s|
    ensures forall i :: 0 <= i < |s| ==> r[i] == LowerChar(s[i])
  {
    seq(|s|, i requires 0 <= i < |s| => LowerChar(s[i]))
  }

  /** Upper-casing is idempotent, so a stored upper-case code is found by its own upper case. */
  lemma ToUpperIdempotent(s: string)
    ensures ToUpper(ToUpper(s)) == ToUpper(s)
  {
  }

  lemma ToLowerIdempotent(s: string)
    ensures ToLower(ToLower(s)) == ToLower(s)
  {
  }

  // ----- digits -----

  predicate IsDigit(c: char) { '0' <= c <= '9' }
  predicate IsHexDigit(c: char) { IsDigit(c) || 'a' <= c <= 'f' || 'A' <= c <= 'F' }
  predicate IsOctDigit(c: char) { '0' <= c <= '7' }
  predicate IsBinDigit(c: char) { c == '0' || c == '1' }
  predicate IsUpperLetter(c: char) { 'A' <= c <= 'Z' }
  predicate IsAsciiLetter(c: char) { 'A' <= c <= 'Z' || 'a' <= c <= 'z' }

  predicate AllDigits(s: string) {
    forall i :: 0 <= i < |s| ==> IsDigit(s[i])
  }

  function DigitValue(c: char): (v: nat)
    requires IsHexDigit(c)
    ensures v < 16
    ensures IsDigit(c) ==> v < 10
  {
    if IsDigit(c) then c as int - '0' as int
    else if 'a' <= c <= 'f' then c as int - 'a' as int + 10
    else c as int - 'A' as int + 10
  }

  /** The value of a digit string read in base `radix`, most significant digit first. */
  function DigitsValue(s: string, radix: nat): nat
    requires forall i :: 0 <= i < |s| ==> IsHexDigit(s[i])
  {
    if |s| == 0 then 0 else DigitsValue(s[..|s| - 1], radix) * radix + DigitValue(s[|s| - 1])
  }

  /** The longest prefix of `s` made of characters satisfying `ok`. */
  function LeadingRun(s: string, ok: char -> bool): (r: string)
    ensures |r| <= |s| && r == s[..|r|]
    ensures forall i :: 0 <= i < |r| ==> ok(r[i])
    ensures |r| < |s| ==> !ok(s[|r|])
  {
    if |s| > 0 && ok(s[0]) then [s[0]] + LeadingRun(s[1..], ok) else ""
  }

  /**
   * `Number.parseInt(s)` with no radix: leading spaces skipped, an optional sign, a `0x`/`0X`
   * prefix switching to base 16, then the longest run of digits; `None` is `NaN`.
   */
  function ParseInt(s: string): Option<int> {
    var t := TrimStart(s);
    var rest := Unsigned(t);
    var digits := DigitRun(rest);
    if |digits| == 0 then None
    else
      var v: int := DigitsValue(digits, if HexPrefixed(rest) then 16 else 10);
      Some(if |t| > 0 && t[0] == '-' then -v else v)
  }

  /** The text after an optional leading sign. */
  function Unsigned(t: string): string {
    if |t| > 0 && (t[0] == '-' || t[0] == '+') then t[1..] else t
  }

  predicate HexPrefixed(rest: string) {
    |rest| >= 2 && rest[0] == '0' && (rest[1] == 'x' || rest[1] == 'X')
  }

  /** The digits `parseInt` reads after the sign: hexadecimal behind `0x`/`0X`, else decimal. */
  function DigitRun(rest: string): string {
    if HexPrefixed(rest) then LeadingRun(rest[2..], IsHexDigit) else LeadingRun(rest, IsDigit)
  }

  /** `parseInt` of a query parameter; a missing one (`undefined`) is `NaN`. */
  function ParseIntParam(p: Option<string>): (r: Option<int>)
    ensures p.Some? ==> r == ParseInt(p.value)
    ensures p.None? ==> r.None?
  {
    if p.Some? then ParseInt(p.value) else None
  }

  /** `parseInt(p) || d`: `NaN` and 0 both fall back to `d`. */
  function ParseIntOr(p: Option<string>, d: int): (r: int)
    ensures ParseIntParam(p).Some? && ParseIntParam(p).value != 0 ==> r == ParseIntParam(p).value
    ensures ParseIntParam(p).None? || ParseIntParam(p).value == 0 ==> r == d
  {
    var v := ParseIntParam(p);
    if v.Some? && v.value != 0 then v.value else d
  }

  lemma LeadingRunAll(s: string, ok: char -> bool)
    requires forall i :: 0 <= i < |s| ==> ok(s[i])
    ensures LeadingRun(s, ok) == s
  {
  }

  /** On a string of decimal digits `parseInt` reads the whole string in base 10. */
  lemma ParseIntOfDigits(s: string)
    requires |s| > 0 && AllDigits(s)
    ensures ParseInt(s) == Some(DigitsValue(s, 10))
  {
    TrimStartOfNoLeadingSpace(s);
    assert TrimStart(s) == s;
    assert Unsigned(s) == s by {
      assert IsDigit(s[0]);
    }
    assert !HexPrefixed(s) by {
      if |s| >= 2 {
        assert IsDigit(s[1]);
      }
    }
    LeadingRunAll(s, IsDigit);
    assert DigitRun(s) == s;
  }

  /** `trimStart` of `a + b`, where `b` starts with a non-space, trims only within `a`. */
  lemma {:induction false} TrimStartAppend(a: string, b: string)
    requires |b| > 0 && !IsSpace(b[0])
    ensures TrimStart(a + b) == TrimStart(a) + b
    decreases |a|
  {
    if |a| == 0 {
      assert a + b == b;
    } else {
      assert (a + b)[0] == a[0];
      if IsSpace(a[0]) {
        assert (a + b)[1..] == a[1..] + b;
        TrimStartAppend(a[1..], b);
      }
    }
  }

  /** A run stops at the first character that does not belong to it. */
  lemma {:induction false} LeadingRunStops(x: string, y: string, ok: char -> bool)
    requires |y| > 0 && !ok(y[0])
    ensures LeadingRun(x + y, ok) == LeadingRun(x, ok)
    decreases |x|
  {
    if |x| == 0 {
      assert x + y == y;
    } else {
      assert (x + y)[0] == x[0];
      if ok(x[0]) {
        assert (x + y)[1..] == x[1..] + y;
        LeadingRunStops(x[1..], y, ok);
      }
    }
  }

  /** `parseInt` never reads past a comma: `parseInt(s + ",...")` is `parseInt(s)`. */
  lemma ParseIntStopsAtComma(s: string, tail: string)
    requires |tail| > 0 && tail[0] == ','
    ensures ParseInt(s + tail) == ParseInt(s)
  {
    TrimStartAppend(s, tail);
    var t := TrimStart(s);
    UnsignedStopsAtComma(t, tail);
    DigitRunStopsAtComma(Unsigned(t), tail);
    assert |t| > 0 ==> (t + tail)[0] == t[0];
  }

  lemma UnsignedStopsAtComma(t: string, tail: string)
    requires |tail| > 0 && tail[0] == ','
    ensures Unsigned(t + tail) == Unsigned(t) + tail
  {
    if |t| > 0 {
      assert (t + tail)[0] == t[0];
      assert (t + tail)[1..] == t[1..] + tail;
    } else {
      assert t + tail == tail;
    }
  }

  lemma DigitRunStopsAtComma(rest: string, tail: string)
    requires |tail| > 0 && tail[0] == ','
    ensures HexPrefixed(rest + tail) == HexPrefixed(rest)
    ensures DigitRun(rest + tail) == DigitRun(rest)
  {
    if |rest| >= 2 {
      assert (rest + tail)[0] == rest[0] && (rest + tail)[1] == rest[1];
    } else if |rest| == 1 {
      assert (rest + tail)[1] == ',';
    } else {
      assert rest + tail == tail;
    }
    if HexPrefixed(rest) {
      assert (rest + tail)[2..] == rest[2..] + tail;
      LeadingRunStops(rest[2..], tail, IsHexDigit);
    } else {
      LeadingRunStops(rest, tail, IsDigit);
    }
  }

  /** `parseInt("12abc")` reads the leading digits, 12. */
  lemma ParseIntOfDigitsThenLetters()
    ensures ParseInt("12abc") == Some(12)
  {
    TrimStartOfNoLeadingSpace("12abc");
    assert LeadingRun("12abc", IsDigit) == "12" by {
      assert "12abc"[1..] == "2abc" && "2abc"[1..] == "abc";
    }
    assert "12"[..1] == "1" && "1"[..0] == "";
    assert DigitsValue("12", 10) == 12;
  }

  // ----- Number(s) coercion, as used by isNaN(s) -----

  function FindChar(s: string, p: char -> bool): (r: Option<nat>)
    ensures r.Some? ==> r.value < |s| && p(s[r.value]) && forall i :: 0 <= i < r.value ==> !p(s[i])
    ensures r.None? ==> forall i :: 0 <= i < |s| ==> !p(s[i])
  {
    if |s| == 0 then None
    else if p(s[0]) then Some(0)
    else match FindChar(s[1..], p)
      case None => None
      case Some(k) => Some(k + 1)
  }

  /** Digits with at most one `.`, and at least one digit on some side of it. */
  predicate IsMantissa(m: string) {
    match FindChar(m, c => c == '.')
    case None => |m| > 0 && AllDigits(m)
    case Some(k) => AllDigits(m[..k]) && AllDigits(m[k + 1..]) && (k > 0 || k + 1 < |m|)
  }

  predicate IsSignedDigits(e: string) {
    var d := if |e| > 0 && (e[0] == '+' || e[0] == '-') then e[1..] else e;
    |d| > 0 && AllDigits(d)
  }

  predicate IsUnsignedDecimal(u: string) {
    u == "Infinity" ||
    match FindChar(u, c => c == 'e' || c == 'E')
    case None => IsMantissa(u)
    case Some(k) => IsMantissa(u[..k]) && IsSignedDigits(u[k + 1..])
  }

  predicate IsDecimalLiteral(t: string) {
    if |t| > 0 && (t[0] == '+' || t[0] == '-') then IsUnsignedDecimal(t[1..]) else IsUnsignedDecimal(t)
  }

  predicate IsPrefixedLiteral(t: string) {
    |t| > 2 && t[0] == '0' &&
    var body := t[2..];
    ((t[1] == 'x' || t[1] == 'X') && forall i :: 0 <= i < |body| ==> IsHexDigit(body[i])) ||
    ((t[1] == 'o' || t[1] == 'O') && forall i :: 0 <= i < |body| ==> IsOctDigit(body[i])) ||
    ((t[1] == 'b' || t[1] == 'B') && forall i :: 0 <= i < |body| ==> IsBinDigit(body[i]))
  }

  /** `!isNaN(s)` for a string `s`: the trimmed text is empty or a numeric literal. */
  predicate IsNumeric(s: string) {
    var t := Trim(s);
    t == "" || IsDecimalLiteral(t) || IsPrefixedLiteral(t)
  }

  /** A non-empty string of decimal digits is numeric. */
  lemma DigitsAreNumeric(s: string)
    requires |s| > 0 && AllDigits(s)
    ensures IsNumeric(s)
  {
    TrimStartOfNoLeadingSpace(s);
    TrimEndOfNoTrailingSpace(s);
    assert Trim(s) == s;
    assert forall i :: 0 <= i < |s| ==> s[i] != 'e' && s[i] != 'E' && s[i] != '.';
    assert FindChar(s, c => c == 'e' || c == 'E').None?;
    assert FindChar(s, c => c == '.').None?;
  }

  // ----- printing -----

  function DigitChar(d: nat): (c: char)
    requires d < 10
    ensures IsDigit(c)
  {
    ('0' as int + d) as char
  }

  /** `String(n)` for a natural number: its decimal digits, no leading zero. */
  function NatToString(n: nat): (s: string)
    ensures |s| > 0 && AllDigits(s)
    ensures |s| > 1 ==> s[0] != '0'
    decreases n
  {
    if n < 10 then [DigitChar(n)] else NatToString(n / 10) + [DigitChar(n % 10)]
  }

  function IntToString(n: int): (s: string)
    ensures |s| > 0
    ensures n < 0 <==> s[0] == '-'
    ensures n >= 0 ==> AllDigits(s)
    ensures forall i :: 0 < i < |s| ==> IsDigit(s[i])
  {
    if n < 0 then "-" + NatToString(-n) else NatToString(n)
  }

  lemma {:induction false} DigitsValueOfNatToString(n: nat)
    ensures DigitsValue(NatToString(n), 10) == n
    decreases n
  {
    var s := NatToString(n);
    if n >= 10 {
      DigitsValueOfNatToString(n / 10);
      assert s[..|s| - 1] == NatToString(n / 10);
    }
  }

  /** Reading back a printed natural number gives the number (`parseInt(String(n)) == n`). */
  lemma ParseIntOfNatToString(n: nat)
    ensures ParseInt(NatToString(n)) == Some(n)
  {
    ParseIntOfDigits(NatToString(n));
    DigitsValueOfNatToString(n);
  }

  /** `s.padStart(width, fill)`: fill characters are prepended until the length reaches `width`. */
  function PadStart(s: string, width: nat, fill: char): (r: string)
    ensures |r| == if |s| >= width then |s| else width
    ensures r[|r| - |s|..] == s
    ensures forall i :: 0 <= i < |r| - |s| ==> r[i] == fill
  {
    if |s| >= width then s else seq(width - |s|, _ => fill) + s
  }
}

=== FILE: js_value.dfy ===
/**
 * JSON values as the importers and request handlers see them, with JavaScript's truthiness,
 * the `a || b` operator, `.length`, and `parseFloat`/`parseInt` applied to a value.
 * A field that is absent (`undefined`) is `None` of `Option<Json>`.
 */
module JsValue {
  import opened Wrappers
  import JsText

  datatype Json =
    | Null
    | Bool(b: bool)
    | Num(n: real)
    | Str(s: string)
    | Arr(items: seq<Json>)
    | Obj(fields: map<string, Json>)

  /** `typeof v === "object" && v`: objects and arrays, never `null`. */
  predicate IsObject(v: Json) {
    v.Obj? || v.Arr?
  }

  /** `item[field]`; arrays have no named fields. */
  function Get(v: Json, field: string): (r: Option<Json>)
    ensures r.Some? ==> v.Obj? && field in v.fields && r.value == v.fields[field]
    ensures v.Obj? && field in v.fields ==> r.Some?
  {
    if v.Obj? && field in v.fields then Some(v.fields[field]) else None
  }

  /** JavaScript truthiness; `undefined` is falsy. JSON never holds `NaN`. */
  predicate Truthy(v: Option<Json>) {
    match v
    case None => false
    case Some(Null) => false
    case Some(Bool(b)) => b
    case Some(Num(n)) => n != 0.0
    case Some(Str(s)) => s != ""
    case Some(_) => true
  }

  /** `a || b`: the left operand when it is truthy, else the right one. */
  function Or(a: Option<Json>, b: Option<Json>): (r: Option<Json>)
    ensures Truthy(a) ==> r == a
    ensures !Truthy(a) ==> r == b
  {
    if Truthy(a) then a else b
  }

  /** The first truthy value of `vs`, else `last` (`vs[0] || vs[1] || ... || last`). */
  function FirstTruthy(vs: seq<Option<Json>>, last: Option<Json>): (r: Option<Json>)
    ensures Truthy(r) || r == last
  {
    if |vs| == 0 then last else Or(vs[0], FirstTruthy(vs[1..], last))
  }

  /** The fields of `item` named by `names`, in order, as `FirstTruthy` consumes them. */
  function Fields(item: Json, names: seq<string>): (r: seq<Option<Json>>)
    ensures |r| == |names|
    ensures forall i :: 0 <= i < |names| ==> r[i] == Get(item, names[i])
  {
    seq(|names|, i requires 0 <= i < |names| => Get(item, names[i]))
  }

  /** `FirstTruthy` returns the value at the first truthy position, and skips only falsy ones. */
  lemma {:induction false} FirstTruthyIsFirst(vs: seq<Option<Json>>, last: Option<Json>, k: nat)
    requires k < |vs| && Truthy(vs[k])
    requires forall i :: 0 <= i < k ==> !Truthy(vs[i])
    ensures FirstTruthy(vs, last) == vs[k]
  {
    if k > 0 {
      FirstTruthyIsFirst(vs[1..], last, k - 1);
    }
  }

  lemma {:induction false} FirstTruthyNone(vs: seq<Option<Json>>, last: Option<Json>)
    requires forall i :: 0 <= i < |vs| ==> !Truthy(vs[i])
    ensures FirstTruthy(vs, last) == last
  {
    if |vs| > 0 {
      FirstTruthyNone(vs[1..], last);
    }
  }

  /** `.length` of a value: strings and arrays have one, everything else is `undefined`. */
  function Length(v: Json): Option<nat> {
    match v
    case Str(s) => Some(|s|)
    case Arr(items) => Some(|items|)
    case _ => None
  }

  /**
   * `Number.parseFloat(v)`, which reads `String(v)`: a number is itself, a string is read by
   * `parseString` (the number-literal reader of the runtime, not modelled). An array prints as
   * its elements' texts joined by commas, `null` printing as nothing; no number literal holds
   * a comma, so only the first element's text is read, and an empty array reads as `""`.
   * `undefined`, `null`, booleans and objects print as words that are not numbers (`NaN`).
   */
  function ParseFloat(v: Option<Json>, parseString: string -> Option<real>): (r: Option<real>)
    ensures v.Some? && v.value.Num? ==> r == Some(v.value.n)
    ensures v.Some? && v.value.Str? ==> r == parseString(v.value.s)
    ensures v.None? || v.value.Null? || v.value.Bool? || v.value.Obj? ==> r.None?
  {
    if v.None? then None else FloatOf(v.value, parseString)
  }

  /** `parseFloat(String(j))` for a value that is present. */
  function FloatOf(j: Json, parseString: string -> Option<real>): Option<real> {
    match j
    case Num(n) => Some(n)
    case Str(s) => parseString(s)
    case Arr(items) =>
      if |items| == 0 || items[0].Null? then parseString("") else FloatOf(items[0], parseString)
    case _ => None
  }

  /**
   * An array reads as its first element: `parseFloat([45, 10])` is 45, whatever follows, and a
   * nested array is read through its own first element.
   */
  lemma ArrayReadsFirstElement(first: Json, rest: seq<Json>, parseString: string -> Option<real>)
    requires !first.Null?
    ensures ParseFloat(Some(Arr([first] + rest)), parseString) == ParseFloat(Some(first), parseString)
    ensures first.Num? ==> ParseFloat(Some(Arr([first] + rest)), parseString) == Some(first.n)
  {
  }

  /** An empty array, or one that starts with `null`, reads as the empty text. */
  lemma ArrayWithoutFirstText(items: seq<Json>, parseString: string -> Option<real>)
    requires |items| == 0 || items[0].Null?
    ensures ParseFloat(Some(Arr(items)), parseString) == parseString("")
  {
  }

  /** Truncation toward zero. */
  function Trunc(x: real): (r: int)
    ensures x >= 0.0 ==> r as real <= x < r as real + 1.0
    ensures x < 0.0 ==> r as real - 1.0 < x <= r as real
  {
    if x >= 0.0 then x.Floor else -((-x).Floor)
  }

  function AbsReal(x: real): real {
    if x < 0.0 then -x else x
  }

  /**
   * `String(x)` writes a non-zero number in exponent form (`1e+21`, `2.5e-7`) exactly when
   * `|x| < 1e-6` or `|x| >= 1e21` (Number::toString, section 6.1.6.1.20 of ECMA-262).
   */
  predicate ExponentForm(x: real) {
    x != 0.0 && (AbsReal(x) < 0.000001 || AbsReal(x) >= 1000000000000000000000.0)
  }

  /** The leading decimal digit of a positive integer. */
  function LeadingDigitOfNat(n: nat): (d: nat)
    requires n > 0
    ensures 1 <= d <= 9
  {
    if n < 10 then n else LeadingDigitOfNat(n / 10)
  }

  /** `y` multiplied by ten until it is at least 1. */
  function ScaleToUnit(y: real): (z: real)
    requires y > 0.0
    ensures z >= 1.0
    ensures y >= 1.0 ==> z == y
    ensures y < 1.0 ==> z < 10.0
    decreases if y >= 1.0 then 0 else (1.0 / y).Floor
  {
    if y >= 1.0 then y
    else
      ScaleShrinksInverse(y);
      ScaleToUnit(10.0 * y)
  }

  lemma ScaleShrinksInverse(y: real)
    requires 0.0 < y < 1.0
    ensures (1.0 / y).Floor >= 1
    ensures 10.0 * y < 1.0 ==> (1.0 / (10.0 * y)).Floor < (1.0 / y).Floor
  {
    var w := 1.0 / y;
    assert w * y == 1.0;
    assert w > 1.0;
    if 10.0 * y < 1.0 {
      assert w > 10.0;
      assert 1.0 / (10.0 * y) == w / 10.0;
      assert w / 10.0 <= w - 1.0;
    }
  }

  /** The first significant decimal digit of a positive number. */
  function LeadingDigit(y: real): (d: int)
    requires y > 0.0
    ensures 1 <= d <= 9
  {
    LeadingDigitOfNat(ScaleToUnit(y).Floor)
  }

  /**
   * `parseInt(String(x))` of a number: the integer part, except that a number printed in
   * exponent form reads as its signed leading digit, since `parseInt` stops at the `.` or the
   * `e` behind it.
   */
  function IntOfNumber(x: real): (r: int)
    ensures !ExponentForm(x) ==> r == Trunc(x)
    ensures ExponentForm(x) && x > 0.0 ==> r == LeadingDigit(x)
    ensures ExponentForm(x) && x < 0.0 ==> r == -LeadingDigit(-x)
  {
    if !ExponentForm(x) then Trunc(x)
    else if x < 0.0 then -LeadingDigit(-x) else LeadingDigit(x)
  }

  /**
   * `Number.parseInt(v)`, which reads `String(v)`: a number as `IntOfNumber`, a string by
   * `JsText.ParseInt`, an array through its first element as for `ParseFloat` (the comma
   * behind it stops the digits, `ArrayIntReadsFirstText`), and an empty array, one starting with
   * `null`, `undefined`, `null`, booleans and objects as `NaN`.
   */
  function ParseIntValue(v: Option<Json>): (r: Option<int>)
    ensures v.Some? && v.value.Str? ==> r == JsText.ParseInt(v.value.s)
    ensures v.Some? && v.value.Num? ==> r == Some(IntOfNumber(v.value.n))
    ensures v.Some? && v.value.Arr? && |v.value.items| > 0 && !v.value.items[0].Null? ==>
      r == IntOf(v.value.items[0])
    ensures v.Some? && v.value.Arr? && (|v.value.items| == 0 || v.value.items[0].Null?) ==>
      r == JsText.ParseInt("") && r.None?
    ensures v.None? || v.value.Null? || v.value.Bool? || v.value.Obj? ==> r.None?
  {
    if v.None? then None else IntOf(v.value)
  }

  /** `parseInt(String(j))` for a value that is present. */
  function IntOf(j: Json): Option<int> {
    match j
    case Num(n) => Some(IntOfNumber(n))
    case Str(s) => JsText.ParseInt(s)
    case Arr(items) => if |items| == 0 || items[0].Null? then None else IntOf(items[0])
    case _ => None
  }

  /**
   * `String([s, ...])` is `s` followed by nothing or by a comma and the other elements'
   * texts; `parseInt` reads that text as it reads `s` alone.
   */
  lemma ArrayIntReadsFirstText(s: string, rest: seq<Json>, tail: string)
    requires tail == "" || tail[0] == ','
    ensures ParseIntValue(Some(Arr([Str(s)] + rest))) == JsText.ParseInt(s + tail)
  {
    if tail != "" {
      JsText.ParseIntStopsAtComma(s, tail);
    } else {
      assert s + tail == s;
    }
  }

  /** An array reads as its first element: `parseInt([7, 8])` is `parseInt(7)`. */
  lemma ArrayIntReadsFirstElement(first: Json, rest: seq<Json>)
    requires !first.Null?
    ensures ParseIntValue(Some(Arr([first] + rest))) == ParseIntValue(Some(first))
  {
  }

  function Pow10(k: nat): nat {
    if k == 0 then 1 else 10 * Pow10(k - 1)
  }

  lemma {:induction false} Pow10Add(a: nat, b: nat)
    ensures Pow10(a + b) == Pow10(a) * Pow10(b)
  {
    if a > 0 {
      Pow10Add(a - 1, b);
    }
  }

  lemma {:induction false} LeadingDigitOfPow10(k: nat)
    ensures Pow10(k) > 0 && LeadingDigitOfNat(Pow10(k)) == 1
  {
    if k > 0 {
      assert Pow10(k) / 10 == Pow10(k - 1);
      LeadingDigitOfPow10(k - 1);
    }
  }

  /** `parseInt([1200])` is 1200. */
  lemma ArrayIntExamples()
    ensures ParseIntValue(Some(Arr([Num(1200.0)]))) == Some(1200)
  {
    assert !ExponentForm(1200.0);
  }

  /** `parseInt(["12abc", 5])` is 12: the string is read up to its letters, and the rest never. */
  lemma ArrayTextIntExample()
    ensures ParseIntValue(Some(Arr([Str("12abc"), Num(5.0)]))) == Some(12)
  {
    assert [Str("12abc"), Num(5.0)] == [Str("12abc")] + [Num(5.0)];
    ArrayIntReadsFirstText("12abc", [Num(5.0)], "");
    JsText.ParseIntOfDigitsThenLetters();
  }

  /** `parseInt(1e21)` and `parseInt(1e-7)` are 1, `parseInt(-2.5e-7)` is -2, `parseInt(1200.7)` is 1200. */
  lemma ExponentIntExamples()
    ensures IntOfNumber(1000000000000000000000.0) == 1
    ensures IntOfNumber(0.0000001) == 1
    ensures IntOfNumber(-0.00000025) == -2
    ensures IntOfNumber(1200.7) == 1200
  {
    LeadingDigitOfPow10(21);
    Pow10Add(7, 14);
    Pow10Add(7, 7);
    assert ScaleToUnit(0.0000001) == 1.0;
    assert ScaleToUnit(0.00000025) == 2.5;
  }
}

=== FILE: location_routes.dfy ===
/**
 * The `/location` routes: airports near a point (through `GEORADIUS`, with a bounding-box
 * search of the documents as fallback) and the distance between two airports.
 *
 * Great-circle distance (`calculateDistance`, rounded to two decimals) is the parameter
 * `distance`; the longitude half-width of the fallback box, which needs a cosine, is the
 * parameter `lngDelta`.
 */
module LocationRoutes {
  import opened Wrappers
  import JsText
  import opened AirportModel
  import opened Indexes
  import opened Http
  import Seqs
  import Sorting

  /** One element of a `GEORADIUS ... WITHCOORD WITHDIST` reply. */
  datatype GeoItem =
    | Entry(code: string, distance: real)  // an array of at least three elements
    | Malformed                            // anything else, which the route skips

  /** A document with the `distance_km` attached to it. */
  datatype Near = Near(airport: Airport, distance: real)

  function NearKey(n: Near): real { n.distance }

  /** `radius = 1000` when the query has none. */
  const DefaultRadius: real := 1000.0

  /** How many candidates the fallback reads from the box. */
  const FallbackLimit: nat := 200

  /** Kilometres per degree of latitude in the fallback box. */
  const KmPerDegree: real := 111.0

  predicate IsEntryFor(item: GeoItem, code: string) {
    item.Entry? && item.code == code
  }

  /** The codes of the well-formed entries, in reply order. */
  function EntryCodes(items: seq<GeoItem>): (codes: seq<string>)
    ensures |codes| <= |items|
    ensures forall c :: c in codes <==> exists i :: 0 <= i < |items| && IsEntryFor(items[i], c)
  {
    if |items| == 0 then []
    else
      var rest := EntryCodes(items[1..]);
      assert forall i :: 1 <= i < |items| ==> items[i] == items[1..][i - 1];
      match items[0]
      case Entry(c, _) => [c] + rest
      case Malformed => rest
  }

  /**
   * The distance `distanceMap` holds for `code`: `Map.set` overwrites, so the last entry for
   * the code wins.
   */
  function LastDistance(items: seq<GeoItem>, code: string): (r: Option<real>)
    ensures r.None? <==> forall i :: 0 <= i < |items| ==> !IsEntryFor(items[i], code)
    ensures r.Some? ==> exists i :: (0 <= i < |items| && items[i] == Entry(code, r.value) &&
      forall j :: i < j < |items| ==> !IsEntryFor(items[j], code))
  {
    if |items| == 0 then None
    else
      var last := items[|items| - 1];
      var init := items[..|items| - 1];
      assert forall i :: 0 <= i < |init| ==> init[i] == items[i];
      if last.Entry? && last.code == code then Some(last.distance) else LastDistance(init, code)
  }

  /** A later entry for a code replaces the distance of any earlier one. */
  lemma LastEntryWins(items: seq<GeoItem>, code: string, d: real)
    ensures LastDistance(items + [Entry(code, d)], code) == Some(d)
  {
  }

  /** Malformed entries and entries for other codes do not change a code's distance. */
  lemma {:induction false} OtherEntriesIgnored(items: seq<GeoItem>, code: string, more: seq<GeoItem>)
    requires forall i :: 0 <= i < |more| ==> !IsEntryFor(more[i], code)
    ensures LastDistance(items + more, code) == LastDistance(items, code)
  {
    if |more| > 0 {
      var init := more[..|more| - 1];
      assert (items + more)[..|items + more| - 1] == items + init;
      OtherEntriesIgnored(items, code, init);
    } else {
      assert items + more == items;
    }
  }

  function HasDistanceIn(items: seq<GeoItem>): Airport -> bool {
    a => LastDistance(items, IndexKey(a)).Some?
  }

  /** A document the reply answers: requested by an entry code, and its key given a distance. */
  function JoinedBy(items: seq<GeoItem>): Airport -> bool {
    a => Requested(a, EntryCodes(items)) && LastDistance(items, IndexKey(a)).Some?
  }

  function Measured(found: seq<Airport>, items: seq<GeoItem>): (r: seq<Near>)
    requires forall i :: 0 <= i < |found| ==> LastDistance(items, IndexKey(found[i])).Some?
    ensures |r| == |found|
    ensures forall i :: 0 <= i < |r| ==> r[i] == Near(found[i], LastDistance(items, IndexKey(found[i])).value)
  {
    seq(|found|, i requires 0 <= i < |found| => Near(found[i], LastDistance(items, IndexKey(found[i])).value))
  }

  /**
   * The `GEORADIUS` path: the documents answering to any entry's code, each with the distance
   * of its own key; a document found through its other code, whose key has no entry, is
   * dropped. Nearest first.
   */
  function FromGeoReply(docs: seq<Airport>, items: seq<GeoItem>): (r: seq<Near>)
    ensures |r| == Seqs.Count(docs, JoinedBy(items)) <= |docs|
    ensures Sorting.SortedBy(r, NearKey)
    ensures forall i :: 0 <= i < |r| ==>
      && r[i].airport in docs
      && Requested(r[i].airport, EntryCodes(items))
      && LastDistance(items, IndexKey(r[i].airport)) == Some(r[i].distance)
    ensures forall i :: (0 <= i < |docs| && Requested(docs[i], EntryCodes(items)) &&
      LastDistance(items, IndexKey(docs[i])).Some?) ==>
        Near(docs[i], LastDistance(items, IndexKey(docs[i])).value) in r
  {
    var found := Seqs.Filter(docs, RequestedBy(EntryCodes(items)));
    var kept := Seqs.Filter(found, HasDistanceIn(items));
    var joined := Measured(kept, items);
    var r := Sorting.SortBy(joined, NearKey);
    Seqs.FilterFilter(docs, RequestedBy(EntryCodes(items)), HasDistanceIn(items), JoinedBy(items));
    GeoReplyFacts(docs, items, found, kept, joined, r);
    r
  }

  lemma GeoReplyFacts(docs: seq<Airport>, items: seq<GeoItem>, found: seq<Airport>, kept: seq<Airport>,
                      joined: seq<Near>, r: seq<Near>)
    requires found == Seqs.Filter(docs, RequestedBy(EntryCodes(items)))
    requires kept == Seqs.Filter(found, HasDistanceIn(items))
    requires forall i :: 0 <= i < |kept| ==> LastDistance(items, IndexKey(kept[i])).Some?
    requires joined == Measured(kept, items)
    requires multiset(r) == multiset(joined)
    ensures forall i :: 0 <= i < |r| ==>
      && r[i].airport in docs
      && Requested(r[i].airport, EntryCodes(items))
      && LastDistance(items, IndexKey(r[i].airport)) == Some(r[i].distance)
    ensures forall i :: (0 <= i < |docs| && Requested(docs[i], EntryCodes(items)) &&
      LastDistance(items, IndexKey(docs[i])).Some?) ==>
        Near(docs[i], LastDistance(items, IndexKey(docs[i])).value) in r
  {
    GeoReplySound(docs, items, found, kept, joined, r);
    GeoReplyComplete(docs, items, found, kept, joined, r);
  }

  lemma GeoReplySound(docs: seq<Airport>, items: seq<GeoItem>, found: seq<Airport>, kept: seq<Airport>,
                      joined: seq<Near>, r: seq<Near>)
    requires found == Seqs.Filter(docs, RequestedBy(EntryCodes(items)))
    requires kept == Seqs.Filter(found, HasDistanceIn(items))
    requires forall i :: 0 <= i < |kept| ==> LastDistance(items, IndexKey(kept[i])).Some?
    requires joined == Measured(kept, items)
    requires multiset(r) == multiset(joined)
    ensures forall i :: 0 <= i < |r| ==>
      && r[i].airport in docs
      && Requested(r[i].airport, EntryCodes(items))
      && LastDistance(items, IndexKey(r[i].airport)) == Some(r[i].distance)
  {
    forall i | 0 <= i < |r|
      ensures r[i].airport in docs && Requested(r[i].airport, EntryCodes(items))
      ensures LastDistance(items, IndexKey(r[i].airport)) == Some(r[i].distance)
    {
      assert r[i] in multiset(r);
      var k :| 0 <= k < |joined| && joined[k] == r[i];
      assert kept[k] in found;
      assert RequestedBy(EntryCodes(items))(kept[k]);
    }
  }

  lemma GeoReplyComplete(docs: seq<Airport>, items: seq<GeoItem>, found: seq<Airport>, kept: seq<Airport>,
                         joined: seq<Near>, r: seq<Near>)
    requires found == Seqs.Filter(docs, RequestedBy(EntryCodes(items)))
    requires kept == Seqs.Filter(found, HasDistanceIn(items))
    requires forall i :: 0 <= i < |kept| ==> LastDistance(items, IndexKey(kept[i])).Some?
    requires joined == Measured(kept, items)
    requires multiset(r) == multiset(joined)
    ensures forall i :: (0 <= i < |docs| && Requested(docs[i], EntryCodes(items)) &&
      LastDistance(items, IndexKey(docs[i])).Some?) ==>
        Near(docs[i], LastDistance(items, IndexKey(docs[i])).value) in r
  {
    forall i | 0 <= i < |docs| && Requested(docs[i], EntryCodes(items)) && LastDistance(items, IndexKey(docs[i])).Some?
      ensures Near(docs[i], LastDistance(items, IndexKey(docs[i])).value) in r
    {
      assert RequestedBy(EntryCodes(items))(docs[i]);
      var f :| 0 <= f < |found| && found[f] == docs[i];
      assert HasDistanceIn(items)(found[f]);
      var k :| 0 <= k < |kept| && kept[k] == docs[i];
      assert joined[k] == Near(docs[i], LastDistance(items, IndexKey(docs[i])).value);
      assert joined[k] in multiset(joined);
    }
  }

  /** A document reached through its `ident` while its key is an IATA code with no entry is left out. */
  lemma FoundByOtherCodeDropped(docs: seq<Airport>, items: seq<GeoItem>, a: Airport)
    requires HasIata(a) && a.ident in EntryCodes(items)
    requires forall i :: 0 <= i < |items| ==> !IsEntryFor(items[i], a.iataCode.value)
    ensures forall n :: n in FromGeoReply(docs, items) ==> n.airport != a
  {
  }

  /** The documents inside the search box around the centre. */
  predicate InBox(a: Airport, lat: real, lon: real, latDelta: real, lngDelta: real) {
    lat - latDelta <= a.latitude <= lat + latDelta && lon - lngDelta <= a.longitude <= lon + lngDelta
  }

  function InBoxOf(lat: real, lon: real, latDelta: real, lngDelta: real): Airport -> bool {
    a => InBox(a, lat, lon, latDelta, lngDelta)
  }

  function MeasureAll(candidates: seq<Airport>, lat: real, lon: real, distance: (real, real, real, real) -> real)
    : (r: seq<Near>)
    ensures |r| == |candidates|
    ensures forall i :: 0 <= i < |r| ==> r[i] == Near(candidates[i], distance(lat, lon, candidates[i].latitude, candidates[i].longitude))
  {
    seq(|candidates|, i requires 0 <= i < |candidates| =>
      Near(candidates[i], distance(lat, lon, candidates[i].latitude, candidates[i].longitude)))
  }

  function WithinRadius(radius: real): Near -> bool {
    (n: Near) => n.distance <= radius
  }

  /** A candidate whose distance from the point is within the radius. */
  function CloseBy(lat: real, lon: real, radius: real, distance: (real, real, real, real) -> real): Airport -> bool {
    (a: Airport) => distance(lat, lon, a.latitude, a.longitude) <= radius
  }

  /** The radius filter keeps one measured entry per candidate within the radius. */
  lemma {:induction false} WithinRadiusCount(candidates: seq<Airport>, lat: real, lon: real, radius: real,
                                             distance: (real, real, real, real) -> real)
    ensures |Seqs.Filter(MeasureAll(candidates, lat, lon, distance), WithinRadius(radius))|
         == Seqs.Count(candidates, CloseBy(lat, lon, radius, distance))
  {
    if |candidates| > 0 {
      var m := MeasureAll(candidates, lat, lon, distance);
      assert m[1..] == MeasureAll(candidates[1..], lat, lon, distance);
      WithinRadiusCount(candidates[1..], lat, lon, radius, distance);
    }
  }

  /** The first 200 documents of the box, in natural order. */
  function BoxCandidates(docs: seq<Airport>, lat: real, lon: real, radius: real, lngDelta: real): (c: seq<Airport>)
    ensures |c| <= FallbackLimit
    ensures forall i :: 0 <= i < |c| ==> c[i] in docs && InBox(c[i], lat, lon, radius / KmPerDegree, lngDelta)
  {
    Seqs.Take(Seqs.Filter(docs, InBoxOf(lat, lon, radius / KmPerDegree, lngDelta)), FallbackLimit)
  }

  /**
   * `fallbackNearbySearch`: at most 200 documents of the box (`radius / 111` degrees of
   * latitude, `lngDelta` of longitude), those whose distance is within the radius, nearest
   * first.
   */
  function Fallback(docs: seq<Airport>, lat: real, lon: real, radius: real, lngDelta: real,
                    distance: (real, real, real, real) -> real): (r: seq<Near>)
    ensures |r| == Seqs.Count(BoxCandidates(docs, lat, lon, radius, lngDelta), CloseBy(lat, lon, radius, distance))
    ensures |r| <= FallbackLimit && |r| <= |docs|
    ensures Sorting.SortedBy(r, NearKey)
    ensures forall i :: 0 <= i < |r| ==>
      && r[i].airport in docs
      && InBox(r[i].airport, lat, lon, radius / KmPerDegree, lngDelta)
      && r[i].distance == distance(lat, lon, r[i].airport.latitude, r[i].airport.longitude)
      && r[i].distance <= radius
    ensures forall a :: (a in BoxCandidates(docs, lat, lon, radius, lngDelta) &&
      distance(lat, lon, a.latitude, a.longitude) <= radius) ==>
        Near(a, distance(lat, lon, a.latitude, a.longitude)) in r
  {
    var candidates := BoxCandidates(docs, lat, lon, radius, lngDelta);
    var measured := MeasureAll(candidates, lat, lon, distance);
    var kept := Seqs.Filter(measured, WithinRadius(radius));
    var r := Sorting.SortBy(kept, NearKey);
    WithinRadiusCount(candidates, lat, lon, radius, distance);
    FallbackFacts(candidates, lat, lon, radius, distance, measured, kept, r);
    r
  }

  lemma FallbackFacts(candidates: seq<Airport>, lat: real, lon: real, radius: real,
                      distance: (real, real, real, real) -> real, measured: seq<Near>, kept: seq<Near>, r: seq<Near>)
    requires measured == MeasureAll(candidates, lat, lon, distance)
    requires kept == Seqs.Filter(measured, WithinRadius(radius))
    requires multiset(r) == multiset(kept)
    ensures forall i :: 0 <= i < |r| ==>
      && r[i].airport in candidates
      && r[i].distance == distance(lat, lon, r[i].airport.latitude, r[i].airport.longitude)
      && r[i].distance <= radius
    ensures forall a :: a in candidates && distance(lat, lon, a.latitude, a.longitude) <= radius ==>
      Near(a, distance(lat, lon, a.latitude, a.longitude)) in r
  {
    forall i | 0 <= i < |r|
      ensures r[i].airport in candidates
      ensures r[i].distance == distance(lat, lon, r[i].airport.latitude, r[i].airport.longitude)
      ensures r[i].distance <= radius
    {
      assert r[i] in multiset(r);
      assert r[i] in kept;
      assert WithinRadius(radius)(r[i]);
      var k :| 0 <= k < |measured| && measured[k] == r[i];
    }
    forall a | a in candidates && distance(lat, lon, a.latitude, a.longitude) <= radius
      ensures Near(a, distance(lat, lon, a.latitude, a.longitude)) in r
    {
      var k :| 0 <= k < |candidates| && candidates[k] == a;
      assert WithinRadius(radius)(measured[k]);
      assert measured[k] in kept;
      assert measured[k] in multiset(kept);
    }
  }

  /**
   * With fewer than 200 documents in the box, the fallback misses none within the radius.
   */
  lemma FallbackCompleteWhenBoxIsSmall(docs: seq<Airport>, lat: real, lon: real, radius: real, lngDelta: real,
                                       distance: (real, real, real, real) -> real, a: Airport)
    requires Seqs.Count(docs, InBoxOf(lat, lon, radius / KmPerDegree, lngDelta)) <= FallbackLimit
    requires a in docs && InBox(a, lat, lon, radius / KmPerDegree, lngDelta)
    requires distance(lat, lon, a.latitude, a.longitude) <= radius
    ensures Near(a, distance(lat, lon, a.latitude, a.longitude)) in Fallback(docs, lat, lon, radius, lngDelta, distance)
  {
    var i :| 0 <= i < |docs| && docs[i] == a;
    assert InBoxOf(lat, lon, radius / KmPerDegree, lngDelta)(docs[i]);
  }

  /**
   * GET `/nearby`. Without `lat` or `lon` it is a 400. A coordinate or radius that reads as
   * `NaN` always ends in the box search: directly without a client, or after Redis rejects
   * the command; there the store cannot cast the `NaN` bounds of the box to numbers and the
   * fallback answers 500. Otherwise the `GEORADIUS` reply is used when it holds at least one
   * well-formed entry; a missing client, a failing command, an empty reply or one with
   * only malformed entries falls back to the box search.
   */
  function Nearby(docs: seq<Airport>, lat: Option<string>, lon: Option<string>, radius: Option<string>,
                  parseFloat: string -> Option<real>, reply: RedisReply<seq<GeoItem>>,
                  distance: (real, real, real, real) -> real, lngDelta: real): (r: Response<seq<Near>>)
    ensures !Given(lat) || !Given(lon) <==> r == Err(MissingFields)
    ensures r.Err? ==> r.failure == MissingFields || r.failure == ServerError
    ensures Given(lat) && Given(lon) ==>
      var la := parseFloat(lat.value);
      var lo := parseFloat(lon.value);
      var ra := if radius.Some? then parseFloat(radius.value) else Some(DefaultRadius);
      && (la.None? || lo.None? || ra.None? <==> r == Err(ServerError))
      && (la.Some? && lo.Some? && ra.Some? ==>
            && (reply.Replied? && EntryCodes(reply.value) != [] ==> r == Ok(FromGeoReply(docs, reply.value)))
            && (!reply.Replied? || EntryCodes(reply.value) == [] ==>
                  r == Ok(Fallback(docs, la.value, lo.value, ra.value, lngDelta, distance))))
  {
    if !Given(lat) || !Given(lon) then Err(MissingFields)
    else
      var la := parseFloat(lat.value);
      var lo := parseFloat(lon.value);
      var ra := if radius.Some? then parseFloat(radius.value) else Some(DefaultRadius);
      if la.None? || lo.None? || ra.None? then Err(ServerError)
      else match reply
        case Replied(items) =>
          if |items| == 0 || EntryCodes(items) == [] then Ok(Fallback(docs, la.value, lo.value, ra.value, lngDelta, distance))
          else Ok(FromGeoReply(docs, items))
        case _ => Ok(Fallback(docs, la.value, lo.value, ra.value, lngDelta, distance))
  }

  /**
   * A `GEORADIUS` reply with entries none of which any document answers to gives an empty
   * answer, and the box search is not tried.
   */
  lemma NoFallbackAfterEmptyHydration(docs: seq<Airport>, items: seq<GeoItem>)
    requires forall i :: 0 <= i < |docs| ==> !Requested(docs[i], EntryCodes(items))
    ensures FromGeoReply(docs, items) == []
  {
    assert forall a :: a in docs ==> !Requested(a, EntryCodes(items));
  }

  // ----- GET /distance/:code1/:code2 -----

  datatype Endpoint = Endpoint(code: string, name: string, latitude: real, longitude: real)

  datatype DistanceReport = DistanceReport(first: Endpoint, second: Endpoint, km: real)

  function EndpointOf(a: Airport): Endpoint {
    Endpoint(IndexKey(a), a.name, a.latitude, a.longitude)
  }

  /**
   * GET `/distance/:code1/:code2`: both codes upper-cased, and exactly two documents must
   * answer to them (404 otherwise); the first two in natural order are reported, in that order.
   */
  function DistanceBetween(docs: seq<Airport>, code1: string, code2: string,
                           distance: (real, real, real, real) -> real): (r: Response<DistanceReport>)
    ensures var codes := [JsText.ToUpper(code1), JsText.ToUpper(code2)];
      r.Ok? <==> Seqs.Count(docs, RequestedBy(codes)) == 2
    ensures r.Err? ==> r.failure == NotFound
    ensures r.Ok? ==>
      var found := Seqs.Filter(docs, RequestedBy([JsText.ToUpper(code1), JsText.ToUpper(code2)]));
      && r.value.first == EndpointOf(found[0]) && r.value.second == EndpointOf(found[1])
      && r.value.km == distance(found[0].latitude, found[0].longitude, found[1].latitude, found[1].longitude)
  {
    var found := Seqs.Filter(docs, RequestedBy([JsText.ToUpper(code1), JsText.ToUpper(code2)]));
    if |found| != 2 then Err(NotFound)
    else
      Ok(DistanceReport(EndpointOf(found[0]), EndpointOf(found[1]),
        distance(found[0].latitude, found[0].longitude, found[1].latitude, found[1].longitude)))
  }

  /**
   * The same code twice is answered only when two documents answer to it (one through
   * `iata_code`, another through `ident`); a code of a single airport gives a 404.
   */
  lemma SameCodeTwice(docs: seq<Airport>, code: string, distance: (real, real, real, real) -> real)
    requires DistanceBetween(docs, code, code, distance).Ok?
    ensures exists i, j :: (0 <= i < j < |docs| && Requested(docs[i], [JsText.ToUpper(code)]) &&
      Requested(docs[j], [JsText.ToUpper(code)]))
  {
    var c := JsText.ToUpper(code);
    var found := Seqs.Filter(docs, RequestedBy([c, c]));
    assert |found| == 2;
    assert Seqs.Filter(docs, RequestedBy([c, c])) == Seqs.Filter(docs[..], RequestedBy([c, c]));
    FilterTwoPositions(docs, RequestedBy([c, c]));
    var i, j :| 0 <= i < j < |docs| && RequestedBy([c, c])(docs[i]) && RequestedBy([c, c])(docs[j]);
    assert Requested(docs[i], [c]) && Requested(docs[j], [c]);
  }

  /** A filtered element comes from a position of the input. */
  lemma FilterOnePosition<T>(s: seq<T>, p: T -> bool)
    requires |Seqs.Filter(s, p)| >= 1
    ensures exists j :: 0 <= j < |s| && p(s[j])
  {
    var x := Seqs.Filter(s, p)[0];
    assert x in s && p(x);
  }

  /** Two filtered elements come from two different positions of the input. */
  lemma {:induction false} FilterTwoPositions<T>(s: seq<T>, p: T -> bool)
    requires |Seqs.Filter(s, p)| >= 2
    ensures exists i, j :: 0 <= i < j < |s| && p(s[i]) && p(s[j])
  {
    if p(s[0]) {
      assert Seqs.Filter(s, p) == [s[0]] + Seqs.Filter(s[1..], p);
      FilterOnePosition(s[1..], p);
      var j :| 0 <= j < |s[1..]| && p(s[1..][j]);
      assert p(s[j + 1]);
    } else {
      assert Seqs.Filter(s, p) == Seqs.Filter(s[1..], p);
      FilterTwoPositions(s[1..], p);
      var i, j :| 0 <= i < j < |s[1..]| && p(s[1..][i]) && p(s[1..][j]);
      assert p(s[i + 1]) && p(s[j + 1]);
    }
  }
}

=== FILE: manage_page.dfy ===
/**
 * The management page: its search, whose code test differs from the home page's, the
 * selection of an airport from the results, and what a change made in the airport
 * manager does to the page.
 */
module ManagePage {
  import opened Wrappers
  import JsText
  import opened AirportModel
  import AirportSearch
  import SearchBox

  /** The limit the page asks the text search for. */
  const TextLimit: nat := 20

  /** The `isCode` test: three or four letters and digits, in either case, `/^[A-Z0-9]{3,4}$/i`. */
  function IsCode(query: string): (b: bool)
    ensures b ==> !JsText.IsBlank(query) && 3 <= |JsText.Trim(query)| <= 4
  {
    var t := JsText.Trim(query);
    3 <= |t| <= 4 && forall i :: 0 <= i < |t| ==> SearchBox.IsAlnum(t[i])
  }

  /** Every code of the home page is a code here. */
  lemma AirportCodeIsCode(query: string)
    requires SearchBox.IsAirportCode(query)
    ensures IsCode(query)
  {
  }

  /** The two classifiers disagree: "A1B" is a code here and text on the home page. */
  lemma ClassifiersDiffer()
    ensures IsCode("A1B") && !SearchBox.IsAirportCode("A1B")
  {
    JsText.TrimStartOfNoLeadingSpace("A1B");
    JsText.TrimEndOfNoTrailingSpace("A1B");
    SearchBox.ThreeWithDigitIsText("A1B", 1);
  }

  datatype Page = Page(query: string, results: seq<Airport>, selected: Option<Airport>, refresh: nat)

  /** `handleSearch`: a blank query changes nothing; otherwise the results are replaced. */
  function HandleSearch(p: Page, api: AirportSearch.Api): (r: Page)
    ensures JsText.IsBlank(p.query) ==> r == p
    ensures !JsText.IsBlank(p.query) ==> r == p.(results := AirportSearch.Search(p.query, IsCode, Some(TextLimit), api).value)
    ensures r.query == p.query && r.selected == p.selected && r.refresh == p.refresh
  {
    match AirportSearch.Search(p.query, IsCode, Some(TextLimit), api)
    case None => p
    case Some(results) => p.(results := results)
  }

  /** Searching again without editing the query shows the same results. */
  lemma HandleSearchIdempotent(p: Page, api: AirportSearch.Api)
    ensures HandleSearch(HandleSearch(p, api), api) == HandleSearch(p, api)
  {
  }

  /** A failed code lookup falls back to the text search with the page's limit. */
  lemma CodeMissFallsBackWithLimit(p: Page, api: AirportSearch.Api)
    requires !JsText.IsBlank(p.query) && api.byCode(JsText.Trim(p.query)).None?
    ensures HandleSearch(p, api).results == AirportSearch.TextResults(api, JsText.Trim(p.query), Some(20))
  {
  }

  /** `handleAirportSelect`: the selected airport is deselected, any other is selected. */
  function Select(p: Page, a: Airport): (r: Page)
    ensures p.selected.Some? && p.selected.value.id == a.id ==> r.selected.None?
    ensures p.selected.None? || p.selected.value.id != a.id ==> r.selected == Some(a)
    ensures r.query == p.query && r.results == p.results && r.refresh == p.refresh
  {
    p.(selected := if p.selected.Some? && p.selected.value.id == a.id then None else Some(a))
  }

  /** Selecting an airport that was not selected, then selecting it again, leaves nothing selected. */
  lemma SelectTwiceClears(p: Page, a: Airport)
    requires p.selected.None? || p.selected.value.id != a.id
    ensures Select(Select(p, a), a).selected.None?
  {
  }

  /** The page the first-load effect asks for: `getAirports(1, 12)`. */
  const InitialPageSize: nat := 12

  /**
   * The first-load effect on mount: the airports of the first page, or an empty list when the
   * request fails (`reload` is that page, `None` for a failure or an answer without airports).
   */
  function Mount(reload: Option<seq<Airport>>): (r: Page)
    ensures r.query == "" && r.selected.None? && r.refresh == 0
    ensures reload.Some? ==> r.results == reload.value
    ensures reload.None? ==> r.results == []
  {
    Page("", reload.GetOr([]), None, 0)
  }

  /** Which of two pending writes of the results lands last. */
  datatype Finish = SearchLast | ReloadLast

  /**
   * `handleAirportChange`: the refresh counter steps by one, the selection is cleared, and a
   * non-blank query is searched again. The new counter reruns the first-load effect, whose
   * page `reload` also replaces the results when it arrives; with a search pending too, the
   * one that finishes last (`last`) decides.
   */
  function AirportChange(p: Page, api: AirportSearch.Api, reload: Option<seq<Airport>>, last: Finish): (r: Page)
    ensures r.refresh == p.refresh + 1 && r.selected.None? && r.query == p.query
    ensures reload.Some? && (JsText.IsBlank(p.query) || last == ReloadLast) ==> r.results == reload.value
    ensures !JsText.IsBlank(p.query) && (reload.None? || last == SearchLast) ==> r.results == HandleSearch(p, api).results
    ensures JsText.IsBlank(p.query) && reload.None? ==> r.results == p.results
  {
    var cleared := p.(refresh := p.refresh + 1, selected := None);
    var searched := HandleSearch(cleared, api);
    var reloaded := if reload.Some? then cleared.(results := reload.value) else cleared;
    if JsText.IsBlank(p.query) then reloaded
    else if reload.None? || last == SearchLast then searched
    else searched.(results := reload.value)
  }

  /** With a blank query and a working reload, a change always shows the first page again. */
  lemma BlankChangeShowsFirstPage(p: Page, q: Page, api: AirportSearch.Api, page: seq<Airport>, last: Finish)
    requires JsText.IsBlank(p.query) && JsText.IsBlank(q.query)
    ensures AirportChange(p, api, Some(page), last).results == AirportChange(q, api, Some(page), last).results
    ensures AirportChange(p, api, Some(page), last).results == Mount(Some(page)).results
  {
  }
}

=== FILE: script_import.dfy ===
/**
 * The stand-alone import script: reading the data file (with a per-line fallback when the
 * whole text is not JSON), its own, stricter conversion of raw items, and the full reload of
 * the catalogue and both Redis indexes in batches of 100.
 */
module ScriptImport {
  import opened Wrappers
  import JsText
  import opened JsValue
  import opened AirportModel
  import opened Indexes
  import TextLines
  import AirportRoutes
  import opened ImportCommon

  const LatitudeFields: seq<string> := ["lat", "latitude", "latitude_deg"]
  const LongitudeFields: seq<string> := ["lng", "lon", "longitude", "longitude_deg"]
  const NameFields: seq<string> := ["name", "airport_name", "facility_name"]
  const ElevationFields: seq<string> := ["alt", "elevation", "elevation_ft"]
  const IataFields: seq<string> := ["iata_faa", "iata"]
  const IdentFields: seq<string> := ["icao", "ident", "iata_faa"]
  const BatchSize: nat := 100

  /** `item[names[0]] || item[names[1]] || ... || fallback`. */
  function FirstOf(item: Json, names: seq<string>, fallback: Option<Json>): (r: Option<Json>)
    ensures forall k :: (0 <= k < |names| && Truthy(Get(item, names[k])) &&
                         forall i :: 0 <= i < k ==> !Truthy(Get(item, names[i]))) ==> r == Get(item, names[k])
    ensures (forall i :: 0 <= i < |names| ==> !Truthy(Get(item, names[i]))) ==> r == fallback
  {
    var vs := Fields(item, names);
    assert forall k :: (0 <= k < |vs| && Truthy(vs[k]) && forall i :: 0 <= i < k ==> !Truthy(vs[i])) ==>
      FirstTruthy(vs, fallback) == vs[k] by {
      forall k | 0 <= k < |vs| && Truthy(vs[k]) && forall i :: 0 <= i < k ==> !Truthy(vs[i])
        ensures FirstTruthy(vs, fallback) == vs[k]
      {
        FirstTruthyIsFirst(vs, fallback, k);
      }
    }
    assert (forall i :: 0 <= i < |vs| ==> !Truthy(vs[i])) ==> FirstTruthy(vs, fallback) == fallback by {
      if forall i :: 0 <= i < |vs| ==> !Truthy(vs[i]) {
        FirstTruthyNone(vs, fallback);
      }
    }
    FirstTruthy(vs, fallback)
  }

  // ----- the fields of one item -----

  /**
   * `Number.parseFloat(a || b || ... || 0)`: only the first truthy field is read, and `None`
   * (`NaN`) when it is not a number; `0` when no field is truthy.
   */
  function Coordinate(item: Json, fields: seq<string>, pf: string -> Option<real>): (r: Option<real>)
    ensures forall k :: (0 <= k < |fields| && Truthy(Get(item, fields[k])) &&
                         forall i :: 0 <= i < k ==> !Truthy(Get(item, fields[i]))) ==> r == ParseFloat(Get(item, fields[k]), pf)
    ensures (forall i :: 0 <= i < |fields| ==> !Truthy(Get(item, fields[i]))) ==> r == Some(0.0)
  {
    ParseFloat(FirstOf(item, fields, Some(Num(0.0))), pf)
  }

  /** Both coordinates are numbers, neither is 0, and they lie in `[-90, 90]` and `[-180, 180]`. */
  predicate Usable(lat: Option<real>, lng: Option<real>) {
    && lat.Some? && lng.Some? && lat.value != 0.0 && lng.value != 0.0
    && -90.0 <= lat.value <= 90.0 && -180.0 <= lng.value <= 180.0
  }

  /** `` `Airport ${index + 1}` ``, the name of an item without one. */
  function DefaultName(index: nat): (n: string)
    ensures !JsText.IsBlank(n) && JsText.Trim(n) == n
  {
    var n := "Airport " + JsText.NatToString(index + 1);
    assert n[|n| - 1] == JsText.NatToString(index + 1)[|JsText.NatToString(index + 1)| - 1];
    TrimOfPlain(n);
    n
  }

  /**
   * The stored name: the first truthy name field, else `DefaultName`, trimmed. `None` when
   * the item is skipped: the value is blank, or is not a string so that `trim` throws.
   */
  function Name(item: Json, index: nat): (r: Option<string>)
    ensures r.Some? ==> !JsText.IsBlank(r.value) && JsText.Trim(r.value) == r.value
    ensures forall k :: (0 <= k < |NameFields| && Truthy(Get(item, NameFields[k])) &&
                         forall i :: 0 <= i < k ==> !Truthy(Get(item, NameFields[i]))) ==>
      && (r.Some? <==> Get(item, NameFields[k]).value.Str? && !JsText.IsBlank(Get(item, NameFields[k]).value.s))
      && (r.Some? ==> r.value == JsText.Trim(Get(item, NameFields[k]).value.s))
    ensures (forall i :: 0 <= i < |NameFields| ==> !Truthy(Get(item, NameFields[i]))) ==> r == Some(DefaultName(index))
  {
    var v := FirstOf(item, NameFields, Some(Str(DefaultName(index))));
    if v.Some? && v.value.Str? && !JsText.IsBlank(v.value.s) then
      JsText.TrimIdempotent(v.value.s);
      Some(JsText.Trim(v.value.s))
    else None
  }

  /** `Number.parseInt(a || b || c || 0) || 0`: the first truthy field read as an integer, `0` for `NaN`. */
  function Elevation(item: Json): (e: int)
    ensures forall k :: (0 <= k < |ElevationFields| && Truthy(Get(item, ElevationFields[k])) &&
                         forall i :: 0 <= i < k ==> !Truthy(Get(item, ElevationFields[i]))) ==>
      e == ParseIntValue(Get(item, ElevationFields[k])).GetOr(0)
    ensures (forall i :: 0 <= i < |ElevationFields| ==> !Truthy(Get(item, ElevationFields[i]))) ==> e == 0
  {
    ParseIntValue(FirstOf(item, ElevationFields, Some(Num(0.0)))).GetOr(0)
  }

  /** `{"alt": [1200]}`: `Number.parseInt([1200]) || 0` is 1200. */
  lemma ArrayElevation()
    ensures Elevation(Obj(map["alt" := Arr([Num(1200.0)])])) == 1200
  {
    var item := Obj(map["alt" := Arr([Num(1200.0)])]);
    assert Get(item, ElevationFields[0]) == Some(Arr([Num(1200.0)]));
    JsValue.ArrayIntExamples();
  }

  /**
   * One raw item at position `index` as an airport document; `None` when it is not an
   * object, its coordinates are not `Usable`, or its name is unusable.
   */
  function ConvertItem(item: Json, index: nat, pf: string -> Option<real>, cast: Json -> string): (r: Option<Airport>)
    ensures r.Some? <==>
      IsObject(item) && Usable(Coordinate(item, LatitudeFields, pf), Coordinate(item, LongitudeFields, pf)) &&
      Name(item, index).Some?
    ensures r.Some? ==> r.value.id == index + 1
    ensures r.Some? ==> Some(r.value.latitude) == Coordinate(item, LatitudeFields, pf)
    ensures r.Some? ==> Some(r.value.longitude) == Coordinate(item, LongitudeFields, pf)
    ensures r.Some? ==> Usable(Some(r.value.latitude), Some(r.value.longitude))
    ensures r.Some? ==> Some(r.value.name) == Name(item, index) && r.value.keywords == Some(r.value.name)
    ensures r.Some? ==> !JsText.IsBlank(r.value.name)
    ensures r.Some? ==> r.value.ident == TextOr(item, IdentFields, UnknownIdent(index), cast)
    ensures r.Some? ==> r.value.iataCode == ThreeLetterCode(FirstTruthy(Fields(item, IataFields), None), cast)
    ensures r.Some? ==> r.value.gpsCode == TextOrNull(item, ["icao", "gps_code"], cast)
  {
    var lat := Coordinate(item, LatitudeFields, pf);
    var lng := Coordinate(item, LongitudeFields, pf);
    var name := Name(item, index);
    if !IsObject(item) || !Usable(lat, lng) || name.None? then None
    else
      Some(Airport(
        id := index + 1,
        ident := TextOr(item, IdentFields, UnknownIdent(index), cast),
        kind := TextOr(item, ["type"], "airport", cast),
        name := name.value,
        latitude := lat.value,
        longitude := lng.value,
        elevation := Some(Elevation(item)),
        continent := Some(TextOr(item, ["continent"], "Unknown", cast)),
        isoCountry := Some(TextOr(item, ["country", "iso_country"], "Unknown", cast)),
        isoRegion := Some(TextOr(item, ["region", "iso_region"], "Unknown", cast)),
        municipality := Some(TextOr(item, ["city", "municipality"], "Unknown", cast)),
        scheduledService := Some("yes"),
        gpsCode := TextOrNull(item, ["icao", "gps_code"], cast),
        iataCode := ThreeLetterCode(FirstTruthy(Fields(item, IataFields), None), cast),
        localCode := TextOrNull(item, ["local_code"], cast),
        homeLink := TextOrNull(item, ["home_link"], cast),
        wikipediaLink := TextOrNull(item, ["wikipedia_link"], cast),
        keywords := Some(name.value)))
  }

  // ----- converting the items -----

  /** The script's conversion of one item. */
  function ScriptConverter(pf: string -> Option<real>, cast: Json -> string): (Json, nat) -> Option<Airport> {
    (item: Json, index: nat) => ConvertItem(item, index, pf, cast)
  }

  lemma ScriptConverterNumbers(pf: string -> Option<real>, cast: Json -> string)
    ensures NumbersByPosition(ScriptConverter(pf, cast))
  {
    forall item, index: nat | ScriptConverter(pf, cast)(item, index).Some?
      ensures ScriptConverter(pf, cast)(item, index).value.id == index + 1
    {
      assert ScriptConverter(pf, cast)(item, index) == ConvertItem(item, index, pf, cast);
    }
  }

  /** Every converted airport has usable coordinates and a non-blank name. */
  lemma ConvertedAreUsable(items: seq<Json>, pf: string -> Option<real>, cast: Json -> string)
    ensures forall a :: a in Converted(items, |items|, ScriptConverter(pf, cast)) ==>
      Usable(Some(a.latitude), Some(a.longitude)) && !JsText.IsBlank(a.name)
  {
    var convert := ScriptConverter(pf, cast);
    var r := Converted(items, |items|, convert);
    ScriptConverterNumbers(pf, cast);
    ConvertedIds(items, |items|, convert);
    forall a | a in r ensures Usable(Some(a.latitude), Some(a.longitude)) && !JsText.IsBlank(a.name) {
      var k :| 0 <= k < |r| && r[k] == a;
      var i := a.id - 1;
      assert convert(items[i], i) == ConvertItem(items[i], i, pf, cast);
    }
  }

  /**
   * `convertToAirportFormat`: every item is processed once, and the valid ones are the
   * converted airports, all with usable coordinates.
   */
  method ConvertToAirportFormat(items: seq<Json>, pf: string -> Option<real>, cast: Json -> string)
    returns (airports: seq<Airport>, valid: nat, processed: nat)
    ensures airports == Converted(items, |items|, ScriptConverter(pf, cast))
    ensures valid == |airports| && processed == |items|
    ensures forall k :: 0 <= k < |airports| ==> Usable(Some(airports[k].latitude), Some(airports[k].longitude))
  {
    var invalid;
    airports, valid, invalid := ConvertEach(items, ScriptConverter(pf, cast));
    processed := valid + invalid;
    ConvertedAreUsable(items, pf, cast);
    assert forall k :: 0 <= k < |airports| ==> airports[k] in airports;
  }

  // ----- reading the file -----

  /** The values of the lines that parse on their own, in order; the others are skipped. */
  function ParsedLines(lines: seq<string>, parse: string -> Option<Json>): (r: seq<Json>)
    ensures |r| <= |lines|
  {
    if |lines| == 0 then []
    else
      match parse(JsText.Trim(lines[0]))
      case Some(v) => [v] + ParsedLines(lines[1..], parse)
      case None => ParsedLines(lines[1..], parse)
  }

  /** Nothing is lost: every line that parses contributes its value. */
  lemma {:induction false} ParsedLinesComplete(lines: seq<string>, parse: string -> Option<Json>, i: nat)
    requires i < |lines| && parse(JsText.Trim(lines[i])).Some?
    ensures parse(JsText.Trim(lines[i])).value in ParsedLines(lines, parse)
  {
    if i > 0 {
      ParsedLinesComplete(lines[1..], parse, i - 1);
      assert lines[1..][i - 1] == lines[i];
    }
  }

  /** Nothing is invented: every value comes from a line that parses to it. */
  lemma {:induction false} ParsedLinesSound(lines: seq<string>, parse: string -> Option<Json>)
    ensures forall v :: v in ParsedLines(lines, parse) ==> exists i :: 0 <= i < |lines| && parse(JsText.Trim(lines[i])) == Some(v)
  {
    if |lines| > 0 {
      ParsedLinesSound(lines[1..], parse);
      forall v | v in ParsedLines(lines, parse)
        ensures exists i :: 0 <= i < |lines| && parse(JsText.Trim(lines[i])) == Some(v)
      {
        if parse(JsText.Trim(lines[0])) == Some(v) {
        } else {
          assert v in ParsedLines(lines[1..], parse);
          var i :| 0 <= i < |lines[1..]| && parse(JsText.Trim(lines[1..][i])) == Some(v);
          assert lines[1..][i] == lines[i + 1];
        }
      }
    }
  }

  /** The `for (const line of lines)` loop with its `try`/`catch` around `JSON.parse`. */
  method ParseEachLine(lines: seq<string>, parse: string -> Option<Json>) returns (values: seq<Json>)
    ensures values == ParsedLines(lines, parse)
  {
    values := [];
    var k := 0;
    while k < |lines|
      invariant k <= |lines|
      invariant values + ParsedLines(lines[k..], parse) == ParsedLines(lines, parse)
    {
      ParsedLinesStep(lines, k, parse);
      match parse(JsText.Trim(lines[k])) {
        case Some(v) =>
          assert values + [v] + ParsedLines(lines[k + 1..], parse) == values + ([v] + ParsedLines(lines[k + 1..], parse));
          values := values + [v];
        case None =>
      }
      k := k + 1;
    }
    assert values + [] == values;
  }

  /** One step of `ParsedLines` on a suffix: the line at `k` contributes its value, if any. */
  lemma ParsedLinesStep(lines: seq<string>, k: nat, parse: string -> Option<Json>)
    requires k < |lines|
    ensures parse(JsText.Trim(lines[k])).Some? ==>
      ParsedLines(lines[k..], parse) == [parse(JsText.Trim(lines[k])).value] + ParsedLines(lines[k + 1..], parse)
    ensures parse(JsText.Trim(lines[k])).None? ==> ParsedLines(lines[k..], parse) == ParsedLines(lines[k + 1..], parse)
  {
    assert lines[k..][0] == lines[k];
    assert lines[k..][1..] == lines[k + 1..];
  }

  /** Removing a byte-order mark after trimming changes nothing: `trim` already drops `U+FEFF`. */
  lemma StripBomAfterTrim(raw: string)
    ensures TextLines.StripBom(JsText.Trim(raw)) == JsText.Trim(raw)
  {
    JsText.TrimFacts(raw);
    assert JsText.IsSpace(TextLines.Bom);
  }

  /**
   * `processDataFile`: the parsed text when it is JSON (of any kind), else the values of its
   * non-blank lines as an array; `None` (an error) when no line parses either.
   */
  function ProcessDataFile(raw: string, parse: string -> Option<Json>): (r: Option<Json>)
    ensures parse(JsText.Trim(raw)).Some? ==> r == parse(JsText.Trim(raw))
    ensures parse(JsText.Trim(raw)).None? ==>
      var values := ParsedLines(TextLines.NonBlankLines(JsText.Trim(raw)), parse);
      (r.None? <==> |values| == 0) && (r.Some? ==> r == Some(Arr(values)))
  {
    var text := TextLines.StripBom(JsText.Trim(raw));
    StripBomAfterTrim(raw);
    match parse(text)
    case Some(v) => Some(v)
    case None =>
      var values := ParsedLines(TextLines.NonBlankLines(text), parse);
      if |values| == 0 then None else Some(Arr(values))
  }

  // ----- the import -----

  /**
   * The airports the script would load: `None` when the file is missing, yields no data, or
   * is not an array (its `forEach` throws).
   */
  function ScriptAirports(file: Option<string>, parse: string -> Option<Json>, pf: string -> Option<real>,
                          cast: Json -> string): (r: Option<seq<Airport>>)
    ensures r.Some? <==> file.Some? && ProcessDataFile(file.value, parse).Some? && ProcessDataFile(file.value, parse).value.Arr?
    ensures r.Some? ==> forall a :: a in r.value ==> Usable(Some(a.latitude), Some(a.longitude))
  {
    if file.None? then None
    else match ProcessDataFile(file.value, parse)
      case Some(Arr(items)) =>
        ConvertedAreUsable(items, pf, cast);
        Some(Converted(items, |items|, ScriptConverter(pf, cast)))
      case _ => None
  }

  /** The script's geo command takes every airport of a batch. */
  function Everyone(): Airport -> bool {
    (a: Airport) => true
  }

  /** Whether the script finished (`finalCount > 0`) or threw, and the stores it left. */
  datatype Run = Run(ok: bool, after: AirportRoutes.Stores)

  /**
   * The writes of a run that has airports to load: the documents, the geo key and the
   * ranking are deleted (the `EXPIRE` that follows finds no key), the airports are loaded in
   * batches of 100, and the run fails when no document ended up stored.
   */
  function Reload(s: AirportRoutes.Stores, airports: seq<Airport>, outcome: nat -> BatchOutcome, now: int): (r: Run)
    ensures r.after.docs == Stored(Chunks(airports, BatchSize), outcome, 0)
    ensures r.after.pop == Empty
    ensures r.ok <==> |r.after.docs| > 0
  {
    ExpireAfterDeleteIsNoOp(s.pop, now);
    var cleared := AirportRoutes.Stores([], map[], Expire(Indexes.Delete(s.pop), PopularityTtl, now));
    var cs := Chunks(airports, BatchSize);
    LoadDocs(cleared, cs, outcome, Everyone(), 0);
    assert [] + Stored(cs, outcome, 0) == Stored(cs, outcome, 0);
    var after := Load(cleared, cs, outcome, Everyone(), 0);
    Run(|after.docs| > 0, after)
  }

  /**
   * `importData`: a failure before any write (no file, no data, no valid airport) leaves the
   * stores as they were; otherwise the stores are reloaded.
   */
  function ImportData(s: AirportRoutes.Stores, file: Option<string>, parse: string -> Option<Json>,
                      pf: string -> Option<real>, cast: Json -> string, outcome: nat -> BatchOutcome,
                      now: int): (r: Run)
    ensures ScriptAirports(file, parse, pf, cast).None? || |ScriptAirports(file, parse, pf, cast).value| == 0 ==>
      r == Run(false, s)
    ensures ScriptAirports(file, parse, pf, cast).Some? && |ScriptAirports(file, parse, pf, cast).value| > 0 ==>
      && r.after.docs == Stored(Chunks(ScriptAirports(file, parse, pf, cast).value, BatchSize), outcome, 0)
      && r.after.pop == Empty
      && (r.ok <==> |r.after.docs| > 0)
  {
    match ScriptAirports(file, parse, pf, cast)
    case None => Run(false, s)
    case Some(airports) => if |airports| == 0 then Run(false, s) else Reload(s, airports, outcome, now)
  }

  /** When every batch is stored, the run succeeds and the catalogue is exactly the converted airports. */
  lemma ImportDataStoresEverything(s: AirportRoutes.Stores, file: Option<string>, parse: string -> Option<Json>,
                                   pf: string -> Option<real>, cast: Json -> string, outcome: nat -> BatchOutcome,
                                   now: int)
    requires ScriptAirports(file, parse, pf, cast).Some? && |ScriptAirports(file, parse, pf, cast).value| > 0
    requires forall b :: outcome(b).inserted
    ensures ImportData(s, file, parse, pf, cast, outcome, now).ok
    ensures ImportData(s, file, parse, pf, cast, outcome, now).after.docs == ScriptAirports(file, parse, pf, cast).value
  {
    StoredAll(Chunks(ScriptAirports(file, parse, pf, cast).value, BatchSize), outcome, 0);
  }

  /**
   * After a run that reached the load, every geo member belongs to a stored document: the
   * geo key starts empty and only stored batches add to it.
   */
  lemma ImportDataLeavesNoOrphans(s: AirportRoutes.Stores, file: Option<string>, parse: string -> Option<Json>,
                                  pf: string -> Option<real>, cast: Json -> string, outcome: nat -> BatchOutcome,
                                  now: int)
    requires ScriptAirports(file, parse, pf, cast).Some? && |ScriptAirports(file, parse, pf, cast).value| > 0
    ensures AirportRoutes.GeoHasNoOrphans(ImportData(s, file, parse, pf, cast, outcome, now).after)
  {
    ReloadLeavesNoOrphans(s, ScriptAirports(file, parse, pf, cast).value, outcome, now);
  }

  lemma ReloadLeavesNoOrphans(s: AirportRoutes.Stores, airports: seq<Airport>, outcome: nat -> BatchOutcome, now: int)
    ensures AirportRoutes.GeoHasNoOrphans(Reload(s, airports, outcome, now).after)
  {
    ExpireAfterDeleteIsNoOp(s.pop, now);
    var cleared := AirportRoutes.Stores([], map[], Empty);
    var cs := Chunks(airports, BatchSize);
    assert Reload(s, airports, outcome, now).after == Load(cleared, cs, outcome, Everyone(), 0);
    forall k | k in Load(cleared, cs, outcome, Everyone(), 0).geo
      ensures exists j :: (0 <= j < |Load(cleared, cs, outcome, Everyone(), 0).docs| &&
                           IndexKey(Load(cleared, cs, outcome, Everyone(), 0).docs[j]) == k)
    {
      LoadedKeyHasDoc(cs, outcome, k);
    }
  }

  /** A key the load from empty stores indexed belongs to a stored airport. */
  lemma LoadedKeyHasDoc(cs: seq<seq<Airport>>, outcome: nat -> BatchOutcome, k: string)
    requires k in Load(AirportRoutes.Stores([], map[], Empty), cs, outcome, Everyone(), 0).geo
    ensures var after := Load(AirportRoutes.Stores([], map[], Empty), cs, outcome, Everyone(), 0);
      exists j :: 0 <= j < |after.docs| && IndexKey(after.docs[j]) == k
  {
    var cleared := AirportRoutes.Stores([], map[], Empty);
    var after := Load(cleared, cs, outcome, Everyone(), 0);
    LoadGeoKeys(cleared, cs, outcome, Everyone(), 0, k);
    var b, i :| 0 <= b < |cs| && 0 <= i < |cs[b]| && outcome(0 + b).inserted && outcome(0 + b).geoAdded &&
      Everyone()(cs[b][i]) && IndexKey(cs[b][i]) == k;
    StoredMember(cs, outcome, 0, b, i);
    LoadDocs(cleared, cs, outcome, Everyone(), 0);
    assert after.docs == Stored(cs, outcome, 0);
    var j :| 0 <= j < |after.docs| && after.docs[j] == cs[b][i];
  }

  /** Every airport of a batch that was stored and whose `GEOADD` worked has its key in the geo index. */
  lemma ReloadIndexesBatch(s: AirportRoutes.Stores, airports: seq<Airport>, outcome: nat -> BatchOutcome, now: int,
                           b: nat, i: nat)
    requires b < |Chunks(airports, BatchSize)| && i < |Chunks(airports, BatchSize)[b]|
    requires outcome(b).inserted && outcome(b).geoAdded
    ensures IndexKey(Chunks(airports, BatchSize)[b][i]) in Reload(s, airports, outcome, now).after.geo
  {
    ExpireAfterDeleteIsNoOp(s.pop, now);
    var cleared := AirportRoutes.Stores([], map[], Empty);
    var cs := Chunks(airports, BatchSize);
    assert Reload(s, airports, outcome, now).after == Load(cleared, cs, outcome, Everyone(), 0);
    LoadGeoKeys(cleared, cs, outcome, Everyone(), 0, IndexKey(cs[b][i]));
    assert outcome(0 + b).inserted && outcome(0 + b).geoAdded && Everyone()(cs[b][i]);
  }

  /**
   * When every batch is stored and geo-indexed, the geo key holds exactly the keys of the
   * converted airports.
   */
  lemma ImportDataGeoKeys(s: AirportRoutes.Stores, file: Option<string>, parse: string -> Option<Json>,
                          pf: string -> Option<real>, cast: Json -> string, outcome: nat -> BatchOutcome,
                          now: int, key: string)
    requires ScriptAirports(file, parse, pf, cast).Some? && |ScriptAirports(file, parse, pf, cast).value| > 0
    requires forall b :: outcome(b).inserted && outcome(b).geoAdded
    ensures key in ImportData(s, file, parse, pf, cast, outcome, now).after.geo <==>
      exists a :: a in ScriptAirports(file, parse, pf, cast).value && IndexKey(a) == key
  {
    ReloadGeoKeys(s, ScriptAirports(file, parse, pf, cast).value, outcome, now, key);
  }

  lemma ReloadGeoKeys(s: AirportRoutes.Stores, airports: seq<Airport>, outcome: nat -> BatchOutcome, now: int, key: string)
    requires forall b :: outcome(b).inserted && outcome(b).geoAdded
    ensures key in Reload(s, airports, outcome, now).after.geo <==> exists a :: a in airports && IndexKey(a) == key
  {
    ExpireAfterDeleteIsNoOp(s.pop, now);
    var cleared := AirportRoutes.Stores([], map[], Empty);
    var cs := Chunks(airports, BatchSize);
    assert Reload(s, airports, outcome, now).after == Load(cleared, cs, outcome, Everyone(), 0);
    LoadGeoKeys(cleared, cs, outcome, Everyone(), 0, key);
    IndexedByEveryone(airports, outcome, key);
  }

  /** With every batch inserted and indexed, a key is indexed exactly when some airport has it. */
  lemma IndexedByEveryone(airports: seq<Airport>, outcome: nat -> BatchOutcome, key: string)
    requires forall b :: outcome(b).inserted && outcome(b).geoAdded
    ensures Indexed(Chunks(airports, BatchSize), outcome, Everyone(), 0, key) <==> exists a :: a in airports && IndexKey(a) == key
  {
    var cs := Chunks(airports, BatchSize);
    if Indexed(cs, outcome, Everyone(), 0, key) {
      var b, i :| 0 <= b < |cs| && 0 <= i < |cs[b]| && outcome(0 + b).inserted && outcome(0 + b).geoAdded &&
        Everyone()(cs[b][i]) && IndexKey(cs[b][i]) == key;
      ChunkMemberIn(cs, b, i);
    }
    if exists a :: a in airports && IndexKey(a) == key {
      var a :| a in airports && IndexKey(a) == key;
      ChunkOf(cs, a);
      var b, i :| 0 <= b < |cs| && 0 <= i < |cs[b]| && cs[b][i] == a;
      assert outcome(0 + b).inserted && outcome(0 + b).geoAdded && Everyone()(cs[b][i]);
    }
  }
}

=== FILE: search_box.dfy ===
/**
 * The search box of the home page: its code classifier and its submit handler, which
 * reports the results to its parent through `onResults`.
 */
module SearchBox {
  import opened Wrappers
  import JsText
  import opened AirportModel
  import AirportSearch

  /** Three letters, after the upper-case mapping: `/^[A-Z]{3}$/`. */
  predicate ThreeUpper(t: string) {
    |t| == 3 && forall i :: 0 <= i < |t| ==> JsText.IsUpperLetter(t[i])
  }

  /** Four upper-case letters or digits: `/^[A-Z0-9]{4}$/`. */
  predicate FourUpperOrDigits(t: string) {
    |t| == 4 && forall i :: 0 <= i < |t| ==> JsText.IsUpperLetter(t[i]) || JsText.IsDigit(t[i])
  }

  /** A letter in either case, or a digit. */
  predicate IsAlnum(c: char) {
    JsText.IsAsciiLetter(c) || JsText.IsDigit(c)
  }

  /** Upper-casing turns exactly the letters into upper-case letters and keeps the digits. */
  lemma UpperCharClass(c: char)
    ensures JsText.IsUpperLetter(JsText.UpperChar(c)) <==> JsText.IsAsciiLetter(c)
    ensures JsText.IsDigit(JsText.UpperChar(c)) <==> JsText.IsDigit(c)
  {
  }

  /**
   * `isAirportCode`: the trimmed query is three letters (an IATA code) or four letters and
   * digits (an ICAO code), in either case.
   */
  function IsAirportCode(query: string): (r: bool)
    ensures r <==> var t := JsText.Trim(query);
      || (|t| == 3 && forall i :: 0 <= i < |t| ==> JsText.IsAsciiLetter(t[i]))
      || (|t| == 4 && forall i :: 0 <= i < |t| ==> IsAlnum(t[i]))
  {
    var t := JsText.Trim(query);
    var u := JsText.ToUpper(t);
    forall i | 0 <= i < |t| ensures JsText.IsUpperLetter(u[i]) <==> JsText.IsAsciiLetter(t[i]) {
      UpperCharClass(t[i]);
    }
    forall i | 0 <= i < |t| ensures JsText.IsDigit(u[i]) <==> JsText.IsDigit(t[i]) {
      UpperCharClass(t[i]);
    }
    ThreeUpper(u) || FourUpperOrDigits(u)
  }

  /** Three characters with a digit among them are searched as text. */
  lemma ThreeWithDigitIsText(query: string, k: nat)
    requires |JsText.Trim(query)| == 3 && k < 3 && JsText.IsDigit(JsText.Trim(query)[k])
    ensures !IsAirportCode(query)
  {
  }

  /** `handleSubmit`: the results passed to `onResults`, or `None` when it is not called. */
  function Submit(query: string, api: AirportSearch.Api): (r: Option<seq<Airport>>)
    ensures r.None? <==> JsText.IsBlank(query)
    ensures r.Some? && !IsAirportCode(query) ==> r.value == AirportSearch.TextResults(api, JsText.Trim(query), None)
    ensures r.Some? && IsAirportCode(query) ==>
      r.value == (match api.byCode(JsText.Trim(query))
                  case Some(a) => [a]
                  case None => AirportSearch.TextResults(api, JsText.Trim(query), None))
  {
    AirportSearch.Search(query, IsAirportCode, None, api)
  }
}

=== FILE: search_routes.dfy ===
/**
 * The `/search` routes: a lookup by any of an airport's three codes, and a text search over
 * its name, municipality, country and keywords.
 */
module SearchRoutes {
  import opened Wrappers
  import JsText
  import opened AirportModel
  import opened Indexes
  import opened Http
  import Seqs
  import opened AirportRoutes

  /** The `$or` of `iata_code`, `ident` and `gps_code` equal to the code. */
  predicate HasCode(a: Airport, code: string) {
    a.iataCode == Some(code) || a.ident == code || a.gpsCode == Some(code)
  }

  /** `findOne` of that `$or` in natural order. */
  function FindByCode(docs: seq<Airport>, code: string): (r: Option<nat>)
    ensures r.Some? ==> r.value < |docs| && HasCode(docs[r.value], code)
    ensures r.Some? ==> forall i :: 0 <= i < r.value ==> !HasCode(docs[i], code)
    ensures r.None? <==> forall i :: 0 <= i < |docs| ==> !HasCode(docs[i], code)
  {
    if |docs| == 0 then None
    else if HasCode(docs[0], code) then Some(0)
    else match FindByCode(docs[1..], code)
      case None => None
      case Some(k) => Some(k + 1)
  }

  /** The member this route counts: the document's `id` as a decimal string. */
  function IdMember(a: Airport): string {
    JsText.IntToString(a.id)
  }

  /**
   * GET `/code/:code`. The handle it increments through, `app.locals.redisClient`, is never
   * set by the server: `NoClient` makes the call throw, and a found airport becomes a 500.
   * Only a working client answers with the airport, after `ZINCRBY` of its id's member,
   * with no expiry.
   */
  function CodeSearch(s: Stores, code: string, incr: IndexCall, now: int): (r: Outcome<Airport>)
    ensures FindByCode(s.docs, JsText.ToUpper(code)).None? <==> r.response == Err(NotFound)
    ensures r.response.Err? ==> r.after == s
    ensures FindByCode(s.docs, JsText.ToUpper(code)).Some? && incr != Works ==> r.response == Err(ServerError)
    ensures FindByCode(s.docs, JsText.ToUpper(code)).Some? && incr == Works ==>
      r.response == Ok(s.docs[FindByCode(s.docs, JsText.ToUpper(code)).value])
    ensures r.response.Ok? ==>
      && incr == Works
      && r.response.value == s.docs[FindByCode(s.docs, JsText.ToUpper(code)).value]
      && r.after.docs == s.docs && r.after.geo == s.geo
      && Score(r.after.pop, IdMember(r.response.value)) == Score(Live(s.pop, now), IdMember(r.response.value)) + 1
      && (forall k :: k != IdMember(r.response.value) ==> Score(r.after.pop, k) == Score(Live(s.pop, now), k))
      && r.after.pop.expiresAt == Live(s.pop, now).expiresAt
  {
    match FindByCode(s.docs, JsText.ToUpper(code))
    case None => Outcome(Err(NotFound), s)
    case Some(i) =>
      if incr != Works then Outcome(Err(ServerError), s)
      else
        var a := s.docs[i];
        Outcome(Ok(a), s.(pop := Increment(s.pop, IdMember(a), now)))
  }

  /** As the server is wired, the code search never answers with an airport. */
  lemma CodeSearchNeverAnswers(s: Stores, code: string, now: int)
    ensures CodeSearch(s, code, NoClient, now).response.Err?
    ensures CodeSearch(s, code, NoClient, now).after == s
  {
  }

  /**
   * The code search counts a different member than the lookup: an airport whose key is a
   * code, not its id string, gains nothing under that key.
   */
  lemma CodeSearchMissesLookupKey(s: Stores, code: string, now: int)
    requires FindByCode(s.docs, JsText.ToUpper(code)).Some?
    requires var a := s.docs[FindByCode(s.docs, JsText.ToUpper(code)).value]; IndexKey(a) != IdMember(a)
    ensures var r := CodeSearch(s, code, Works, now);
      r.response.Ok? && Score(r.after.pop, IndexKey(r.response.value)) == Score(Live(s.pop, now), IndexKey(r.response.value))
  {
  }

  /** An identifier made only of letters is never any airport's id member. */
  lemma LetterCodeIsNoIdMember(a: Airport, code: string)
    requires |code| > 0 && forall i :: 0 <= i < |code| ==> JsText.IsUpperLetter(code[i])
    ensures IdMember(a) != code
  {
    var m := IdMember(a);
    assert m[0] == '-' || JsText.IsDigit(m[0]);
  }

  /** The text fields the search tries, in the order of the `$or`. */
  function SearchedFields(a: Airport): seq<Option<string>> {
    [Some(a.name), a.municipality, a.isoCountry, a.keywords]
  }

  /** A case-insensitive `$regex` test, `matches`, succeeds on one of the searched fields. */
  predicate TextMatch(a: Airport, matches: string -> bool) {
    exists f :: f in SearchedFields(a) && f.Some? && matches(f.value)
  }

  function TextMatchBy(matches: string -> bool): Airport -> bool {
    a => TextMatch(a, matches)
  }

  /**
   * GET `/text/:query`. `compile` turns the query into the store's case-insensitive pattern
   * test, `None` when the store rejects the pattern (a 500). The answer is the first
   * `|parseInt(limit) || 10|` matching documents in natural order.
   */
  function TextSearch(docs: seq<Airport>, query: string, limit: Option<string>,
                      compile: string -> Option<string -> bool>): (r: Response<seq<Airport>>)
    ensures compile(query).None? <==> r == Err(ServerError)
    ensures r.Ok? ==>
      var matches := compile(query).value;
      var n := Abs(JsText.ParseIntOr(limit, 10));
      var all := Seqs.Filter(docs, TextMatchBy(matches));
      && |r.value| == (if n < |all| then n else |all|)
      && r.value == all[..|r.value|]
      && (forall i :: 0 <= i < |r.value| ==> r.value[i] in docs && TextMatch(r.value[i], matches))
  {
    match compile(query)
    case None => Err(ServerError)
    case Some(matches) =>
      var all := Seqs.Filter(docs, TextMatchBy(matches));
      var found := Seqs.Take(all, Abs(JsText.ParseIntOr(limit, 10)));
      assert forall i :: 0 <= i < |found| ==> found[i] == all[i];
      assert forall i :: 0 <= i < |found| ==> TextMatchBy(matches)(found[i]);
      Ok(found)
  }

  /** Every matching document is answered when fewer match than the limit allows. */
  lemma TextSearchCompleteBelowLimit(docs: seq<Airport>, query: string, limit: Option<string>,
                                     compile: string -> Option<string -> bool>, i: nat)
    requires compile(query).Some?
    requires Seqs.Count(docs, TextMatchBy(compile(query).value)) <= Abs(JsText.ParseIntOr(limit, 10))
    requires i < |docs| && TextMatch(docs[i], compile(query).value)
    ensures docs[i] in TextSearch(docs, query, limit, compile).value
  {
    assert TextMatchBy(compile(query).value)(docs[i]);
  }
}

=== FILE: seqs.dfy ===
/** `Array.prototype.filter` and the `limit(n)` of a query cursor, on sequences. */
module Seqs {

  /** The elements of `s` satisfying `p`, in their original order. */
  function Filter<T>(s: seq<T>, p: T -> bool): (r: seq<T>)
    ensures |r| <= |s|
    ensures forall i :: 0 <= i < |r| ==> r[i] in s && p(r[i])
    ensures forall i :: 0 <= i < |s| && p(s[i]) ==> s[i] in r
    ensures multiset(r) <= multiset(s)
  {
    if |s| == 0 then []
    else
      assert s == [s[0]] + s[1..];
      if p(s[0]) then [s[0]] + Filter(s[1..], p) else Filter(s[1..], p)
  }

  /** Filtering distributes over concatenation, so the order of the input is kept. */
  lemma {:induction false} FilterAppend<T>(a: seq<T>, b: seq<T>, p: T -> bool)
    ensures Filter(a + b, p) == Filter(a, p) + Filter(b, p)
  {
    if |a| > 0 {
      assert (a + b)[1..] == a[1..] + b;
      FilterAppend(a[1..], b, p);
    } else {
      assert a + b == b;
    }
  }

  /** Filtering by `p` and then by `q` is filtering by a test that means both. */
  lemma {:induction false} FilterFilter<T>(s: seq<T>, p: T -> bool, q: T -> bool, both: T -> bool)
    requires forall x :: both(x) == (p(x) && q(x))
    ensures Filter(Filter(s, p), q) == Filter(s, both)
  {
    if |s| > 0 {
      FilterFilter(s[1..], p, q, both);
      if p(s[0]) {
        assert Filter(s, p) == [s[0]] + Filter(s[1..], p);
        assert ([s[0]] + Filter(s[1..], p))[1..] == Filter(s[1..], p);
      }
    }
  }

  /** `cursor.limit(n)`: the first `n` elements, or all of them when there are fewer. */
  function Take<T>(s: seq<T>, n: nat): (r: seq<T>)
    ensures |r| == if n < |s| then n else |s|
    ensures r == s[..|r|]
  {
    if n < |s| then s[..n] else s
  }

  /** The number of elements satisfying `p`. */
  function Count<T>(s: seq<T>, p: T -> bool): (n: nat)
    ensures n == |Filter(s, p)|
  {
    |Filter(s, p)|
  }
}

=== FILE: server_import.dfy ===
/**
 * The server's start-up import: reading the transport data file (with its line-repair
 * mode for malformed JSON), converting each raw item into an airport document, and
 * loading the documents and their geo entries when the catalogue is empty.
 */
module ServerImport {
  import opened Wrappers
  import JsText
  import opened JsValue
  import opened AirportModel
  import opened Indexes
  import TextLines
  import AirportRoutes
  import opened ImportCommon

  const LatitudeFields: seq<string> := ["lat", "latitude", "latitude_deg", "coord_lat", "y"]
  const LongitudeFields: seq<string> := ["lng", "lon", "longitude", "longitude_deg", "coord_lng", "coord_lon", "x"]
  const NameFields: seq<string> := ["name", "airport_name", "facility_name", "site_name"]
  const ElevationFields: seq<string> := ["alt", "altitude", "elevation", "elevation_ft"]
  const IataFields: seq<string> := ["iata_faa", "iata", "iata_code"]
  const IcaoFields: seq<string> := ["icao", "ident", "icao_code"]
  const BatchSize: nat := 50

  /** The position of the first value satisfying `p`. */
  function FirstWhere(vs: seq<Option<Json>>, p: Option<Json> -> bool): (r: Option<nat>)
    ensures r.Some? ==> r.value < |vs| && p(vs[r.value]) && forall i :: 0 <= i < r.value ==> !p(vs[i])
    ensures r.None? <==> forall i :: 0 <= i < |vs| ==> !p(vs[i])
  {
    if |vs| == 0 then None
    else if p(vs[0]) then Some(0)
    else match FirstWhere(vs[1..], p)
      case None => None
      case Some(k) => Some(k + 1)
  }

  // ----- coordinates -----

  /** `v !== undefined && v !== null && v !== ""`. */
  predicate Present(v: Option<Json>) {
    v.Some? && v.value != Null && v.value != Str("")
  }

  /** A field value the converter accepts as a coordinate: present, a number, within `[-bound, bound]`. */
  predicate Qualifies(v: Option<Json>, bound: real, pf: string -> Option<real>) {
    Present(v) && ParseFloat(v, pf).Some? && -bound <= ParseFloat(v, pf).value <= bound
  }

  function QualifiesWithin(bound: real, pf: string -> Option<real>): Option<Json> -> bool {
    v => Qualifies(v, bound, pf)
  }

  /**
   * The first field of `fields` whose value qualifies, read as a number; a value that is out
   * of range does not stop the search, the next field is tried.
   */
  function Coordinate(item: Json, fields: seq<string>, bound: real, pf: string -> Option<real>): (r: Option<real>)
    ensures r.None? <==> forall i :: 0 <= i < |fields| ==> !Qualifies(Get(item, fields[i]), bound, pf)
    ensures forall k :: (0 <= k < |fields| && Qualifies(Get(item, fields[k]), bound, pf) &&
                         forall i :: 0 <= i < k ==> !Qualifies(Get(item, fields[i]), bound, pf)) ==>
      r == ParseFloat(Get(item, fields[k]), pf)
    ensures r.Some? ==> -bound <= r.value <= bound
  {
    var vs := Fields(item, fields);
    match FirstWhere(vs, QualifiesWithin(bound, pf))
    case None => None
    case Some(k) =>
      assert forall j :: 0 <= j < |fields| && Qualifies(Get(item, fields[j]), bound, pf) ==> k <= j by {
        forall j | 0 <= j < |fields| && Qualifies(Get(item, fields[j]), bound, pf) ensures k <= j {
          assert QualifiesWithin(bound, pf)(vs[j]);
        }
      }
      ParseFloat(vs[k], pf)
  }

  function Latitude(item: Json, pf: string -> Option<real>): Option<real> {
    Coordinate(item, LatitudeFields, 90.0, pf)
  }

  function Longitude(item: Json, pf: string -> Option<real>): Option<real> {
    Coordinate(item, LongitudeFields, 180.0, pf)
  }

  // ----- the other fields -----

  /** `v && typeof v === "string" && v.trim()`. */
  predicate NameCandidate(v: Option<Json>) {
    v.Some? && v.value.Str? && !JsText.IsBlank(v.value.s)
  }

  function IsNameCandidate(): Option<Json> -> bool {
    v => NameCandidate(v)
  }

  /** The trimmed first usable name, else `"Unknown Airport"`. */
  function Name(item: Json): (n: string)
    ensures forall k :: (0 <= k < |NameFields| && NameCandidate(Get(item, NameFields[k])) &&
                         forall i :: 0 <= i < k ==> !NameCandidate(Get(item, NameFields[i]))) ==>
      n == JsText.Trim(Get(item, NameFields[k]).value.s)
    ensures (forall i :: 0 <= i < |NameFields| ==> !NameCandidate(Get(item, NameFields[i]))) ==> n == "Unknown Airport"
    ensures !JsText.IsBlank(n)
  {
    var vs := Fields(item, NameFields);
    match FirstWhere(vs, IsNameCandidate())
    case None =>
      assert JsText.Trim("Unknown Airport") != "" by {
        assert !JsText.IsSpace("Unknown Airport"[0]);
        assert JsText.LeadingSpaces("Unknown Airport") == 0 by {
          assert JsText.TrimStart("Unknown Airport") == "Unknown Airport" by {
            JsText.TrimStartOfNoLeadingSpace("Unknown Airport");
          }
        }
      }
      "Unknown Airport"
    case Some(k) =>
      assert forall j :: 0 <= j < |NameFields| && NameCandidate(Get(item, NameFields[j])) ==> k <= j by {
        forall j | 0 <= j < |NameFields| && NameCandidate(Get(item, NameFields[j])) ensures k <= j {
          assert IsNameCandidate()(vs[j]);
        }
      }
      JsText.TrimIdempotent(vs[k].value.s);
      JsText.Trim(vs[k].value.s)
  }

  /** `v !== undefined && v !== null && !isNaN(parseInt(v))`. */
  predicate ElevationCandidate(v: Option<Json>) {
    v.Some? && v.value != Null && ParseIntValue(v).Some?
  }

  function IsElevationCandidate(): Option<Json> -> bool {
    v => ElevationCandidate(v)
  }

  /** No elevation field before the first candidate is one. */
  lemma FirstCandidateIsLeast(item: Json, k: nat)
    requires FirstWhere(Fields(item, ElevationFields), IsElevationCandidate()) == Some(k)
    ensures forall j :: 0 <= j < |ElevationFields| && ElevationCandidate(Get(item, ElevationFields[j])) ==> k <= j
  {
    var vs := Fields(item, ElevationFields);
    forall j | 0 <= j < |ElevationFields| && ElevationCandidate(Get(item, ElevationFields[j])) ensures k <= j {
      assert IsElevationCandidate()(vs[j]);
    }
  }

  /** The `parseInt` of the first elevation field that reads as an integer, else 0. */
  function Elevation(item: Json): (e: int)
    ensures forall k :: (0 <= k < |ElevationFields| && ElevationCandidate(Get(item, ElevationFields[k])) &&
                         forall i :: 0 <= i < k ==> !ElevationCandidate(Get(item, ElevationFields[i]))) ==>
      e == ParseIntValue(Get(item, ElevationFields[k])).value
    ensures (forall i :: 0 <= i < |ElevationFields| ==> !ElevationCandidate(Get(item, ElevationFields[i]))) ==> e == 0
  {
    var vs := Fields(item, ElevationFields);
    match FirstWhere(vs, IsElevationCandidate())
    case None => 0
    case Some(k) =>
      FirstCandidateIsLeast(item, k);
      ParseIntValue(vs[k]).value
  }

  /** `{"alt": [1200]}`: `parseInt([1200])` reads the array's text `"1200"`, so the elevation is 1200. */
  lemma ArrayElevation()
    ensures Elevation(Obj(map["alt" := Arr([Num(1200.0)])])) == 1200
  {
    var item := Obj(map["alt" := Arr([Num(1200.0)])]);
    assert Get(item, ElevationFields[0]) == Some(Arr([Num(1200.0)]));
    JsValue.ArrayIntExamples();
  }

  /** `item.iata_faa || item.iata || item.iata_code || null`. */
  function IataValue(item: Json): Option<Json> {
    FirstTruthy(Fields(item, IataFields), None)
  }

  /** `item.icao || item.ident || item.icao_code || null`. */
  function IcaoValue(item: Json): Option<Json> {
    FirstTruthy(Fields(item, IcaoFields), None)
  }

  /** The ICAO-style code, else the IATA-style one, else the numbered `UNKN` placeholder. */
  function Ident(item: Json, index: nat, cast: Json -> string): (ident: string)
    ensures Truthy(IcaoValue(item)) ==> ident == Text(IcaoValue(item).value, cast)
    ensures !Truthy(IcaoValue(item)) && Truthy(IataValue(item)) ==> ident == Text(IataValue(item).value, cast)
    ensures !Truthy(IcaoValue(item)) && !Truthy(IataValue(item)) ==> ident == UnknownIdent(index)
  {
    if Truthy(IcaoValue(item)) then Text(IcaoValue(item).value, cast)
    else if Truthy(IataValue(item)) then Text(IataValue(item).value, cast)
    else UnknownIdent(index)
  }

  /**
   * One raw item at position `index` as an airport document; `None` when the item is not an
   * object or has no usable latitude or longitude.
   */
  function ConvertItem(item: Json, index: nat, pf: string -> Option<real>, cast: Json -> string): (r: Option<Airport>)
    ensures r.None? <==> !IsObject(item) || Latitude(item, pf).None? || Longitude(item, pf).None?
    ensures r.Some? ==> r.value.id == index + 1
    ensures r.Some? ==> r.value.latitude == Latitude(item, pf).value && r.value.longitude == Longitude(item, pf).value
    ensures r.Some? ==> -90.0 <= r.value.latitude <= 90.0 && -180.0 <= r.value.longitude <= 180.0
    ensures r.Some? ==> r.value.name == Name(item) && !JsText.IsBlank(r.value.name) && r.value.keywords == Some(r.value.name)
    ensures r.Some? ==> r.value.ident == Ident(item, index, cast)
    ensures r.Some? ==> r.value.iataCode == ThreeLetterCode(IataValue(item), cast)
  {
    if !IsObject(item) then None
    else match (Latitude(item, pf), Longitude(item, pf))
      case (Some(lat), Some(lng)) =>
        var ident := Ident(item, index, cast);
        Some(Airport(
          id := index + 1,
          ident := ident,
          kind := TextOr(item, ["type"], "airport", cast),
          name := Name(item),
          latitude := lat,
          longitude := lng,
          elevation := Some(Elevation(item)),
          continent := Some(TextOr(item, ["continent"], "Unknown", cast)),
          isoCountry := Some(TextOr(item, ["country", "iso_country"], "Unknown", cast)),
          isoRegion := Some(TextOr(item, ["region", "iso_region"], "Unknown", cast)),
          municipality := Some(TextOr(item, ["city", "municipality", "location"], "Unknown", cast)),
          scheduledService := Some("yes"),
          gpsCode := if Truthy(IcaoValue(item)) then Some(ident) else None,
          iataCode := ThreeLetterCode(IataValue(item), cast),
          localCode := TextOrNull(item, ["local_code"], cast),
          homeLink := TextOrNull(item, ["home_link"], cast),
          wikipediaLink := TextOrNull(item, ["wikipedia_link"], cast),
          keywords := Some(Name(item))))
      case _ => None
  }

  /** Two items without any code get different placeholder identifiers. */
  lemma UnknownIdentsDiffer(i: nat, j: nat)
    requires i != j
    ensures UnknownIdent(i) != UnknownIdent(j)
  {
    assert JsText.ParseInt(UnknownIdent(i)[4..]) != JsText.ParseInt(UnknownIdent(j)[4..]);
  }

  /** The server's conversion of one item. */
  function ServerConverter(pf: string -> Option<real>, cast: Json -> string): (Json, nat) -> Option<Airport> {
    (item: Json, index: nat) => ConvertItem(item, index, pf, cast)
  }

  lemma ServerConverterNumbers(pf: string -> Option<real>, cast: Json -> string)
    ensures NumbersByPosition(ServerConverter(pf, cast))
  {
    forall item, index: nat | ServerConverter(pf, cast)(item, index).Some?
      ensures ServerConverter(pf, cast)(item, index).value.id == index + 1
    {
      assert ServerConverter(pf, cast)(item, index) == ConvertItem(item, index, pf, cast);
    }
  }

  /**
   * `convertToAirportFormat`: every item is counted once, as valid (and converted) or invalid.
   */
  method ConvertToAirportFormat(items: seq<Json>, pf: string -> Option<real>, cast: Json -> string)
    returns (airports: seq<Airport>, valid: nat, invalid: nat)
    ensures airports == Converted(items, |items|, ServerConverter(pf, cast))
    ensures valid == |airports| && valid + invalid == |items|
    ensures forall k :: 0 <= k < |airports| ==> 1 <= airports[k].id <= |items|
    ensures forall j, k :: 0 <= j < k < |airports| ==> airports[j].id < airports[k].id
  {
    airports, valid, invalid := ConvertEach(items, ServerConverter(pf, cast));
    ServerConverterNumbers(pf, cast);
    ConvertedIds(items, |items|, ServerConverter(pf, cast));
  }

  // ----- reading the file -----

  /** `'{'` count minus `'}'` count of a line. */
  function Balance(line: string): int {
    TextLines.CountChar(line, '{') - TextLines.CountChar(line, '}')
  }

  /** The brace balance of `lines[j..m]`. */
  function BalanceOf(lines: seq<string>, j: nat, m: nat): int
    requires j <= m <= |lines|
    decreases m - j
  {
    if j == m then 0 else Balance(lines[j]) + BalanceOf(lines, j + 1, m)
  }

  /** `"\n" + lines[k].trim()` for each `k` in `j..m`, concatenated. */
  function Continuation(lines: seq<string>, j: nat, m: nat): string
    requires j <= m <= |lines|
    decreases m - j
  {
    if j == m then "" else "\n" + JsText.Trim(lines[j]) + Continuation(lines, j + 1, m)
  }

  /**
   * The joining loop: from line `j`, with the text so far and its running brace count, lines
   * are appended while some remain and the count is positive. The result is the joined text
   * and the first line not consumed.
   */
  function JoinFrom(lines: seq<string>, j: nat, text: string, count: int): (r: (string, nat))
    requires j <= |lines|
    ensures j <= r.1 <= |lines|
    ensures r.0 == text + Continuation(lines, j, r.1)
    decreases |lines| - j
  {
    if j < |lines| && count > 0 then
      var piece := "\n" + JsText.Trim(lines[j]);
      var r := JoinFrom(lines, j + 1, text + piece, count + Balance(lines[j]));
      assert Continuation(lines, j, r.1) == piece + Continuation(lines, j + 1, r.1);
      assert (text + piece) + Continuation(lines, j + 1, r.1) == text + (piece + Continuation(lines, j + 1, r.1));
      r
    else (text, j)
  }

  /**
   * The joining stops at the first line where the running count is no longer positive: it is
   * positive before each consumed line, and not positive at the line where it stops, unless
   * the lines ran out.
   */
  lemma {:induction false} JoinWindow(lines: seq<string>, j: nat, text: string, count: int)
    requires j <= |lines|
    ensures forall m :: j <= m < JoinFrom(lines, j, text, count).1 ==> count + BalanceOf(lines, j, m) > 0
    ensures JoinFrom(lines, j, text, count).1 < |lines| ==> count + BalanceOf(lines, j, JoinFrom(lines, j, text, count).1) <= 0
    decreases |lines| - j
  {
    if j < |lines| && count > 0 {
      var t := text + ("\n" + JsText.Trim(lines[j]));
      var c := count + Balance(lines[j]);
      JoinWindow(lines, j + 1, t, c);
      var e := JoinFrom(lines, j + 1, t, c).1;
      assert JoinFrom(lines, j, text, count).1 == e;
      forall m | j <= m < e ensures count + BalanceOf(lines, j, m) > 0 {
        if m > j {
          assert BalanceOf(lines, j, m) == Balance(lines[j]) + BalanceOf(lines, j + 1, m);
        }
      }
      if e < |lines| {
        assert BalanceOf(lines, j, e) == Balance(lines[j]) + BalanceOf(lines, j + 1, e);
      }
    }
  }

  /** The inner loop of the repair, joining lines while the brace count is positive. */
  method JoinLines(lines: seq<string>, start: nat, line: string) returns (text: string, j: nat)
    requires start <= |lines|
    ensures (text, j) == JoinFrom(lines, start, line, Balance(line))
  {
    text := line;
    j := start;
    var count := Balance(line);
    while j < |lines| && count > 0
      invariant start <= j <= |lines|
      invariant JoinFrom(lines, j, text, count) == JoinFrom(lines, start, line, Balance(line))
      decreases |lines| - j
    {
      text := text + ("\n" + JsText.Trim(lines[j]));
      count := count + Balance(lines[j]);
      j := j + 1;
    }
  }

  /**
   * The repair loop from line `i`: a line that parses is one object; one that does not is
   * joined with the following lines, and if the joined text parses the consumed lines are
   * skipped, otherwise the line is dropped and the next one tried.
   */
  function RepairFrom(lines: seq<string>, i: nat, parse: string -> Option<Json>): seq<Json>
    requires i <= |lines|
    decreases |lines| - i
  {
    if i == |lines| then []
    else
      var line := JsText.Trim(lines[i]);
      if line == "" then RepairFrom(lines, i + 1, parse)
      else match parse(line)
        case Some(v) => [v] + RepairFrom(lines, i + 1, parse)
        case None =>
          var (text, end) := JoinFrom(lines, i + 1, line, Balance(line));
          match parse(text)
          case Some(v) => [v] + RepairFrom(lines, end, parse)
          case None => RepairFrom(lines, i + 1, parse)
  }

  /** The repair loop of `processTransportData`, as written: an outer and an inner loop. */
  method RepairLines(lines: seq<string>, parse: string -> Option<Json>) returns (objects: seq<Json>)
    ensures objects == RepairFrom(lines, 0, parse)
  {
    objects := [];
    var i := 0;
    while i < |lines|
      invariant i <= |lines|
      invariant objects + RepairFrom(lines, i, parse) == RepairFrom(lines, 0, parse)
      decreases |lines| - i
    {
      var found, j := RepairOne(lines, i, parse);
      assert objects + found + RepairFrom(lines, j, parse) == objects + (found + RepairFrom(lines, j, parse));
      objects := objects + found;
      i := j;
    }
    assert objects + [] == objects;
  }

  /** One pass of the outer loop from line `i`: the object it yields, if any, and where the next pass starts. */
  method RepairOne(lines: seq<string>, i: nat, parse: string -> Option<Json>) returns (found: seq<Json>, j: nat)
    requires i < |lines|
    ensures i < j <= |lines| && |found| <= 1
    ensures RepairFrom(lines, i, parse) == found + RepairFrom(lines, j, parse)
  {
    RepairStep(lines, i, parse);
    var line := JsText.Trim(lines[i]);
    if line == "" {
      return [], i + 1;
    }
    match parse(line) {
      case Some(v) =>
        found, j := [v], i + 1;
      case None =>
        var text, end := JoinLines(lines, i + 1, line);
        match parse(text) {
          case Some(v) =>
            // `i = j - 1`, then the loop's `i++`
            found, j := [v], end;
          case None =>
            found, j := [], i + 1;
        }
    }
  }

  /** `RepairFrom` unfolded once at line `i`, one case per branch of the loop body. */
  lemma RepairStep(lines: seq<string>, i: nat, parse: string -> Option<Json>)
    requires i < |lines|
    ensures var line := JsText.Trim(lines[i]);
      line == "" ==> RepairFrom(lines, i, parse) == RepairFrom(lines, i + 1, parse)
    ensures var line := JsText.Trim(lines[i]);
      line != "" && parse(line).Some? ==> RepairFrom(lines, i, parse) == [parse(line).value] + RepairFrom(lines, i + 1, parse)
    ensures var line := JsText.Trim(lines[i]);
      var join := JoinFrom(lines, i + 1, line, Balance(line));
      line != "" && parse(line).None? && parse(join.0).Some? ==>
        RepairFrom(lines, i, parse) == [parse(join.0).value] + RepairFrom(lines, join.1, parse)
    ensures var line := JsText.Trim(lines[i]);
      var join := JoinFrom(lines, i + 1, line, Balance(line));
      line != "" && parse(line).None? && parse(join.0).None? ==> RepairFrom(lines, i, parse) == RepairFrom(lines, i + 1, parse)
  {
  }

  /** When every line parses on its own, repair yields one object per line. */
  lemma {:induction false} RepairOfParsableLines(lines: seq<string>, i: nat, parse: string -> Option<Json>)
    requires i <= |lines|
    requires forall k :: i <= k < |lines| ==> !JsText.IsBlank(lines[k]) && parse(JsText.Trim(lines[k])).Some?
    ensures |RepairFrom(lines, i, parse)| == |lines| - i
    ensures forall k :: i <= k < |lines| ==> RepairFrom(lines, i, parse)[k - i] == parse(JsText.Trim(lines[k])).value
    decreases |lines| - i
  {
    if i < |lines| {
      RepairOfParsableLines(lines, i + 1, parse);
      RepairParsableStep(lines, i, parse);
      var rest := RepairFrom(lines, i + 1, parse);
      forall k | i <= k < |lines|
        ensures RepairFrom(lines, i, parse)[k - i] == parse(JsText.Trim(lines[k])).value
      {
        if k > i {
          assert RepairFrom(lines, i, parse)[k - i] == rest[k - (i + 1)];
        }
      }
    }
  }

  /** A line that is not blank and parses on its own contributes exactly its value. */
  lemma RepairParsableStep(lines: seq<string>, i: nat, parse: string -> Option<Json>)
    requires i < |lines|
    requires !JsText.IsBlank(lines[i]) && parse(JsText.Trim(lines[i])).Some?
    ensures RepairFrom(lines, i, parse) == [parse(JsText.Trim(lines[i])).value] + RepairFrom(lines, i + 1, parse)
  {
  }

  /**
   * The cleaned file text: a leading byte-order mark removed, line breaks normalised to
   * `"\n"`, surrounding whitespace trimmed.
   */
  function Cleaned(raw: string): (c: string)
    ensures |c| <= |raw|
    ensures JsText.Trim(c) == c
  {
    var n := TextLines.NormalizeNewlines(TextLines.StripBom(raw));
    JsText.TrimIdempotent(n);
    JsText.Trim(n)
  }

  /** A text with no byte-order mark, no `\r` and no surrounding whitespace is already clean. */
  lemma CleanedOfCleanText(raw: string)
    requires (|raw| == 0 || raw[0] != TextLines.Bom) && '\r' !in raw && JsText.Trim(raw) == raw
    ensures Cleaned(raw) == raw
  {
    TextLines.NormalizeWithoutCarriageReturn(raw);
  }

  /**
   * `processTransportData`: the parsed array, the repaired objects when the whole text does
   * not parse, or `None` (an error) when the text parses to something other than an array.
   * A text that parses to `null` is repaired too: reading `length` of `null` throws inside
   * the same `try`, so its `catch` runs the line repair.
   */
  function ProcessTransportData(raw: string, parse: string -> Option<Json>): (r: Option<seq<Json>>)
    ensures parse(Cleaned(raw)).Some? && parse(Cleaned(raw)).value.Arr? ==> r == Some(parse(Cleaned(raw)).value.items)
    ensures parse(Cleaned(raw)).Some? && !parse(Cleaned(raw)).value.Arr? && !parse(Cleaned(raw)).value.Null? ==> r.None?
    ensures parse(Cleaned(raw)).None? || parse(Cleaned(raw)) == Some(Null) ==>
      r == Some(RepairFrom(TextLines.NonBlankLines(Cleaned(raw)), 0, parse))
  {
    var text := Cleaned(raw);
    match parse(text)
    case Some(Arr(items)) => Some(items)
    case Some(Null) => Some(RepairFrom(TextLines.NonBlankLines(text), 0, parse))
    case Some(_) => None
    case None => Some(RepairFrom(TextLines.NonBlankLines(text), 0, parse))
  }

  /** The text `null` parses, but is repaired line by line into the one value `null`. */
  lemma NullTextRepaired(raw: string, parse: string -> Option<Json>)
    requires Cleaned(raw) == "null" && parse("null") == Some(Null)
    ensures ProcessTransportData(raw, parse) == Some([Null])
  {
    JsText.TrimStartOfNoLeadingSpace("null");
    JsText.TrimEndOfNoTrailingSpace("null");
    assert JsText.Trim("null") == "null";
    TextLines.SplitJoin(["null"], '\n');
    assert TextLines.Split("null", '\n') == ["null"];
    var lines := TextLines.NonBlankLines("null");
    assert lines == ["null"];
    RepairParsableStep(lines, 0, parse);
    assert RepairFrom(lines, 1, parse) == [];
    assert RepairFrom(lines, 0, parse) == [Null];
    assert ProcessTransportData(raw, parse) == Some(RepairFrom(lines, 0, parse));
  }

  /** The cleaned text never holds a carriage return, so repaired lines never end in one. */
  lemma CleanedHasNoCarriageReturn(raw: string)
    ensures '\r' !in Cleaned(raw)
  {
    var n := TextLines.NormalizeNewlines(TextLines.StripBom(raw));
    var t := JsText.Trim(n);
    JsText.TrimFacts(n);
    forall i | 0 <= i < |t| ensures t[i] != '\r' {
      assert t[i] == n[JsText.LeadingSpaces(n) + i];
    }
  }

  // ----- loading -----

  /** `airport.longitude_deg && airport.latitude_deg`: both coordinates non-zero. */
  function Eligible(): Airport -> bool {
    (a: Airport) => a.longitude != 0.0 && a.latitude != 0.0
  }

  /** The documents the data file yields, or none when it is missing or unusable. */
  function ServerAirports(file: Option<string>, parse: string -> Option<Json>, pf: string -> Option<real>,
                          cast: Json -> string): seq<Airport>
  {
    if file.None? then []
    else match ProcessTransportData(file.value, parse)
      case None => []
      case Some(items) => Converted(items, |items|, ServerConverter(pf, cast))
  }

  /**
   * The Redis clean-up before loading: `DEL` of the geo key, then `DEL` of the ranking, then
   * `EXPIRE` of the ranking; a failing command skips the ones after it.
   */
  function Clear(s: AirportRoutes.Stores, delGeo: IndexCall, delPop: IndexCall, now: int): (r: AirportRoutes.Stores)
    ensures r.docs == s.docs
    ensures delGeo == Works ==> r.geo == map[]
    ensures delGeo != Works ==> r.geo == s.geo
    ensures delGeo == Works && delPop == Works ==> r.pop == Empty
    ensures delGeo != Works || delPop != Works ==> r.pop == s.pop
  {
    if delGeo != Works then s
    else if delPop != Works then s.(geo := map[])
    else
      ExpireAfterDeleteIsNoOp(s.pop, now);
      AirportRoutes.Stores(s.docs, map[], Expire(Indexes.Delete(s.pop), PopularityTtl, now))
  }

  /**
   * `autoImportData`: nothing happens when the catalogue already has documents, or when the
   * file yields no airport; otherwise the indexes are cleared and the airports loaded in
   * batches of 50, geo-indexing only the ones with two non-zero coordinates.
   */
  function AutoImport(s: AirportRoutes.Stores, file: Option<string>, parse: string -> Option<Json>, pf: string -> Option<real>,
                      cast: Json -> string, delGeo: IndexCall, delPop: IndexCall,
                      outcome: nat -> BatchOutcome, now: int): (r: AirportRoutes.Stores)
    ensures |s.docs| > 0 || |ServerAirports(file, parse, pf, cast)| == 0 ==> r == s
    ensures |s.docs| == 0 ==> r.docs == Stored(Chunks(ServerAirports(file, parse, pf, cast), BatchSize), outcome, 0)
    ensures r.pop == s.pop || r.pop == Empty
  {
    var airports := ServerAirports(file, parse, pf, cast);
    if |s.docs| > 0 || |airports| == 0 then s
    else
      var cs := Chunks(airports, BatchSize);
      LoadDocs(Clear(s, delGeo, delPop, now), cs, outcome, Eligible(), 0);
      assert s.docs + Stored(cs, outcome, 0) == Stored(cs, outcome, 0);
      Load(Clear(s, delGeo, delPop, now), cs, outcome, Eligible(), 0)
  }

  /** When every batch is stored, the catalogue holds exactly the converted airports, in order. */
  lemma AutoImportStoresEverything(s: AirportRoutes.Stores, file: Option<string>, parse: string -> Option<Json>,
                                   pf: string -> Option<real>, cast: Json -> string, delGeo: IndexCall,
                                   delPop: IndexCall, outcome: nat -> BatchOutcome, now: int)
    requires |s.docs| == 0
    requires forall b :: outcome(b).inserted
    ensures AutoImport(s, file, parse, pf, cast, delGeo, delPop, outcome, now).docs == ServerAirports(file, parse, pf, cast)
  {
    var airports := ServerAirports(file, parse, pf, cast);
    if |airports| > 0 {
      StoredAll(Chunks(airports, BatchSize), outcome, 0);
    }
  }

  /**
   * With the geo key cleared, an airport on the equator or the prime meridian is stored but
   * gets no geo entry, unless another eligible airport of the import shares its key.
   */
  lemma ZeroCoordinateNotIndexed(s: AirportRoutes.Stores, file: Option<string>, parse: string -> Option<Json>,
                                 pf: string -> Option<real>, cast: Json -> string, delPop: IndexCall,
                                 outcome: nat -> BatchOutcome, now: int, a: Airport)
    requires |s.docs| == 0
    requires a in ServerAirports(file, parse, pf, cast)
    requires a.latitude == 0.0 || a.longitude == 0.0
    requires forall b :: b in ServerAirports(file, parse, pf, cast) && IndexKey(b) == IndexKey(a) ==> !Eligible()(b)
    ensures IndexKey(a) !in AutoImport(s, file, parse, pf, cast, Works, delPop, outcome, now).geo
  {
    var airports := ServerAirports(file, parse, pf, cast);
    var cs := Chunks(airports, BatchSize);
    var cleared := Clear(s, Works, delPop, now);
    LoadGeoKeys(cleared, cs, outcome, Eligible(), 0, IndexKey(a));
    if Indexed(cs, outcome, Eligible(), 0, IndexKey(a)) {
      var b, i :| 0 <= b < |cs| && 0 <= i < |cs[b]| && outcome(0 + b).inserted && outcome(0 + b).geoAdded &&
        Eligible()(cs[b][i]) && IndexKey(cs[b][i]) == IndexKey(a);
      ChunkMemberIn(cs, b, i);
      assert false;
    }
  }
}

=== FILE: sorting.dfy ===
/**
 * `Array.prototype.sort` with a numeric comparator `(a, b) => key(a) - key(b)`: a stable
 * sort, here an insertion sort on sequences. Descending orders use a negated key.
 */
module Sorting {

  ghost predicate SortedBy<T>(s: seq<T>, key: T -> real) {
    forall i, j :: 0 <= i < j < |s| ==> key(s[i]) <= key(s[j])
  }

  /** Inserts `x` after every element whose key is not greater than its own. */
  function Insert<T>(x: T, s: seq<T>, key: T -> real): (r: seq<T>)
    ensures |r| == |s| + 1
    ensures multiset(r) == multiset(s) + multiset{x}
    ensures SortedBy(s, key) ==> SortedBy(r, key)
  {
    if |s| == 0 then [x]
    else if key(x) < key(s[0]) then [x] + s
    else
      var rest := Insert(x, s[1..], key);
      assert s == [s[0]] + s[1..];
      InsertStep(x, s, key, rest);
      [s[0]] + rest
  }

  /** The head of a sorted `s`, not above `x`, stays in front of `x` inserted into the tail. */
  lemma InsertStep<T>(x: T, s: seq<T>, key: T -> real, rest: seq<T>)
    requires |s| > 0 && key(s[0]) <= key(x)
    requires multiset(rest) == multiset(s[1..]) + multiset{x} && (SortedBy(s[1..], key) ==> SortedBy(rest, key))
    ensures SortedBy(s, key) ==> SortedBy([s[0]] + rest, key)
  {
    if !SortedBy(s, key) {
      return;
    }
    assert SortedBy(s[1..], key) by {
      forall i, j | 0 <= i < j < |s[1..]| ensures key(s[1..][i]) <= key(s[1..][j]) {
        assert s[1..][i] == s[i + 1] && s[1..][j] == s[j + 1];
      }
    }
    forall k | 0 <= k < |rest|
      ensures key(s[0]) <= key(rest[k])
    {
      assert rest[k] in multiset(rest);
      if rest[k] != x {
        assert rest[k] in multiset(s[1..]);
        var j :| 0 <= j < |s[1..]| && s[1..][j] == rest[k];
        assert s[j + 1] == rest[k];
      }
    }
    var r := [s[0]] + rest;
    forall i, j | 0 <= i < j < |r| ensures key(r[i]) <= key(r[j]) {
      if i > 0 {
        assert r[i] == rest[i - 1] && r[j] == rest[j - 1];
      } else {
        assert r[j] == rest[j - 1];
      }
    }
  }

  /** Sorts `s` ascending by `key`, keeping equal keys in their original order. */
  function SortBy<T>(s: seq<T>, key: T -> real): (r: seq<T>)
    ensures |r| == |s|
    ensures multiset(r) == multiset(s)
    ensures SortedBy(r, key)
  {
    if |s| == 0 then []
    else
      assert s == s[..|s| - 1] + [s[|s| - 1]];
      Insert(s[|s| - 1], SortBy(s[..|s| - 1], key), key)
  }

  /** The elements of `s` whose key is `c`, in their order in `s`. */
  function Ties<T>(s: seq<T>, key: T -> real, c: real): seq<T> {
    if |s| == 0 then []
    else (if key(s[0]) == c then [s[0]] else []) + Ties(s[1..], key, c)
  }

  lemma {:induction false} TiesAppend<T>(a: seq<T>, b: seq<T>, key: T -> real, c: real)
    ensures Ties(a + b, key, c) == Ties(a, key, c) + Ties(b, key, c)
  {
    if |a| > 0 {
      assert (a + b)[1..] == a[1..] + b;
      TiesAppend(a[1..], b, key, c);
    } else {
      assert a + b == b;
    }
  }

  /** No element of `s` has key `c`, so none is kept. */
  lemma {:induction false} TiesNone<T>(s: seq<T>, key: T -> real, c: real)
    requires forall i :: 0 <= i < |s| ==> key(s[i]) != c
    ensures Ties(s, key, c) == []
  {
    if |s| > 0 {
      TiesNone(s[1..], key, c);
    }
  }

  /** The tail of a sorted sequence is sorted. */
  lemma SortedTail<T>(s: seq<T>, key: T -> real)
    requires |s| > 0 && SortedBy(s, key)
    ensures SortedBy(s[1..], key)
  {
    var tail := s[1..];
    forall i, j | 0 <= i < j < |tail| ensures key(tail[i]) <= key(tail[j]) {
      assert tail[i] == s[i + 1] && tail[j] == s[j + 1];
    }
  }

  /** `x` goes in front of a sorted `s` whose keys are all above its own: no tie is passed. */
  lemma InsertInFront<T>(x: T, s: seq<T>, key: T -> real, c: real)
    requires |s| > 0 && SortedBy(s, key) && key(x) < key(s[0])
    ensures Ties(Insert(x, s, key), key, c) == Ties(s, key, c) + Ties([x], key, c)
  {
    assert [x][1..] == [];
    assert Insert(x, s, key) == [x] + s;
    TiesAppend([x], s, key, c);
    if key(x) == c {
      forall i | 0 <= i < |s|
        ensures key(s[i]) != c
      {
        if i > 0 {
          assert key(s[0]) <= key(s[i]);
        }
      }
      TiesNone(s, key, c);
    }
  }

  /** Inserting into a sorted sequence puts `x` after every element of the same key. */
  lemma {:induction false} InsertAfterTies<T>(x: T, s: seq<T>, key: T -> real, c: real)
    requires SortedBy(s, key)
    ensures Ties(Insert(x, s, key), key, c) == Ties(s, key, c) + Ties([x], key, c)
  {
    if |s| == 0 {
      assert [x][1..] == [];
      assert Insert(x, s, key) == [x];
    } else if key(x) < key(s[0]) {
      InsertInFront(x, s, key, c);
    } else {
      SortedTail(s, key);
      InsertAfterTies(x, s[1..], key, c);
      assert Insert(x, s, key) == [s[0]] + Insert(x, s[1..], key);
      BehindHead(s, Insert(x, s[1..], key), x, key, c);
    }
  }

  /** Past the head of `s`: the head's tie, if any, stays in front of the ties that follow. */
  lemma BehindHead<T>(s: seq<T>, rest: seq<T>, x: T, key: T -> real, c: real)
    requires |s| > 0
    requires Ties(rest, key, c) == Ties(s[1..], key, c) + Ties([x], key, c)
    ensures Ties([s[0]] + rest, key, c) == Ties(s, key, c) + Ties([x], key, c)
  {
    var head := if key(s[0]) == c then [s[0]] else [];
    var before, mine := Ties(s[1..], key, c), Ties([x], key, c);
    TiesCons(s[0], rest, key, c);
    assert Ties(s, key, c) == head + before;
    assert head + (before + mine) == (head + before) + mine;
  }

  lemma TiesCons<T>(h: T, t: seq<T>, key: T -> real, c: real)
    ensures Ties([h] + t, key, c) == (if key(h) == c then [h] else []) + Ties(t, key, c)
  {
    assert ([h] + t)[1..] == t;
  }

  /** The sort is stable: the elements of any one key keep their input order. */
  lemma {:induction false} SortByStable<T>(s: seq<T>, key: T -> real, c: real)
    ensures Ties(SortBy(s, key), key, c) == Ties(s, key, c)
  {
    if |s| > 0 {
      var init := s[..|s| - 1];
      var last := s[|s| - 1];
      SortByStable(init, key, c);
      InsertAfterTies(last, SortBy(init, key), key, c);
      assert s == init + [last];
      TiesAppend(init, [last], key, c);
    }
  }

  /** An element of the sorted sequence is an element of the input, and conversely. */
  lemma SortByMembers<T>(s: seq<T>, key: T -> real, x: T)
    ensures x in SortBy(s, key) <==> x in s
  {
    var r := SortBy(s, key);
    assert x in r <==> x in multiset(r);
    assert x in s <==> x in multiset(s);
  }

  /** Inserting an element whose key is not below any key of `s` appends it. */
  lemma {:induction false} InsertAtEnd<T>(s: seq<T>, x: T, key: T -> real)
    requires forall i :: 0 <= i < |s| ==> key(s[i]) <= key(x)
    ensures Insert(x, s, key) == s + [x]
  {
    if |s| > 0 {
      InsertAtEnd(s[1..], x, key);
      assert [s[0]] + (s[1..] + [x]) == s + [x];
    }
  }

  /** A sequence already in order is left unchanged. */
  lemma {:induction false} SortBySorted<T>(s: seq<T>, key: T -> real)
    requires SortedBy(s, key)
    ensures SortBy(s, key) == s
  {
    if |s| > 0 {
      var p := s[..|s| - 1];
      assert SortedBy(p, key);
      SortBySorted(p, key);
      InsertAtEnd(p, s[|s| - 1], key);
      assert p + [s[|s| - 1]] == s;
    }
  }
}

=== FILE: text_lines.dfy ===
/**
 * Line handling of the data-file readers: `split("\n")`, the newline normalisation and the
 * byte-order-mark removal done before parsing, and counting a character in a line.
 */
module TextLines {
  import opened Wrappers
  import JsText
  import Seqs

  /** `parts.join([sep])`. */
  function Join(parts: seq<string>, sep: char): string {
    if |parts| == 0 then ""
    else if |parts| == 1 then parts[0]
    else parts[0] + [sep] + Join(parts[1..], sep)
  }

  /** `s.split(sep)`: the pieces between separators, so there is one more piece than separators. */
  function Split(s: string, sep: char): (parts: seq<string>)
    ensures |parts| >= 1
    ensures forall i :: 0 <= i < |parts| ==> sep !in parts[i]
    ensures Join(parts, sep) == s
    decreases |s|
  {
    match JsText.FindChar(s, c => c == sep)
    case None => [s]
    case Some(k) =>
      var rest := Split(s[k + 1..], sep);
      assert s == s[..k] + [sep] + s[k + 1..];
      assert sep !in s[..k] by {
        forall i | 0 <= i < k ensures s[..k][i] != sep { assert s[..k][i] == s[i]; }
      }
      assert ([s[..k]] + rest)[1..] == rest;
      [s[..k]] + rest
  }

  /** Splitting a join of separator-free pieces gives the pieces back. */
  lemma {:induction false} SplitJoin(parts: seq<string>, sep: char)
    requires |parts| >= 1
    requires forall i :: 0 <= i < |parts| ==> sep !in parts[i]
    ensures Split(Join(parts, sep), sep) == parts
    decreases |parts|
  {
    var s := Join(parts, sep);
    var p := parts[0];
    if |parts| == 1 {
      assert JsText.FindChar(p, c => c == sep).None? by {
        forall i | 0 <= i < |p| ensures p[i] != sep { assert p[i] in p; }
      }
    } else {
      SplitJoin(parts[1..], sep);
      assert s == p + [sep] + Join(parts[1..], sep);
      assert forall i :: 0 <= i < |p| ==> s[i] == p[i] && s[i] != sep by {
        forall i | 0 <= i < |p| ensures s[i] == p[i] && s[i] != sep { assert p[i] in p; }
      }
      assert s[|p|] == sep;
      var f := JsText.FindChar(s, c => c == sep);
      assert f == Some(|p|);
      assert s[..|p|] == p;
      assert s[|p| + 1..] == Join(parts[1..], sep);
    }
  }

  /** How many times `c` occurs in `s` (`(s.match(/c/g) || []).length`). */
  function CountChar(s: string, c: char): (n: nat)
    ensures n <= |s|
    ensures n == 0 <==> c !in s
  {
    if |s| == 0 then 0
    else
      assert c in s <==> s[0] == c || c in s[1..] by {
        assert s == [s[0]] + s[1..];
      }
      (if s[0] == c then 1 else 0) + CountChar(s[1..], c)
  }

  lemma {:induction false} CountCharAppend(a: string, b: string, c: char)
    ensures CountChar(a + b, c) == CountChar(a, c) + CountChar(b, c)
  {
    if |a| > 0 {
      assert (a + b)[1..] == a[1..] + b;
      CountCharAppend(a[1..], b, c);
    } else {
      assert a + b == b;
    }
  }

  /** `replace(/\r\n/g, "\n").replace(/\r/g, "\n")`. */
  function NormalizeNewlines(s: string): (r: string)
    ensures '\r' !in r
    ensures |r| <= |s|
  {
    if |s| == 0 then ""
    else if s[0] == '\r' && |s| > 1 && s[1] == '\n' then "\n" + NormalizeNewlines(s[2..])
    else if s[0] == '\r' then "\n" + NormalizeNewlines(s[1..])
    else [s[0]] + NormalizeNewlines(s[1..])
  }

  /** Text without carriage returns is left as it is. */
  lemma {:induction false} NormalizeWithoutCarriageReturn(s: string)
    requires '\r' !in s
    ensures NormalizeNewlines(s) == s
  {
    if |s| > 0 {
      assert s[0] != '\r';
      assert '\r' !in s[1..] by {
        forall i | 0 <= i < |s[1..]| ensures s[1..][i] != '\r' { assert s[1..][i] == s[i + 1]; }
      }
      NormalizeWithoutCarriageReturn(s[1..]);
      assert s == [s[0]] + s[1..];
    }
  }

  /** Normalising twice is normalising once. */
  lemma NormalizeIdempotent(s: string)
    ensures NormalizeNewlines(NormalizeNewlines(s)) == NormalizeNewlines(s)
  {
    NormalizeWithoutCarriageReturn(NormalizeNewlines(s));
  }

  const Bom: char := '\U{FEFF}'

  /** `replace(/^\uFEFF/, "")`: drops a leading byte-order mark. */
  function StripBom(s: string): (r: string)
    ensures |s| > 0 && s[0] == Bom ==> r == s[1..]
    ensures (|s| == 0 || s[0] != Bom) ==> r == s
  {
    if |s| > 0 && s[0] == Bom then s[1..] else s
  }

  function NotBlank(): string -> bool {
    line => !JsText.IsBlank(line)
  }

  /** `text.split("\n").filter((line) => line.trim())`. */
  function NonBlankLines(text: string): (lines: seq<string>)
    ensures forall i :: 0 <= i < |lines| ==> !JsText.IsBlank(lines[i]) && '\n' !in lines[i]
  {
    var parts := Split(text, '\n');
    var lines := Seqs.Filter(parts, NotBlank());
    assert forall i :: 0 <= i < |lines| ==> lines[i] in parts && NotBlank()(lines[i]);
    lines
  }
}

=== FILE: wrappers.dfy ===
/** Optional values, used for JavaScript's `undefined`/`null`/`NaN` results. */
module Wrappers {

  datatype Option<+T> = None | Some(value: T) {

    /** The wrapped value, or `default` when there is none. */
    function GetOr(default: T): T {
      match this
      case Some(v) => v
      case None => default
    }
  }
}
